=== FILE: README.md ===
# Bikeability scoring core in Dafny

This project models the deterministic core of the bikeability and walkability
pipeline. The pipeline runs in five stages:

1. It scores OpenStreetMap road segments for **separation** from motor traffic
   and for **surface** quality. Each score comes from an ordered list of tag
   rules in which the last matching rule wins.
2. It fills unscored rows by inference from peers.
3. It turns the segment scores into a cost **modifier** for every routing edge.
   Either the subtractive, clamped modifier of `suitability.py` or the additive
   modifier of `main.py` is used, and accident counts can enter it.
4. It scores the routes from each building to its points of interest (POIs),
   using a distance decay, weight vectors and accident factors. It then
   aggregates them into one score per building.
5. It colours values for the web map.

Modules (one file each):

- `wrappers.dfy`: Option/Result and Python's exception kinds.
- `text.dfy`: Python string operations: find, split, join, removeprefix/removesuffix, `int()` and `str()`.
- `seqs.dfy`: row masks (filters).
- `rounding.dfy`: round-half-to-even of a mean.
- `config.dfy`: the configuration tables of `bikeability_config.py` and the persona weights.
- `cascade.dfy`: the last-match-wins rule cascade over optional string tags.
- `suitability_rules.dfy`: the separation and surface rules of `suitability.py`, read as priority functions.
- `inference.dfy`: `fill_in_scores` and the two scoring passes.
- `network_filter.dfy`: the row filters, the right-of-way flag, link stripping and `remove_ignored_types`.
- `import_osm.dfy`: the older rule set of `import_osm.py`.
- `accidents.dfy`: accident matching and the accident score and factor tables.
- `edge_cost.dfy`: the edge modifiers of `suitability_to_network` and `main.score_network`.
- `decay.dfy`: the walkability decay, `calc_score` and `format_score` of both helpers.
- `route_scores.dfy`: `score_routes` and `calc_building_scores`.
- `building_score.dfy`: POI type and category, and `score_building` / `score_buildings` of `__main__.py`.
- `shortest_path.dfy`: `calc_shortest_path_length` over a finite weighted digraph.
- `colors.dfy`: `convert_plotly_to_rgb` and `add_color_to_data`.

## Modelling conventions

- Missing pandas cells (NaN/None) are `None`. A comparison `==` with a value, or `isin` of a list of strings, never matches `None`, so `~` of such a mask is true. The exception is `Inference`: pandas `isin([x])` matches NaN when `x` is itself NaN, so a missing name or highway matches the other missing ones.
- Python and NumPy `round` are round-half-to-even on the exact mean.
- Decimal numbers are Dafny `real`, which is exact. Float rounding error is not modelled.
- Python's `max` keeps the first element unless a later one compares greater. Any comparison with NaN is false, so a leading NaN survives.
- Python's `sum` propagates NaN.
- `nsmallest`/`nlargest` are the first `n` elements of the ascending or descending sorted list.
- The logistic decay of `helper.py` and the colour-scale sampling of plotly are parameters:
  - `decay: real -> real` for the decay;
  - the `generated` colour dictionary for the colour scale.
- Geometry is a parameter as well:
  - the 5-unit buffer test is `inBuffer`;
  - the routes of a building are `routesOf`.
- The pipeline members compute what the code does, defects included (see "## Findings"):
  - `NetworkFilter.Prepare` sets the right-of-way flag as written;
  - `EdgeCost.MainEdge` and `EdgeCost.MainScoreNetwork` use the written additive modifier;
  - `BuildingScore.ScoreBuildings` pairs the weights with the `nsmallest` route scores.

  The corrected behaviour has its own members beside them: `NetworkFilter.RightOfWay`, `EdgeCost.MainEdgeCorrected`, `EdgeCost.MainScoreNetworkCorrected` and `BuildingScore.ScoreBuildingsCorrected`. The one exception is the score matrix of `RouteScores`, which is the outer product, because the bikeability helper as written fails on every configured weight vector.

## Model

| member | source | states |
|---|---|---|
| Wrappers.MapAll | main.py:418-445 | A loop over items that stops at the first exception: succeeds exactly when every item succeeds, keeps order and length, and reports the error of a failing item |
| Text.Find | suitability.py:143-146 | The first occurrence of the separator: it occurs there and at no earlier index; absent means it occurs nowhere |
| Text.Before | suitability.py:143-146 | `split(sep, 1)[0]` is a prefix of the string, and is the whole string exactly when the separator does not occur |
| Text.Cut | suitability.py:346-347 | The cell-level `str.split(pat, n=1)[0]`: a missing cell stays missing, the result is a prefix, and a value without the separator is unchanged |
| Text.RemovePrefix | visualisation/web_visualisation.py:39 | The prefix is taken off only when present; otherwise the string is unchanged |
| Text.RemoveSuffix | visualisation/web_visualisation.py:40 | The suffix is taken off only when present; otherwise the string is unchanged |
| Text.ParseNatToString | visualisation/web_visualisation.py:43 | `int(str(n)) == n` for every natural number |
| Text.NatToStringInjective | helper.py:115-117 | Distinct numbers print differently |
| Text.SplitJoin | visualisation/web_visualisation.py:42 | Splitting a joined list gives the list back when no piece contains the separator's first character |
| Seqs.Filter | suitability.py:327-331 | A row mask keeps exactly the rows it selects, in order, and never more rows than there were |
| Seqs.FilterAppend | suitability.py:327-331 | Masking a concatenation masks each part |
| Seqs.FilterLength | suitability.py:327-331 | A filter keeps as many rows as its mask counts |
| Seqs.FilterAll | main.py:382 | A mask that selects every row keeps the frame unchanged |
| Seqs.FilterPosition | main.py:382 | A kept row `j` lands at the position equal to the number of kept rows before it |
| Seqs.FilterPositions | main.py:382 | The filtered frame has as many rows as the mask counts, and every kept row sits after the kept rows before it |
| Seqs.FilterKeepsPositions | main.py:382 | A kept row whose predecessors are all kept keeps its index |
| Rounding.RoundHalfEven | suitability.py:244 | The result is within half a unit of `num / den`, and an exact tie goes to the even integer |
| Rounding.RoundMeanBounds | suitability.py:244 | The rounded mean of values in `[lo, hi]` lies in `[lo, hi]` |
| Rounding.RoundMeanConstant | main.py:270-271 | The rounded mean of equal values is that value |
| Rounding.SumBounds | suitability.py:258 | A sum of `n` values in `[lo, hi]` lies in `[lo * n, hi * n]` |
| Config.DefaultScores | bikeability_config.py:9-11 | Both defaults are on the 0..5 scale and are equal |
| Config.Weights | bikeability_config.py:16-19 | Every factor weight is non-negative |
| Config.PenaltyTable | bikeability_config.py:23-49 | Each translation table covers 0..5, maps 0 to 1 and 5 to 0, is strictly decreasing, and is non-negative |
| Config.TranslationFactors | bikeability_config.py:23-54 | All four translation tables are well formed |
| Config.IgnoredTypes | bikeability_config.py:57 | "motorway" and "service" are ignored, but "motorway_link" is not |
| Config.PoisModel | bikeability_config.py:61-70 | The POI dictionary has the keys "amenity" and "shop", in that order |
| Config.ModelWeightFactors | bikeability_config.py:72-79 | The category keys are distinct, and every weight vector has length 3 and is non-increasing |
| Config.ModelTotal | bikeability_config.py:72-79 | The model weights add up to 43 |
| Config.FamilyPois | bikeability_config.py:81-93 | The family POI dictionary has the keys "amenity" and "shop" |
| Config.SeniorPois | bikeability_config.py:95-107 | The senior POI dictionary has the keys "amenity" and "shop" |
| Config.StudentPois | bikeability_config.py:109-121 | The student POI dictionary has the keys "amenity" and "shop" |
| Config.FamilyWeightFactors | bikeability_config.py:124-134 | Every family weight vector has the form `[w, 0, 0]` with `w > 0` |
| Config.SeniorWeightFactors | bikeability_config.py:136-146 | Every senior weight vector has the form `[w, 0, 0]` with `w > 0` |
| Config.StudentWeightFactors | bikeability_config.py:148-158 | Every student weight vector has the form `[w, 0, 0]` with `w > 0` |
| Config.PersonaTotals | walkability/main.py:57-91 | The persona weights add up to 55 (family), 55 (senior) and 51 (student) |
| Config.Zip | bikeability_config.py:165 | Python's `zip` pairs elements position by position, up to the shorter list |
| Config.PersonaNamesMisaligned | bikeability_config.py:160-165 | Zipping the persona names with the persona weights pairs "students" with the senior weights and "seniors" with the student weights, and those two differ |
| Cascade.ApplyIsLastMatch | suitability.py:63-101 | Last match wins: the cascade yields the score of the last matching rule, and leaves the initial value when no rule matches |
| Cascade.ApplyAppend | suitability.py:155-215 | Running two rule lists one after the other is the same as running their concatenation |
| Cascade.LastMatchDecides | suitability.py:63-101 | After `n` rules, the last of them that matches decides the score |
| Cascade.NoMatchKeeps | suitability.py:40 | Rules that do not match leave the sentinel in place |
| SuitabilityRules.ClassScore | suitability.py:66-93 | The class rules leave either the fallback or a score on the 0..5 scale |
| SuitabilityRules.ClassRulesGiveClassScore | suitability.py:66-93 | The eleven class rules, run in order, equal the reading from the most specific evidence down: cycleway subtype, then highway class, then sidepath flag, then the unclassified and motorway defaults |
| SuitabilityRules.HighwayClassRulesGiveScore | suitability.py:63-84 | The highway-class and sidepath rules equal their priority reading |
| SuitabilityRules.CyclewayTypeRulesGiveScore | suitability.py:86-93 | The cycleway-subtype rules equal their priority reading |
| SuitabilityRules.SeparationIsPriority | suitability.py:63-101 | The thirteen separation rules equal the priority reading, with the cycleway/bicycle-road verdict on top |
| SuitabilityRules.CyclewayVerdictIsFinal | suitability.py:95-101 | A cycleway or bicycle road scores 4 when motor vehicles are tagged "yes" and 5 otherwise (a missing tag included), whatever the earlier rules set |
| SuitabilityRules.SeparationRange | suitability.py:63-101 | A separation score is either the -1 sentinel or on the 0..5 scale |
| SuitabilityRules.SeparationPrimaryWithTrack | suitability.py:76-93 | `primary` with `cycleway=track` scores 4: the subtype beats the class |
| SuitabilityRules.SeparationPrimaryWithSidepath | suitability.py:72-79 | `primary` with `bicycle=use_sidepath` scores 1: the class beats the sidepath flag |
| SuitabilityRules.SeparationUnclassifiedWithSidepath | suitability.py:66-73 | `unclassified` with a sidepath scores 3 |
| SuitabilityRules.SeparationCyclewayWithLane | suitability.py:86-101 | A cycleway with `cycleway=lane` scores 5: the verdict beats the subtype |
| SuitabilityRules.SeparationBicycleRoadWithTraffic | suitability.py:95-101 | A bicycle road with `motor_vehicle=yes` scores 4 |
| SuitabilityRules.SeparationMotorway | suitability.py:63-64 | A motorway scores 0 |
| SuitabilityRules.SeparationUnknownHighway | suitability.py:63-101 | An unknown highway class stays unscored (-1) |
| SuitabilityRules.Untagged | suitability.py:318-324 | A row with every tag missing |
| SuitabilityRules.Generalise | suitability.py:145-150 | A missing surface stays missing; a value containing the word becomes the word; any other value is unchanged |
| SuitabilityRules.NormaliseSurfaceCases | suitability.py:145-150 | The normalisation replaces a value containing "cobblestone", else "asphalt", else "concrete" by that word, and then cuts before the first ";" and then the first ":"; a missing value stays missing |
| SuitabilityRules.SurfaceWordsDisjoint | suitability.py:145-150 | None of the three words contains another, so each normalises to itself |
| SuitabilityRules.SurfaceWordsUncut | suitability.py:169-174 | The three words contain neither ";" nor ":" |
| SuitabilityRules.GradeScore | suitability.py:155-164 | The tracktype grade gives a score from 1 to 5, or leaves the row unscored |
| SuitabilityRules.MaterialScore | suitability.py:176-196 | A surface bucket gives a score from 0 to 5, else the fallback |
| SuitabilityRules.FinishingScore | suitability.py:199-215 | Smoothness, the sidepath flag and impassable give a score from 0 to 5, else the fallback |
| SuitabilityRules.GradeRulesGiveGradeScore | suitability.py:155-164 | The tracktype rules equal the grade reading |
| SuitabilityRules.MaterialRulesGiveMaterialScore | suitability.py:176-196 | The bucket rules equal the bucket reading; "mud" ends in the later bucket |
| SuitabilityRules.FinishingRulesGiveFinishingScore | suitability.py:199-215 | Smoothness, then the sidepath flag, then impassable, read from the most decisive down |
| SuitabilityRules.SurfaceIsPriority | suitability.py:155-215 | The eighteen surface rules equal finishing over bucket over grade |
| SuitabilityRules.SurfaceRange | suitability.py:155-215 | A surface score is either the sentinel or on the 0..5 scale |
| SuitabilityRules.GradeScoreIsSixMinusGrade | suitability.py:155-164 | Tracktype grade `g`, written "g" or "gradeg", scores `6 - g` |
| SuitabilityRules.ImpassableAndSidepathAreFinal | suitability.py:211-215 | `smoothness=impassable` forces 0; otherwise a sidepath flag forces 3 |
| SuitabilityRules.MudScoresOne | suitability.py:186-196 | "mud" is listed at 2 and at 1 and ends as 1 |
| Inference.SetScores | suitability.py:240-247 | The scores of the selected rows, without the sentinel: exactly the set scores of the rows the mask selects |
| Inference.SetScoresInRange | suitability.py:240-247 | The set scores of valid rows lie on the 0..5 scale |
| Inference.TypeDefaultInRange | suitability.py:240-247 | A per-highway default of valid rows with a default in range lies in 0..5 |
| Inference.FillInRange | suitability.py:249-268 | A filled value of valid rows lies in 0..5 |
| Inference.FillInScores | suitability.py:249-268 | Rows are visited in order. Scored rows are unchanged. An unscored row receives the rounded mean of its name peers as filled so far, else its highway's rounded mean, else the default. With valid inputs, no sentinel remains |
| Inference.Table | suitability.py:240-247 | The scoring table pairs each segment's name and highway with its score |
| Inference.ScoreSeparation | suitability.py:63-109 | Row `i` keeps segment `i`'s name and highway and gets its cascade score. The missing rows are exactly the unscored ones. Each unscored row gets `Fill` of the table as the loop has left it, with type defaults from the initial table, so every row ends scored |
| Inference.ScoreSurfaces | suitability.py:145-227 | Row `i` keeps segment `i`'s name and highway and gets its surface cascade score. The missing rows are exactly the unscored rows without any surface tag. Inference runs only when there are such rows. It then gives each unscored row `Fill` of the table as the loop has left it. Otherwise the scores are left as computed |
| NetworkFilter.Prepare | suitability.py:338-347 | The highway is cut before the first "_", and nothing else of the segment changes. The right-of-way flag is the one the code sets, which differs from the corrected rule exactly on bus ways tagged "yes" or "Yes" |
| NetworkFilter.FilterNetwork | suitability.py:327-347 | Row `i` of the result is the prepared row `i` of the mask-filtered input, so the surviving rows keep their order and multiplicity. Every row of a non-ignored type with a bicycle value that is not forbidden survives |
| NetworkFilter.StripsSuffix | suitability.py:346-347 | `parent_suffix` is cut to `parent` |
| NetworkFilter.MotorwayLinkBecomesMotorway | suitability.py:327-347 | Filtering runs before stripping, so `motorway_link` survives as "motorway" |
| NetworkFilter.LivingStreetBecomesLiving | suitability.py:346-347 | `living_street` becomes "living" |
| NetworkFilter.BusWayOpenToBicycles | suitability.py:342-344 | A bus way tagged `bicycle=yes` is denied the right of way as written, and granted it by the corrected rule |
| NetworkFilter.RightOfWayDiffersOnlyOnBusWays | import_osm.py:240-242 | The written and corrected rules differ exactly on bus ways tagged "yes" or "Yes" |
| NetworkFilter.RemoveIgnoredTypes | suitability.py:505-512 | The edges kept are exactly those not of an ignored type, and the nodes kept are exactly the given nodes that end a kept edge |
| ImportOsm.OldSeparationIsPriority | import_osm.py:42-77 | The cycleway rule runs first, so it decides only when no class rule matches |
| ImportOsm.BicycleRoadOnResidential | import_osm.py:42-63 | `bicycle_road=yes` on `residential` ends with score 2 |
| ImportOsm.CyclewayWithLane | import_osm.py:42-75 | `highway=cycleway` with `cycleway=lane` ends with score 3 |
| ImportOsm.PlainCycleway | import_osm.py:42-45 | A plain cycleway scores 5 |
| ImportOsm.OldMaterialScore | import_osm.py:148-165 | An older bucket gives a score from 0 to 5, else the fallback |
| ImportOsm.OldMaterialRulesGiveOldMaterialScore | import_osm.py:148-165 | The older bucket rules equal their priority reading |
| ImportOsm.OldSurfaceIsPriority | import_osm.py:129-184 | The older surface rules equal finishing over bucket over grade |
| ImportOsm.SeparationOrDefault | import_osm.py:82-88 | An unscored separation row takes the surface default, which equals the separation default; the result is in 0..5 |
| ImportOsm.SurfaceOrDefault | import_osm.py:202-203 | Every unscored surface row takes the surface default, so every surface score is in 0..5 |
| ImportOsm.SurfaceColumn | import_osm.py:186-203 | The missing list holds the unscored rows without surface tags, and the unknown list holds the unscored rows with at least one |
| ImportOsm.MissingAndUnknownPartition | import_osm.py:186-190 | Every unscored row is in exactly one of the two lists |
| ImportOsm.ScoreOsm | import_osm.py:228-260 | The rows are the filtered network. Row `i`'s separation and surface are its cascade scores, or the configured default when unscored. The missing list holds exactly the unscored rows with no surface tag |
| ImportOsm.CobblestoneScores | import_osm.py:119-120 | A row whose surface contains "cobblestone" scores 3 here, where the newer rules give 2, whatever its tracktype, provided no smoothness value or sidepath flag overrides the bucket |
| ImportOsm.ChipsealScoresFive | import_osm.py:148-150 | "chipseal" scores 5 |
| ImportOsm.MudScoresOne | import_osm.py:157-163 | "mud" ends as 1 because the later bucket wins |
| Accidents.HitsCountsInside | accident_data/accidents_util.py:30-34 | The loop's count equals the number of accidents inside the edge's buffer |
| Accidents.AccidentScore | accident_data/accidents_util.py:36-40 | The accident score is in 1..5 |
| Accidents.AccidentScoreBands | accident_data/accidents_util.py:36-40 | At most 1 accident gives 5, 2 gives 4, 3-4 give 3, 5-6 give 2, and 7 or more give 1 |
| Accidents.AccidentScoreNonIncreasing | accident_data/accidents_util.py:36-40 | More accidents never give a better score |
| Accidents.MatchAccidents | accident_data/accidents_util.py:29-41 | Each edge is kept, in order. It gains exactly the number of accidents inside its buffer and the score of that count |
| Accidents.AccidentFactor | helper.py:143-148 | The factor is in [0, 1], and at least 0.95 for a non-negative count |
| Accidents.AccidentFactorNonIncreasing | walkability/helper.py:147-152 | Over non-negative counts the factor never grows with the count |
| EdgeCost.Related | suitability.py:398 | The segments of an edge are exactly the scored segments whose id is among the edge's OSM ids |
| EdgeCost.EdgeScores | main.py:270-271 | The edge scores are rounded means. They lie in 0..5 for scores in range, and are the common value when all segments agree |
| EdgeCost.RoundMeanFacts | suitability.py:405-406 | The rounded mean of scores in 0..5 lies in 0..5, and that of equal scores is the score |
| EdgeCost.Lookup | suitability.py:416-422 | A table lookup succeeds exactly for keys in the table; otherwise it is a KeyError naming the key |
| EdgeCost.AccidentTerm | suitability.py:407-418 | The accident column is read only when accidents are used, and fails exactly when it is missing |
| EdgeCost.SubtractiveModifier | suitability.py:415-424 | The modifier is at least 0.1. It equals one minus the weighted penalty whenever that is at least 0.1. It is at most 1 for non-negative tables and weights |
| EdgeCost.PenaltyNonNegative | suitability.py:415-422 | Non-negative tables and weights give a non-negative penalty |
| EdgeCost.SubtractiveModifierMonotone | suitability.py:415-424 | Better scores never lower the modifier |
| EdgeCost.ConfiguredModifierExample | suitability.py:420-422 | With the configured tables and weights, separation 2 and surface 5 without accidents give 0.88 |
| EdgeCost.SuitabilityEdge | suitability.py:390-434 | An unmatched edge gets modifier 0.01, length divided by 0.01, and scores 0. A matched edge gets the rounded-mean scores of its segments and exactly `SubtractiveModifier` of them, i.e. max(0.1, 1 − weighted penalty), and `length / modifier`. It fails exactly on a missing accident score or an untranslatable score |
| EdgeCost.DivideByFraction | suitability.py:426 | A non-negative length divided by a modifier in (0, 1] is not shorter |
| EdgeCost.SuitabilityToNetwork | suitability.py:390-439 | Succeeds exactly when every edge does. Result `i` is edge `i`'s `SuitabilityEdge` cost, with a positive modifier. Valid inputs never fail |
| EdgeCost.Rescale | main.py:276-283 | Each weight is scaled by 50 over the weight sum, so the three add up to 50 and stay non-negative. A zero weight sum is a division error |
| EdgeCost.AdditiveModifierAsWritten | main.py:284-287 | Without accidents, the modifier is one plus the weighted penalty. With them, it fails exactly when the weights cannot be rescaled, and it is one plus the separation penalty times the separation score plus the surface and accident penalties times their rescaled weights |
| EdgeCost.AsWrittenVersusCorrected | main.py:284-291 | The written and corrected modifiers fail on the same inputs and agree without accidents. With accidents they differ by the separation penalty times (score minus rescaled weight), so they agree exactly when that penalty is 0 or the score equals the weight |
| EdgeCost.AsWrittenAtLeastOne | main.py:284-287 | For a score in 0..5 with non-negative tables and weights, the written modifier is at least 1 |
| EdgeCost.AdditiveModifier | main.py:284-291 | The corrected additive modifier fails only for a zero weight sum, and is at least 1 for non-negative tables and weights |
| EdgeCost.AdditiveModifierMonotone | main.py:284-291 | Worse scores never make the corrected modifier smaller |
| EdgeCost.SeparationTermInverted | main.py:285 | As written, with the configured tables, surface 5 and accidents 5, separation 0 gives 1.0 and separation 1 gives 1.1, so the unprotected road costs less; the corrected modifier orders them the other way |
| EdgeCost.EdgeInputs | main.py:262-287 | An edge with no segment has no inputs. For a matched edge, a missing accident score raises even when accidents are not used. Otherwise the lookups succeed exactly when the weights can be rescaled (if accidents are used) and the scores are table keys. The inputs are then the rounded-mean scores and the accident score in use |
| EdgeCost.MainEdge | main.py:255-300 | A failed lookup of the edge's inputs is the edge's error. An edge without segments gets modifier and length 9999999 and scores 0. Otherwise the edge succeeds with its looked-up scores, the written additive modifier of those scores, and `length * modifier` |
| EdgeCost.MainEdgeAtLeastOne | main.py:255-300 | On scores in 0..5 with non-negative tables and weights, an edge's written modifier is at least 1 |
| EdgeCost.MainEdgeCorrected | main.py:255-300 | As `MainEdge`, but with the corrected additive modifier |
| EdgeCost.MainEdgeCorrectedAtLeastOne | main.py:284-291 | With non-negative tables and weights, the corrected edge modifier is at least 1 |
| EdgeCost.MainEdgesAgreeWithoutAccidents | main.py:255-300 | Without accidents, the written and corrected edge costs are equal |
| EdgeCost.MainScoreNetwork | main.py:255-300 | Edge `i` gets `MainEdge` of edge `i`, and the run fails exactly when some edge fails. On scores in 0..5 with non-negative tables and weights every modifier is at least 1. A matched edge without an accident score makes the run fail |
| EdgeCost.MainScoreNetworkCorrected | main.py:255-300 | Edge `i` gets `MainEdgeCorrected` of edge `i`; with non-negative tables and weights every modifier is at least 1 |
| Decay.WalkDecay | walkability/helper.py:62-66 | The polynomial of the distance in miles, clamped to [0, 100] |
| Decay.WalkDecayEnds | walkability/helper.py:62-66 | Distance 0 scores 100, and one mile scores 0 |
| Decay.OuterScore | walkability/helper.py:94 | `np.outer`: one row per route, one column per weight, entry `(i, j)` = decay `i` times weight `j` |
| Decay.OuterScoreBounds | walkability/helper.py:65-66 | A zero weight gives a zero column; with a non-negative weight each entry lies in `[0, 100 * w[j]]` |
| Decay.CalcScore | walkability/helper.py:70-95 | The score matrix has one row per distance and one column per weight, entry `(i, j)` = decay of distance `i` times weight `j`, and zero columns for zero weights |
| Decay.ColumnNames | walkability/helper.py:119-121 | "score_1" to "score_k" in order; the number after the prefix reads back as the position |
| Decay.ColumnNamesDistinct | helper.py:115-117 | No two score columns share a name |
| Decay.ElementwiseProduct | helper.py:90 | `np.multiply` succeeds exactly when the lengths agree or one is 1, with the broadcast length |
| Decay.FrameOfVector | helper.py:119-122 | A vector fills a frame only with exactly one column and one index entry per value |
| Decay.HelperScoreFailsForWideWeights | helper.py:90-122 | As written, every weight vector with two or more entries makes the frame construction fail |
| Decay.HelperScore | walkability/helper.py:94 | The corrected score always fits its frame, with one row per route and one column per weight |
| RouteScores.BaseKept | main.py:382 | At most seven route columns survive, and at least one exactly when there are routes |
| RouteScores.WeightOf | main.py:364 | A POI type has a weight vector exactly when a dictionary entry has its key |
| RouteScores.MaxWidth | main.py:365-374 | The widest weight vector sets the number of score columns |
| RouteScores.RawScoreColumns | main.py:361-378 | Column `j` is "score_(j+1)" and holds each route's decayed, weighted score, scaled by its accident factor |
| RouteScores.ScoreRoutes | main.py:377-382 | The score columns kept are exactly the raw columns with a non-zero cell, as many as there are such columns. Raw column `j`, if kept, sits at the position equal to the number of kept columns before it, so the kept columns keep their order. A column with no dropped column before it keeps its index |
| RouteScores.ZeroWeightColumnDropped | walkability/main.py:395-400 | A column whose weight is 0 for every route is dropped |
| RouteScores.ScoreAllRoutes | walkability/main.py:375-403 | One scored frame per building, in order |
| RouteScores.TypeRows | main.py:424-425 | The positions of exactly the routes of one POI type |
| RouteScores.PyMaxKeepsLeadingNaN | main.py:436 | Python's `max` keeps a leading NaN |
| RouteScores.RealMax | main.py:436 | The maximum is an element and bounds every element |
| RouteScores.PyMaxOfNumbers | main.py:436 | On numbers, Python's `max` is the maximum |
| RouteScores.CellSumOfNumbers | main.py:439 | On numbers, Python's `sum` is the sum |
| RouteScores.CalcBuildingScore | main.py:421-441 | A frame of at most one cell scores 0; a zero weight sum is a division error |
| RouteScores.CalcBuildingScores | walkability/main.py:436-461 | One score per frame, in order; small frames score 0 |
| RouteScores.BuildingScoreIsBestRoutes | main.py:412-441 | Suppose no column read by a non-zero weight, nor any column before one, is dropped. Then a building of more than one cell scores the sum, over types and non-zero weights, of the best route score (0 for a type without routes), divided by the total weight |
| RouteScores.FirstRankBuildingScore | main.py:412-441 | With every weight vector of the shape `[w, 0, 0]` (all configured personas), the same holds as soon as the first score column has a non-zero cell, and the total weight is positive |
| RouteScores.FirstRankReadsFirstColumn | main.py:423-438 | With `[w, 0, 0]` weights, a non-zero first column is every column a non-zero weight reads |
| RouteScores.ContributionIsBestRoute | main.py:423-438 | An entry read from a score column at its raw position is its type's best route for that weight |
| RouteScores.TypeScoresMatch | walkability/main.py:449-456 | The entries of one type are its best routes for its non-zero weights |
| RouteScores.ScoreListMatches | walkability/main.py:441-456 | The entries of all types are their best routes, in dictionary order |
| BuildingScore.PoiType | __main__.py:81 | `amenity`, else `shop`, else "office" |
| BuildingScore.AssignCategoryIsLast | __main__.py:86-89 | The category loop ends on the last category listing the type, and keeps "none" when none does |
| BuildingScore.PoiCategoryIsLast | __main__.py:86-89 | A POI's category is the last listing category in dictionary order, else "none" |
| BuildingScore.DerivePois | __main__.py:78-89 | Every POI keeps its order, gets "No name" when unnamed, and gets its type and category |
| BuildingScore.RouteScore | __main__.py:154-155 | The route score is `max(0, decay - (1 - suitability))` and at most 1 for unit inputs |
| BuildingScore.RouteScoreList | __main__.py:153-156 | One route score per route |
| BuildingScore.Truncate | __main__.py:158-160 | A weight vector longer than the number of routes is cut to that number; a shorter one is kept |
| BuildingScore.Insert | __main__.py:161 | Insertion keeps the list ordered and adds exactly one element |
| BuildingScore.Sort | __main__.py:161 | An ordered permutation |
| BuildingScore.Select | __main__.py:161 | `nsmallest`/`nlargest`: `n` ordered elements of the input, each before every element left out |
| BuildingScore.SortedSplit | __main__.py:161 | Cutting an ordered list leaves the front ahead of the back |
| BuildingScore.NLargestStartsWithMax | __main__.py:161 | The first of the largest values is the maximum |
| BuildingScore.NSmallestStartsWithMin | __main__.py:161 | The first of the smallest values is the minimum |
| BuildingScore.DotBounds | __main__.py:162-163 | Non-negative weights on values in [0, 1] sum to between 0 and the weight total |
| BuildingScore.CategoryScoreBounds | __main__.py:158-163 | A category sub-score lies between 0 and its weight total, and is 0 without routes |
| BuildingScore.SingleWeightTakesBestRoute | __main__.py:161-163 | With one weight, the corrected sub-score weighs the best route |
| BuildingScore.SingleWeightTakesWorstRouteAsWritten | __main__.py:161-163 | As written, with one weight the sub-score weighs the worst route |
| BuildingScore.WeightsFor | __main__.py:158 | `weight_factors[category]` succeeds exactly when the category is a key, and is otherwise a KeyError naming it |
| BuildingScore.CategoryTotal | __main__.py:130-163 | The sum of the sub-scores succeeds exactly when every category has weights |
| BuildingScore.ScoreBuildingWith | __main__.py:130-164 | The building score fails exactly when a category lacks weights, with that category's KeyError |
| BuildingScore.CategoryTotalBounds | __main__.py:130-163 | With unit inputs, the total of sub-scores lies between 0 and the total weight of the categories |
| BuildingScore.ScoreBuildingInUnitRange | __main__.py:164 | Divided by a weight sum that covers every category's weights, a building scores in [0, 1] |
| BuildingScore.SmallestScoresUndervalue | __main__.py:161-162 | With weights [10, 4] and route scores 0.2 and 0.9, pairing the smallest scores gives 5.6 where the best scores give 9.8 |
| BuildingScore.ScoreBuildingsWith | __main__.py:168-208 | The input rows in order, each paired with its own score for the chosen selection. It fails exactly when there is a building and some category has no weights |
| BuildingScore.ScoreBuildings | __main__.py:161-208 | As written: the input rows in order, each paired with `ScoreBuildingAsWritten` of its routes (the `nsmallest` route scores). It fails exactly when there is a building and some category has no weights |
| BuildingScore.ScoreBuildingsCorrected | __main__.py:161-208 | The same, with each building scored by the `nlargest` route scores |
| ShortestPath.LengthAppend | helper.py:34-38 | The length of joined paths is the sum of their lengths |
| ShortestPath.PathJoin | helper.py:33-38 | Two paths that meet join into one |
| ShortestPath.CutCycle | helper.py:34-38 | Removing a cycle from a path keeps it a path and does not lengthen it |
| ShortestPath.ShortPath | helper.py:34-38 | Every path has a no-longer path with fewer arcs than the graph has nodes |
| ShortestPath.MinOpt | helper.py:34-38 | The smaller of two optional lengths |
| ShortestPath.DistSound | helper.py:34-38 | Every relaxed length is the length of some path |
| ShortestPath.DistOptimal | helper.py:34-38 | Every path of at most `k` arcs is at least the relaxed length |
| ShortestPath.Shortest | helper.py:33-38 | After one round fewer than the graph has nodes, the relaxation finds a path exactly when one exists, and its length is the minimum over all paths |
| ShortestPath.ShortestPathLength | helper.py:17-40 | A node outside the graph raises NodeNotFound. Otherwise the result is 99999999 when there is no path from start to end, and otherwise the minimum summed raw length over all paths |
| ShortestPath.SameNodeIsZero | helper.py:33-38 | A node is at distance 0 from itself |
| ShortestPath.EndNodeFirst | helper.py:17-20 | The end node is the first argument: on a one-way arc 1 to 2 of length 5, asking for end 2 from 1 gives 5, and the reverse gives 99999999 |
| Colors.ParsePiece | visualisation/web_visualisation.py:43 | `int(piece)` succeeds exactly on numerals, with their value |
| Colors.ConvertPlotlyToRgb | visualisation/web_visualisation.py:36-45 | One integer per ", "-separated piece, in order; fails exactly when a piece is not a numeral |
| Colors.RgbRoundTrip | visualisation/web_visualisation.py:36-45 | Reading "rgb(r, g, b)" written from a list gives the list back |
| Colors.BareListRoundTrip | visualisation/web_visualisation.py:39-40 | Without the "rgb(" and ")" wrapper the list reads the same |
| Colors.ListRoundTrip | visualisation/web_visualisation.py:42-43 | The numerals of a joined list split and parse back to the list |
| Colors.CommaWithoutSpaceFails | visualisation/web_visualisation.py:42-43 | "rgb(1,2,3)" fails, because "1,2,3" is a single piece |
| Colors.Clamp | visualisation/web_visualisation.py:107-108 | The clamped value lies in `[min, max]`, and values in range are unchanged |
| Colors.ClampNearest | visualisation/web_visualisation.py:107-108 | The clamp moves a value to the nearest point of the range |
| Colors.Round2 | visualisation/web_visualisation.py:110 | `round(2)` gives a whole number of hundredths at most 0.005 away, and an even one on a tie |
| Colors.Round2IsNearest | visualisation/web_visualisation.py:110 | Away from a tie, the result is the unique whole number of hundredths within half a hundredth |
| Colors.Round2Ties | visualisation/web_visualisation.py:110 | 0.125 rounds to 0.12, 0.135 to 0.14 and −0.125 to −0.12 |
| Colors.AddColorToData | visualisation/web_visualisation.py:100-112 | Each row keeps its columns and gains only the colour of its clamped, rounded value, or none when the dictionary has no entry; an empty dictionary is replaced by the generated one |

## Left out

- Floating point: reals are exact, so no float rounding, overflow, inf or NaN arithmetic is modelled (NaN appears only as a pandas missing value).
- The logistic `sigmoid` of `helper.py` uses `exp` and is a parameter (`decay`) wherever it is used.
- Geometry (buffers, `contains`, centroids, `knearest`, `get_route_values`): the buffer test is the `inBuffer` parameter, and the routes of a category are the `routesOf` parameter. `get_route_values` is not part of this model; at `__main__.py:148` it reads the module-level `edges` assigned at `__main__.py:251`.
- Data fetching and file or network I/O (osmnx, pyrosm, HDF5, the database) and logging.
- Graph construction and pruning (`graph_from_gdfs`, isolates, largest component, `from_pandas_edgelist`): the graph is an input.
- Plotting and colour-scale sampling (`get_color_dict`, `create_values`, `sample_colorscale`): the generated colour dictionary is a parameter.
- In-place mutation and pandas index alignment: every operation returns new rows, and `score_buildings` pairs each input row with its score instead of copying the frame.
- `int()` accepts underscores between digits in Python; `Text.ParseInt` does not.
- Multigraph arcs without a "length" attribute (networkx counts them as 1) are not modelled: every arc carries a length.
- The stub `import_osm.score_route_traffic` raises before doing anything and is not modelled.
- The walkability decay is numerically decreasing on non-negative distances; this is not proved (a quintic with decimal coefficients).
- BuildingScore.ScoreBuildingWith: requires `weightSum != 0`, where NumPy would give inf or NaN instead of raising.
- ShortestPath.ShortestPathLength: requires non-negative arc lengths (`Valid`); networkx's Dijkstra gives no minimum for negative lengths either.
- EdgeCost.AdditiveModifier: requires the scores to be keys of the tables; the lookup errors are modelled in `EdgeCost.EdgeInputs`.
- Colors.Round2: is exact round-half-even on reals; float representation can tip a tie either way.
- RouteScores.RawScoreColumns: builds the score matrix as the outer product of `walkability/helper.py:94`. The bikeability `score_routes` as written raises in `helper.py:90-122` for every weight vector of two or more entries (`Decay.HelperScoreFailsForWideWeights`).

## Findings

| source | as written | input that shows it | evidently intended | confidence | as-written member | corrected member |
|---|---|---|---|---|---|---|
| suitability.py:342-344 (also import_osm.py:240-242) | bus ways keep the right of way only when `bicycle` is "Yes" | a `busway` tagged `bicycle=yes` loses the right of way | the OSM spelling "yes" | medium, not executed | NetworkFilter.BusWayOpenToBicycles | NetworkFilter.RightOfWayDiffersOnlyOnBusWays |
| main.py:285 | the separation penalty is multiplied by `score_separation` | separation 0 and separation 1 (surface 5, accidents 5) give 1.0 and 1.1: the worse road costs less | multiply by the rescaled `factor_separation` | high, not executed | EdgeCost.AdditiveModifierAsWritten | EdgeCost.AdditiveModifier |
| helper.py:90 | `np.multiply` of the decays with the weight vector | any weight vector of length 3 (all configured ones): `format_score` fails on the shape | `np.outer`, as in walkability/helper.py:94 | high, not executed | Decay.HelperScoreFailsForWideWeights | Decay.HelperScore |
| __main__.py:161 | the `nsmallest` route scores are paired with the weights | weights [10, 4] and scores 0.2, 0.9 give 5.6 instead of 9.8; with one weight the worst route counts | `nlargest`: the best destinations carry the largest weights | medium, not executed | BuildingScore.SingleWeightTakesWorstRouteAsWritten | BuildingScore.SingleWeightTakesBestRoute |

=== FILE: accidents.dfy ===
/** Matching traffic accidents to network edges (`match_accidents_network`)
    and turning accident counts into scores and factors (`accident_score`).
    Whether an edge's 5-metre buffer contains an accident point is geometry
    the model does not compute: it is the parameter `inBuffer`. */
module Accidents {

  /** An edge with the two columns the matching adds. */
  datatype AccidentEdge<E> = AccidentEdge(edge: E, count: nat, score: int)

  /** The number of the first `n` accidents inside the edge's buffer, counted
      one accident at a time as the matching loop does. */
  function Hits<E, P>(e: E, accidents: seq<P>, n: nat, inBuffer: (E, P) -> bool): nat
    requires n <= |accidents|
  {
    if n == 0 then 0
    else Hits(e, accidents, n - 1, inBuffer) + (if inBuffer(e, accidents[n - 1]) then 1 else 0)
  }

  /** The indices of the first `n` accidents inside the edge's buffer. */
  function Inside<E, P>(e: E, accidents: seq<P>, n: nat, inBuffer: (E, P) -> bool): set<int>
    requires n <= |accidents|
  {
    set a | 0 <= a < n && inBuffer(e, accidents[a])
  }

  /** The loop's count is the number of contained accidents. */
  lemma {:induction false} HitsCountsInside<E, P>(e: E, accidents: seq<P>, n: nat, inBuffer: (E, P) -> bool)
    requires n <= |accidents|
    ensures Hits(e, accidents, n, inBuffer) == |Inside(e, accidents, n, inBuffer)|
  {
    if n == 0 {
      assert Inside(e, accidents, 0, inBuffer) == {};
    } else {
      HitsCountsInside(e, accidents, n - 1, inBuffer);
      var before := Inside(e, accidents, n - 1, inBuffer);
      assert n - 1 !in before;
      if inBuffer(e, accidents[n - 1]) {
        assert Inside(e, accidents, n, inBuffer) == before + {n - 1};
      } else {
        assert Inside(e, accidents, n, inBuffer) == before;
      }
    }
  }

  /** The score column: every threshold statement overwrites the rows it
      selects, so the last threshold a count exceeds decides. */
  function AccidentScore(count: int): (s: int)
    ensures 1 <= s <= 5
  {
    var s0 := 0;
    var s1 := if count <= 1 then 5 else s0;
    var s2 := if count > 1 then 4 else s1;
    var s3 := if count > 2 then 3 else s2;
    var s4 := if count > 4 then 2 else s3;
    if count > 6 then 1 else s4
  }

  /** The bands the thresholds carve out. */
  lemma AccidentScoreBands(count: nat)
    ensures count <= 1 ==> AccidentScore(count) == 5
    ensures count == 2 ==> AccidentScore(count) == 4
    ensures 3 <= count <= 4 ==> AccidentScore(count) == 3
    ensures 5 <= count <= 6 ==> AccidentScore(count) == 2
    ensures count >= 7 ==> AccidentScore(count) == 1
  {
  }

  /** More accidents never give a better score. */
  lemma AccidentScoreNonIncreasing(a: int, b: int)
    requires a <= b
    ensures AccidentScore(a) >= AccidentScore(b)
  {
  }

  /** Every accident is matched against every edge; the edges keep their
      order and their data, and gain a count and a score. */
  method MatchAccidents<E, P>(edges: seq<E>, accidents: seq<P>, inBuffer: (E, P) -> bool)
    returns (r: seq<AccidentEdge<E>>)
    ensures |r| == |edges|
    ensures forall i :: 0 <= i < |edges| ==> r[i].edge == edges[i]
    ensures forall i :: 0 <= i < |edges| ==>
              r[i].count == |set a | 0 <= a < |accidents| && inBuffer(edges[i], accidents[a])|
    ensures forall i :: 0 <= i < |edges| ==> r[i].score == AccidentScore(r[i].count)
  {
    var counts: seq<nat> := seq(|edges|, i => 0);
    var a := 0;
    while a < |accidents|
      invariant 0 <= a <= |accidents| && |counts| == |edges|
      invariant forall i :: 0 <= i < |edges| ==> counts[i] == Hits(edges[i], accidents, a, inBuffer)
    {
      counts := seq(|edges|, i requires 0 <= i < |edges| =>
        counts[i] + (if inBuffer(edges[i], accidents[a]) then 1 else 0));
      a := a + 1;
    }
    r := seq(|edges|, i requires 0 <= i < |edges| => AccidentEdge(edges[i], counts[i], AccidentScore(counts[i])));
    forall i | 0 <= i < |edges|
      ensures r[i].count == |set a | 0 <= a < |accidents| && inBuffer(edges[i], accidents[a])|
    {
      HitsCountsInside(edges[i], accidents, |accidents|, inBuffer);
    }
  }

  /** The factor a route's accident count scales its score by. A negative
      count matches no statement and keeps the initial 0. */
  function AccidentFactor(count: int): (f: real)
    ensures 0.0 <= f <= 1.0
    ensures count >= 0 ==> f >= 0.95
  {
    if count > 2 then 0.95
    else if count == 2 then 0.97
    else if count == 1 then 0.98
    else if count == 0 then 1.0
    else 0.0
  }

  /** Over non-negative counts the factor never grows with the count. */
  lemma AccidentFactorNonIncreasing(a: int, b: int)
    requires 0 <= a <= b
    ensures AccidentFactor(a) >= AccidentFactor(b)
  {
  }
}

=== FILE: building_score.dfy ===
/** The bikeability score of a building (`score_building` and
    `score_buildings` of the package entry point), and the POI type and
    category of every destination (`fetch_POIs`).

    The routes to the ten nearest POIs of each category, with their lengths
    and suitability values, come from helpers and a network that are not
    part of this model: they arrive as the parameter `routesOf`. The
    logistic distance decay uses `exp` and is the parameter `decay`. */
module BuildingScore {
  import opened Wrappers
  import opened Config
  import RouteScores

  // POI type and category

  /** `amenity`, else `shop`, else "office". */
  function PoiType(amenity: Option<string>, shop: Option<string>): (t: string)
    ensures amenity.Some? ==> t == amenity.value
    ensures amenity.None? && shop.Some? ==> t == shop.value
    ensures amenity.None? && shop.None? ==> t == "office"
  {
    amenity.GetOr(shop.GetOr("office"))
  }

  /** The category loop: every category whose list holds the type overwrites
      the column, starting from "none". */
  function AssignCategory(t: string, categories: OrderedDict<string>, acc: string): string {
    if |categories| == 0 then acc
    else AssignCategory(t, categories[1..], if t in categories[0].1 then categories[0].0 else acc)
  }

  /** The category of a POI type: the last category in dictionary order
      whose list holds the type, or "none". */
  function PoiCategory(t: string, categories: OrderedDict<string>): string {
    AssignCategory(t, categories, "none")
  }

  /** Category `i` is the last one listing `t`. */
  predicate LastListing(t: string, categories: OrderedDict<string>, i: int) {
    0 <= i < |categories| && t in categories[i].1
      && forall j :: i < j < |categories| ==> t !in categories[j].1
  }

  /** The loop ends on the name of the last category listing the type, and
      keeps the starting value when none does. */
  lemma AssignCategoryIsLast(t: string, categories: OrderedDict<string>, acc: string)
    ensures (forall i :: 0 <= i < |categories| ==> t !in categories[i].1) ==>
              AssignCategory(t, categories, acc) == acc
    ensures forall i :: LastListing(t, categories, i) ==> AssignCategory(t, categories, acc) == categories[i].0
  {
    if forall i :: 0 <= i < |categories| ==> t !in categories[i].1 {
      AssignCategoryKeeps(t, categories, acc);
    }
    forall i | LastListing(t, categories, i)
      ensures AssignCategory(t, categories, acc) == categories[i].0
    {
      AssignCategoryLast(t, categories, acc, i);
    }
  }

  lemma {:induction false} AssignCategoryKeeps(t: string, categories: OrderedDict<string>, acc: string)
    requires forall i :: 0 <= i < |categories| ==> t !in categories[i].1
    ensures AssignCategory(t, categories, acc) == acc
    decreases |categories|
  {
    if |categories| > 0 {
      var rest := categories[1..];
      assert t !in categories[0].1;
      assert forall k :: 0 <= k < |rest| ==> rest[k] == categories[k + 1];
      AssignCategoryKeeps(t, rest, acc);
    }
  }

  lemma {:induction false} AssignCategoryLast(t: string, categories: OrderedDict<string>, acc: string, i: int)
    requires LastListing(t, categories, i)
    ensures AssignCategory(t, categories, acc) == categories[i].0
    decreases |categories|
  {
    var rest := categories[1..];
    var next := if t in categories[0].1 then categories[0].0 else acc;
    assert AssignCategory(t, categories, acc) == AssignCategory(t, rest, next);
    if i > 0 {
      assert LastListing(t, rest, i - 1) by {
        assert forall k :: 0 <= k < |rest| ==> rest[k] == categories[k + 1];
      }
      AssignCategoryLast(t, rest, next, i - 1);
    } else {
      forall k | 0 <= k < |rest| ensures t !in rest[k].1 {
        assert rest[k] == categories[k + 1];
      }
      AssignCategoryKeeps(t, rest, next);
    }
  }

  /** Both readings of the category for a listed and an unlisted type. */
  lemma PoiCategoryIsLast(t: string, categories: OrderedDict<string>, i: int)
    ensures LastListing(t, categories, i) ==> PoiCategory(t, categories) == categories[i].0
    ensures (forall k :: 0 <= k < |categories| ==> t !in categories[k].1) ==> PoiCategory(t, categories) == "none"
  {
    AssignCategoryIsLast(t, categories, "none");
  }

  /** A POI as it leaves `fetch_POIs`. */
  datatype Poi = Poi(name: string, osmid: int, node: int, poiType: string, category: string)

  /** A fetched feature before its columns are derived. */
  datatype Feature = Feature(name: Option<string>, osmid: int, node: int, amenity: Option<string>, shop: Option<string>)

  /** Missing names become "No name"; every POI gets its type and category. */
  function DerivePois(features: seq<Feature>, categories: OrderedDict<string>): (r: seq<Poi>)
    ensures |r| == |features|
    ensures forall i :: 0 <= i < |r| ==>
              r[i].osmid == features[i].osmid && r[i].node == features[i].node
              && (features[i].name.Some? ==> r[i].name == features[i].name.value)
              && (features[i].name.None? ==> r[i].name == "No name")
              && r[i].poiType == PoiType(features[i].amenity, features[i].shop)
              && r[i].category == PoiCategory(r[i].poiType, categories)
  {
    seq(|features|, i requires 0 <= i < |features| =>
      var f := features[i];
      var t := PoiType(f.amenity, f.shop);
      Poi(f.name.GetOr("No name"), f.osmid, f.node, t, PoiCategory(t, categories)))
  }

  // Route scores

  /** The length and suitability of one route. */
  datatype RouteStats = RouteStats(length: real, suitability: real)

  /** The decayed length less the unsuitability, with negative values set
      to 0. */
  function RouteScore(r: RouteStats, decay: real -> real): (s: real)
    ensures s >= 0.0 && s >= decay(r.length) - (1.0 - r.suitability)
    ensures s == 0.0 || s == decay(r.length) - (1.0 - r.suitability)
    ensures decay(r.length) <= 1.0 && r.suitability <= 1.0 ==> s <= 1.0
  {
    var raw := decay(r.length) - (1.0 - r.suitability);
    if raw < 0.0 then 0.0 else raw
  }

  function RouteScoreList(routes: seq<RouteStats>, decay: real -> real): (s: seq<real>)
    ensures |s| == |routes|
    ensures forall i :: 0 <= i < |s| ==> s[i] == RouteScore(routes[i], decay)
  {
    seq(|routes|, i requires 0 <= i < |routes| => RouteScore(routes[i], decay))
  }

  /** A weight vector longer than the number of routes is cut to that
      number; a shorter one is kept. */
  function Truncate(w: seq<int>, n: nat): (r: seq<int>)
    ensures |r| == if |w| > n then n else |w|
    ensures r == w[..|r|]
  {
    if |w| > n then w[..n] else w
  }

  // Selecting the n smallest or n largest scores

  /** `a` may come before `b` in ascending (or descending) order. */
  predicate Before(a: real, b: real, descending: bool) {
    if descending then a >= b else a <= b
  }

  predicate Ordered(s: seq<real>, descending: bool) {
    forall i, j :: 0 <= i < j < |s| ==> Before(s[i], s[j], descending)
  }

  function Insert(x: real, s: seq<real>, descending: bool): (r: seq<real>)
    requires Ordered(s, descending)
    ensures |r| == |s| + 1
    ensures Ordered(r, descending)
    ensures multiset(r) == multiset(s) + multiset{x}
    decreases |s|
  {
    if |s| == 0 || Before(x, s[0], descending) then [x] + s
    else
      var rest := Insert(x, s[1..], descending);
      assert s == [s[0]] + s[1..];
      InsertHeadFirst(s[0], x, s[1..], rest, descending);
      [s[0]] + rest
  }

  /** The head of an ordered list stays ahead of the rest with `x` added. */
  lemma InsertHeadFirst(h: real, x: real, tail: seq<real>, rest: seq<real>, descending: bool)
    requires Ordered([h] + tail, descending) && !Before(x, h, descending)
    requires multiset(rest) == multiset(tail) + multiset{x}
    ensures forall j :: 0 <= j < |rest| ==> Before(h, rest[j], descending)
  {
    forall j | 0 <= j < |rest| ensures Before(h, rest[j], descending) {
      assert rest[j] in multiset(rest);
      if rest[j] == x {
        assert Before(h, x, descending);
      } else {
        assert rest[j] in multiset(tail);
        var k :| 0 <= k < |tail| && tail[k] == rest[j];
        assert ([h] + tail)[0] == h && ([h] + tail)[k + 1] == tail[k];
        assert Before(([h] + tail)[0], ([h] + tail)[k + 1], descending);
      }
    }
  }

  /** Insertion sort: an ordered permutation. */
  function Sort(xs: seq<real>, descending: bool): (r: seq<real>)
    ensures |r| == |xs|
    ensures Ordered(r, descending)
    ensures multiset(r) == multiset(xs)
  {
    if |xs| == 0 then []
    else
      assert xs == [xs[0]] + xs[1..];
      Insert(xs[0], Sort(xs[1..], descending), descending)
  }

  /** The first `n` values of the ordered list (all of them when there are
      fewer): the selection is ordered, drawn from the input, and comes
      before every value left out. */
  function Select(xs: seq<real>, n: nat, descending: bool): (r: seq<real>)
    ensures |r| == if n <= |xs| then n else |xs|
    ensures Ordered(r, descending)
    ensures multiset(r) <= multiset(xs)
    ensures forall i, y :: 0 <= i < |r| && y in multiset(xs) - multiset(r) ==> Before(r[i], y, descending)
  {
    var s := Sort(xs, descending);
    assert multiset(s) == multiset(xs);
    if n <= |s| then
      SortedSplit(s, n, descending);
      s[..n]
    else
      assert multiset(xs) - multiset(s) == multiset{};
      s
  }

  /** Cutting an ordered list leaves every value of the front ahead of every
      value of the back. */
  lemma SortedSplit(s: seq<real>, n: nat, descending: bool)
    requires Ordered(s, descending) && n <= |s|
    ensures multiset(s[..n]) <= multiset(s)
    ensures multiset(s) - multiset(s[..n]) == multiset(s[n..])
    ensures forall i, y :: 0 <= i < n && y in multiset(s[n..]) ==> Before(s[i], y, descending)
  {
    assert s == s[..n] + s[n..];
    forall i, y | 0 <= i < n && y in multiset(s[n..]) ensures Before(s[i], y, descending) {
      var k :| 0 <= k < |s[n..]| && s[n..][k] == y;
      assert s[n + k] == y;
    }
  }

  /** `Series.nsmallest(n)`: the `n` smallest values in ascending order. */
  function NSmallest(xs: seq<real>, n: nat): seq<real> {
    Select(xs, n, false)
  }

  /** `Series.nlargest(n)`: the `n` largest values in descending order. */
  function NLargest(xs: seq<real>, n: nat): seq<real> {
    Select(xs, n, true)
  }

  /** The first of the largest values is the maximum of all of them. */
  lemma NLargestStartsWithMax(xs: seq<real>, n: nat)
    requires n >= 1 && |xs| >= 1
    ensures forall k :: 0 <= k < |xs| ==> xs[k] <= NLargest(xs, n)[0]
  {
    var r := NLargest(xs, n);
    forall k | 0 <= k < |xs| ensures xs[k] <= r[0] {
      var y := xs[k];
      if y in multiset(xs) - multiset(r) {
      } else {
        assert y in multiset(xs);
        assert y in multiset(r);
        var m :| 0 <= m < |r| && r[m] == y;
        if m > 0 {
          assert Before(r[0], r[m], true);
        }
      }
    }
  }

  /** The first of the smallest values is the minimum of all of them. */
  lemma NSmallestStartsWithMin(xs: seq<real>, n: nat)
    requires n >= 1 && |xs| >= 1
    ensures forall k :: 0 <= k < |xs| ==> NSmallest(xs, n)[0] <= xs[k]
  {
    var r := NSmallest(xs, n);
    forall k | 0 <= k < |xs| ensures r[0] <= xs[k] {
      var y := xs[k];
      if y in multiset(xs) - multiset(r) {
      } else {
        assert y in multiset(xs);
        assert y in multiset(r);
        var m :| 0 <= m < |r| && r[m] == y;
        if m > 0 {
          assert Before(r[0], r[m], false);
        }
      }
    }
  }

  // Weighted sums

  /** A value times an integer weight. */
  function Weigh(c: int, x: real): real {
    (c as real) * x
  }

  /** `sum(np.array(w) * np.array(s))` for vectors of equal length. */
  function Dot(w: seq<int>, s: seq<real>): real
    requires |w| == |s|
  {
    if |w| == 0 then 0.0 else Weigh(w[0], s[0]) + Dot(w[1..], s[1..])
  }

  /** Non-negative weights on values in [0, 1] sum to at least 0 and at most
      the sum of the weights. */
  lemma {:induction false} DotBounds(w: seq<int>, s: seq<real>)
    requires |w| == |s|
    requires forall i :: 0 <= i < |w| ==> w[i] >= 0 && 0.0 <= s[i] <= 1.0
    ensures 0.0 <= Dot(w, s) <= SumInts(w) as real
  {
    if |w| > 0 {
      var c, x := w[0], s[0];
      assert c >= 0 && 0.0 <= x <= 1.0;
      forall i | 0 <= i < |w| - 1 ensures w[1..][i] >= 0 && 0.0 <= s[1..][i] <= 1.0 {
        assert w[1..][i] == w[i + 1] && s[1..][i] == s[i + 1];
      }
      DotBounds(w[1..], s[1..]);
      var rest, restWeight := Dot(w[1..], s[1..]), SumInts(w[1..]) as real;
      assert 0.0 <= rest <= restWeight;
      assert Dot(w, s) == Weigh(c, x) + rest;
      assert SumInts(w) as real == c as real + restWeight;
      UnitScale(c, x);
      SumBounds(Weigh(c, x), c as real, rest, restWeight);
    }
  }

  lemma DotSingle(c: int, xs: seq<real>)
    requires |xs| == 1
    ensures Dot([c], xs) == Weigh(c, xs[0])
  {
    assert Dot([c], xs) == Weigh(c, xs[0]) + Dot([], []);
  }

  lemma SumBounds(x: real, a: real, y: real, b: real)
    requires 0.0 <= x <= a && 0.0 <= y <= b
    ensures 0.0 <= x + y <= a + b
  {
  }

  lemma UnitScale(c: int, x: real)
    requires c >= 0 && 0.0 <= x <= 1.0
    ensures 0.0 <= Weigh(c, x) <= c as real
  {
    RealUnitScale(c as real, x);
  }

  lemma RealUnitScale(c: real, x: real)
    requires c >= 0.0 && 0.0 <= x <= 1.0
    ensures 0.0 <= c * x <= c
  {
  }

  /** The weights of a prefix sum to at most the weights of the whole. */
  lemma {:induction false} PrefixWeight(w: seq<int>, n: nat)
    requires n <= |w| && forall i :: 0 <= i < |w| ==> w[i] >= 0
    ensures SumInts(w[..n]) <= SumInts(w)
  {
    if n > 0 {
      assert w[..n][1..] == w[1..][..n - 1];
      PrefixWeight(w[1..], n - 1);
    } else {
      NonNegativeSum(w);
    }
  }

  lemma {:induction false} NonNegativeSum(w: seq<int>)
    requires forall i :: 0 <= i < |w| ==> w[i] >= 0
    ensures SumInts(w) >= 0
  {
    if |w| > 0 {
      NonNegativeSum(w[1..]);
    }
  }

  // Category and building scores

  /** The sub-score of one category: route scores, the weight vector cut to
      the number of routes, the selected scores paired with the weights in
      order, and their weighted sum. `largest` picks the best routes, else
      the worst. */
  function CategoryScoreWith(routes: seq<RouteStats>, w: seq<int>, decay: real -> real, largest: bool): real {
    var scores := RouteScoreList(routes, decay);
    var wt := Truncate(w, |scores|);
    Dot(wt, Select(scores, |wt|, largest))
  }

  /** The category sub-score as written: the smallest route scores. */
  function CategoryScoreAsWritten(routes: seq<RouteStats>, w: seq<int>, decay: real -> real): real {
    CategoryScoreWith(routes, w, decay, false)
  }

  /** The category sub-score with the best route scores. */
  function CategoryScore(routes: seq<RouteStats>, w: seq<int>, decay: real -> real): real {
    CategoryScoreWith(routes, w, decay, true)
  }

  /** Routes whose decay and suitability lie in [0, 1]. */
  predicate UnitRoutes(routes: seq<RouteStats>, decay: real -> real) {
    forall i :: 0 <= i < |routes| ==> 0.0 <= decay(routes[i].length) <= 1.0 && routes[i].suitability <= 1.0
  }

  predicate NonNegativeWeights(w: seq<int>) {
    forall i :: 0 <= i < |w| ==> w[i] >= 0
  }

  /** With non-negative weights and unit routes, a sub-score lies between 0
      and the sum of the weights; a category without routes scores 0. */
  lemma CategoryScoreBounds(routes: seq<RouteStats>, w: seq<int>, decay: real -> real, largest: bool)
    requires NonNegativeWeights(w) && UnitRoutes(routes, decay)
    ensures 0.0 <= CategoryScoreWith(routes, w, decay, largest) <= SumInts(w) as real
    ensures |routes| == 0 ==> CategoryScoreWith(routes, w, decay, largest) == 0.0
  {
    var scores := RouteScoreList(routes, decay);
    var wt := Truncate(w, |scores|);
    var picked := Select(scores, |wt|, largest);
    forall i | 0 <= i < |picked| ensures 0.0 <= picked[i] <= 1.0 {
      assert picked[i] in multiset(picked);
      assert picked[i] in multiset(scores);
      var k :| 0 <= k < |scores| && scores[k] == picked[i];
    }
    DotBounds(wt, picked);
    PrefixWeight(w, |wt|);
  }

  /** With one weight `c`, the sub-score weighs only the first selected
      route score. */
  lemma SingleWeightScore(routes: seq<RouteStats>, c: int, decay: real -> real, largest: bool)
    requires |routes| >= 1
    ensures CategoryScoreWith(routes, [c], decay, largest) == Dot([c], Select(RouteScoreList(routes, decay), 1, largest))
  {
    var scores := RouteScoreList(routes, decay);
    assert Truncate([c], |scores|) == [c];
  }

  /** With one weight `c`, the sub-score is `c` times the best route score. */
  lemma SingleWeightTakesBestRoute(routes: seq<RouteStats>, c: int, decay: real -> real)
    requires |routes| >= 1
    ensures forall k :: 0 <= k < |routes| ==>
              RouteScore(routes[k], decay) <= NLargest(RouteScoreList(routes, decay), 1)[0]
    ensures CategoryScore(routes, [c], decay) == Weigh(c, NLargest(RouteScoreList(routes, decay), 1)[0])
  {
    SingleWeightScore(routes, c, decay, true);
    var picked := Select(RouteScoreList(routes, decay), 1, true);
    DotSingle(c, picked);
    assert CategoryScore(routes, [c], decay) == Dot([c], picked);
    assert NLargest(RouteScoreList(routes, decay), 1) == picked;
    NLargestStartsWithMax(RouteScoreList(routes, decay), 1);
  }

  /** As written, one weight `c` scores `c` times the worst route score. */
  lemma SingleWeightTakesWorstRouteAsWritten(routes: seq<RouteStats>, c: int, decay: real -> real)
    requires |routes| >= 1
    ensures forall k :: 0 <= k < |routes| ==>
              NSmallest(RouteScoreList(routes, decay), 1)[0] <= RouteScore(routes[k], decay)
    ensures CategoryScoreAsWritten(routes, [c], decay) == Weigh(c, NSmallest(RouteScoreList(routes, decay), 1)[0])
  {
    SingleWeightScore(routes, c, decay, false);
    var picked := Select(RouteScoreList(routes, decay), 1, false);
    DotSingle(c, picked);
    assert CategoryScoreAsWritten(routes, [c], decay) == Dot([c], picked);
    assert NSmallest(RouteScoreList(routes, decay), 1) == picked;
    NSmallestStartsWithMin(RouteScoreList(routes, decay), 1);
  }

  /** `weight_factors[category]`, a KeyError when the category has none. */
  function WeightsFor(weightFactors: OrderedDict<int>, category: string): (r: Result<seq<int>>)
    ensures r.Ok? <==> exists i :: 0 <= i < |weightFactors| && weightFactors[i].0 == category
    ensures r.Err? ==> r.error == KeyError(Name(category))
    ensures r.Ok? ==> r.value == RouteScores.WeightOf(weightFactors, category).value
  {
    match RouteScores.WeightOf(weightFactors, category)
    case Some(w) => Ok(w)
    case None => Err(KeyError(Name(category)))
  }

  /** The sum of the category sub-scores, in dictionary order; the first
      category without weights raises its KeyError. */
  function CategoryTotal(
    categories: OrderedDict<string>, weightFactors: OrderedDict<int>,
    routesOf: string -> seq<RouteStats>, decay: real -> real, largest: bool): (r: Result<real>)
    ensures r.Ok? <==> forall i :: 0 <= i < |categories| ==> WeightsFor(weightFactors, categories[i].0).Ok?
  {
    if |categories| == 0 then Ok(0.0)
    else
      var w :- WeightsFor(weightFactors, categories[0].0);
      var rest :- CategoryTotal(categories[1..], weightFactors, routesOf, decay, largest);
      assert forall i :: 1 <= i < |categories| ==> categories[i] == categories[1..][i - 1];
      Ok(CategoryScoreWith(routesOf(categories[0].0), w, decay, largest) + rest)
  }

  /** The weights of every category, as the weight sum counts them. */
  function CategoryWeight(categories: OrderedDict<string>, weightFactors: OrderedDict<int>): int {
    if |categories| == 0 then 0
    else
      var w := RouteScores.WeightOf(weightFactors, categories[0].0);
      (if w.Some? then SumInts(w.value) else 0) + CategoryWeight(categories[1..], weightFactors)
  }

  /** `score_building`, parameterised by the selection. */
  function ScoreBuildingWith(
    categories: OrderedDict<string>, weightFactors: OrderedDict<int>,
    routesOf: string -> seq<RouteStats>, decay: real -> real, weightSum: int, largest: bool): (r: Result<real>)
    requires weightSum != 0
    ensures r.Ok? <==> forall i :: 0 <= i < |categories| ==> WeightsFor(weightFactors, categories[i].0).Ok?
    ensures r.Err? ==> exists i :: 0 <= i < |categories| && r.error == KeyError(Name(categories[i].0))
  {
    var total := CategoryTotal(categories, weightFactors, routesOf, decay, largest);
    if total.Err? then
      KeyOfFailure(categories, weightFactors, routesOf, decay, largest);
      Err(total.error)
    else
      Ok(total.value / (weightSum as real))
  }

  /** The error of a failing total names one of the categories. */
  lemma {:induction false} KeyOfFailure(
    categories: OrderedDict<string>, weightFactors: OrderedDict<int>,
    routesOf: string -> seq<RouteStats>, decay: real -> real, largest: bool)
    requires CategoryTotal(categories, weightFactors, routesOf, decay, largest).Err?
    ensures exists i :: 0 <= i < |categories|
              && CategoryTotal(categories, weightFactors, routesOf, decay, largest).error == KeyError(Name(categories[i].0))
    decreases |categories|
  {
    var w := WeightsFor(weightFactors, categories[0].0);
    if w.Ok? {
      KeyOfFailure(categories[1..], weightFactors, routesOf, decay, largest);
      var i :| 0 <= i < |categories| - 1
        && CategoryTotal(categories[1..], weightFactors, routesOf, decay, largest).error == KeyError(Name(categories[1..][i].0));
      assert categories[1..][i] == categories[i + 1];
    }
  }

  /** `score_building` as written: the n smallest route scores. */
  function ScoreBuildingAsWritten(
    categories: OrderedDict<string>, weightFactors: OrderedDict<int>,
    routesOf: string -> seq<RouteStats>, decay: real -> real, weightSum: int): Result<real>
    requires weightSum != 0
  {
    ScoreBuildingWith(categories, weightFactors, routesOf, decay, weightSum, false)
  }

  /** `score_building` with the n largest route scores. */
  function ScoreBuilding(
    categories: OrderedDict<string>, weightFactors: OrderedDict<int>,
    routesOf: string -> seq<RouteStats>, decay: real -> real, weightSum: int): Result<real>
    requires weightSum != 0
  {
    ScoreBuildingWith(categories, weightFactors, routesOf, decay, weightSum, true)
  }

  /** Every category's routes have decay and suitability in [0, 1]. */
  predicate UnitInputs(categories: OrderedDict<string>, weightFactors: OrderedDict<int>,
                       routesOf: string -> seq<RouteStats>, decay: real -> real) {
    (forall i :: 0 <= i < |categories| ==> UnitRoutes(routesOf(categories[i].0), decay))
    && (forall i, j :: 0 <= i < |weightFactors| && 0 <= j < |weightFactors[i].1| ==> weightFactors[i].1[j] >= 0)
  }

  lemma {:induction false} CategoryTotalBounds(
    categories: OrderedDict<string>, weightFactors: OrderedDict<int>,
    routesOf: string -> seq<RouteStats>, decay: real -> real, largest: bool)
    requires UnitInputs(categories, weightFactors, routesOf, decay)
    requires CategoryTotal(categories, weightFactors, routesOf, decay, largest).Ok?
    ensures 0.0 <= CategoryTotal(categories, weightFactors, routesOf, decay, largest).value
              <= CategoryWeight(categories, weightFactors) as real
    decreases |categories|
  {
    if |categories| > 0 {
      var c := categories[0].0;
      var w := WeightsFor(weightFactors, c).value;
      var first := CategoryScoreWith(routesOf(c), w, decay, largest);
      var rest := CategoryTotal(categories[1..], weightFactors, routesOf, decay, largest);
      assert rest.Ok?;
      assert CategoryTotal(categories, weightFactors, routesOf, decay, largest).value == first + rest.value;
      assert CategoryWeight(categories, weightFactors) == SumInts(w) + CategoryWeight(categories[1..], weightFactors);
      FoundWeightsNonNegative(categories, weightFactors, routesOf, decay, c);
      assert UnitRoutes(routesOf(c), decay);
      CategoryScoreBounds(routesOf(c), w, decay, largest);
      UnitInputsTail(categories, weightFactors, routesOf, decay);
      CategoryTotalBounds(categories[1..], weightFactors, routesOf, decay, largest);
      SumBounds(first, SumInts(w) as real, rest.value, CategoryWeight(categories[1..], weightFactors) as real);
    }
  }

  lemma UnitInputsTail(categories: OrderedDict<string>, weightFactors: OrderedDict<int>,
                       routesOf: string -> seq<RouteStats>, decay: real -> real)
    requires |categories| > 0 && UnitInputs(categories, weightFactors, routesOf, decay)
    ensures UnitInputs(categories[1..], weightFactors, routesOf, decay)
  {
    assert forall i :: 0 <= i < |categories| - 1 ==> categories[1..][i] == categories[i + 1];
  }

  lemma FoundWeightsNonNegative(
    categories: OrderedDict<string>, weightFactors: OrderedDict<int>,
    routesOf: string -> seq<RouteStats>, decay: real -> real, c: string)
    requires UnitInputs(categories, weightFactors, routesOf, decay)
    requires RouteScores.WeightOf(weightFactors, c).Some?
    ensures NonNegativeWeights(RouteScores.WeightOf(weightFactors, c).value)
  {
    WeightOfEntry(weightFactors, c);
  }

  /** A found weight vector is one of the dictionary's entries. */
  lemma {:induction false} WeightOfEntry(d: OrderedDict<int>, t: string)
    requires RouteScores.WeightOf(d, t).Some?
    ensures exists m :: 0 <= m < |d| && d[m].0 == t && d[m].1 == RouteScores.WeightOf(d, t).value
    decreases |d|
  {
    if d[0].0 != t {
      WeightOfEntry(d[1..], t);
      var m :| 0 <= m < |d[1..]| && d[1..][m].0 == t && d[1..][m].1 == RouteScores.WeightOf(d[1..], t).value;
      assert d[m + 1] == d[1..][m];
    }
  }

  /** Scaled by a weight sum that covers every category's weights, a
      building scores between 0 and 1, whichever routes are selected. */
  lemma ScoreBuildingInUnitRange(
    categories: OrderedDict<string>, weightFactors: OrderedDict<int>,
    routesOf: string -> seq<RouteStats>, decay: real -> real, weightSum: int, largest: bool)
    requires UnitInputs(categories, weightFactors, routesOf, decay)
    requires weightSum > 0 && weightSum >= CategoryWeight(categories, weightFactors)
    ensures ScoreBuildingWith(categories, weightFactors, routesOf, decay, weightSum, largest).Ok? ==>
              0.0 <= ScoreBuildingWith(categories, weightFactors, routesOf, decay, weightSum, largest).value <= 1.0
  {
    var total := CategoryTotal(categories, weightFactors, routesOf, decay, largest);
    if total.Ok? {
      CategoryTotalBounds(categories, weightFactors, routesOf, decay, largest);
      UnitQuotient(total.value, CategoryWeight(categories, weightFactors) as real, weightSum as real);
    }
  }

  lemma UnitQuotient(x: real, bound: real, d: real)
    requires 0.0 <= x <= bound && bound <= d && d > 0.0
    ensures 0.0 <= x / d <= 1.0
  {
  }

  /** Pairing the smallest scores with the weights undervalues a building:
      weights [10, 4] on route scores 0.2 and 0.9 give 10 * 0.2 + 4 * 0.9 =
      5.6 as written and 10 * 0.9 + 4 * 0.2 = 9.8 with the best routes. */
  lemma SmallestScoresUndervalue()
    ensures Select([0.2, 0.9], 2, false) == [0.2, 0.9]
    ensures Select([0.2, 0.9], 2, true) == [0.9, 0.2]
    ensures Dot([10, 4], Select([0.2, 0.9], 2, false)) == 5.6
    ensures Dot([10, 4], Select([0.2, 0.9], 2, true)) == 9.8
  {
    TwoSorted(0.2, 0.9, false);
    TwoSorted(0.9, 0.2, true);
    assert multiset([0.9, 0.2]) == multiset([0.2, 0.9]);
  }

  /** An ordered permutation of two values is determined. */
  lemma TwoSorted(a: real, b: real, descending: bool)
    requires Before(a, b, descending) && a != b
    ensures Select([a, b], 2, descending) == [a, b]
    ensures Select([b, a], 2, descending) == [a, b]
  {
    OrderedPair(Select([a, b], 2, descending), a, b, descending);
    assert multiset([b, a]) == multiset([a, b]);
    OrderedPair(Select([b, a], 2, descending), a, b, descending);
  }

  /** Two distinct values have one order. */
  lemma OrderedPair(r: seq<real>, a: real, b: real, descending: bool)
    requires |r| == 2 && Ordered(r, descending) && multiset(r) <= multiset([a, b])
    requires Before(a, b, descending) && a != b
    ensures r == [a, b]
  {
    assert r == [r[0], r[1]];
    assert r[0] in multiset(r) && r[1] in multiset(r);
    assert Before(r[0], r[1], descending);
  }

  /** `score_buildings`, parameterised by the selection: the input rows in
      order, each with its score; it fails exactly when some category has no
      weights and there is a building to score. */
  function ScoreBuildingsWith<B>(
    buildings: seq<B>, categories: OrderedDict<string>, weightFactors: OrderedDict<int>,
    routesOf: (B, string) -> seq<RouteStats>, decay: real -> real, weightSum: int, largest: bool): (r: Result<seq<(B, real)>>)
    requires weightSum != 0
    ensures r.Ok? <==> |buildings| == 0 || forall k :: 0 <= k < |categories| ==> WeightsFor(weightFactors, categories[k].0).Ok?
    ensures r.Ok? ==> |r.value| == |buildings|
    ensures r.Ok? ==> forall i :: 0 <= i < |buildings| ==>
              r.value[i].0 == buildings[i]
              && ScoreBuildingWith(categories, weightFactors, c => routesOf(buildings[i], c), decay, weightSum, largest) == Ok(r.value[i].1)
  {
    var scores :- MapAll(buildings, (b: B) => ScoreBuildingWith(categories, weightFactors, c => routesOf(b, c), decay, weightSum, largest));
    Ok(seq(|buildings|, i requires 0 <= i < |buildings| => (buildings[i], scores[i])))
  }

  /** `score_buildings` as written: every building is scored by
      `ScoreBuildingAsWritten`, which pairs the weights with the n smallest
      route scores. */
  function ScoreBuildings<B>(
    buildings: seq<B>, categories: OrderedDict<string>, weightFactors: OrderedDict<int>,
    routesOf: (B, string) -> seq<RouteStats>, decay: real -> real, weightSum: int): (r: Result<seq<(B, real)>>)
    requires weightSum != 0
    ensures r.Ok? <==> |buildings| == 0 || forall k :: 0 <= k < |categories| ==> WeightsFor(weightFactors, categories[k].0).Ok?
    ensures r.Ok? ==> |r.value| == |buildings|
    ensures r.Ok? ==> forall i :: 0 <= i < |buildings| ==>
              r.value[i].0 == buildings[i]
              && ScoreBuildingAsWritten(categories, weightFactors, c => routesOf(buildings[i], c), decay, weightSum) == Ok(r.value[i].1)
  {
    ScoreBuildingsWith(buildings, categories, weightFactors, routesOf, decay, weightSum, false)
  }

  /** `score_buildings` with every building scored by `ScoreBuilding`, the
      weights paired with the n largest route scores. */
  function ScoreBuildingsCorrected<B>(
    buildings: seq<B>, categories: OrderedDict<string>, weightFactors: OrderedDict<int>,
    routesOf: (B, string) -> seq<RouteStats>, decay: real -> real, weightSum: int): (r: Result<seq<(B, real)>>)
    requires weightSum != 0
    ensures r.Ok? <==> |buildings| == 0 || forall k :: 0 <= k < |categories| ==> WeightsFor(weightFactors, categories[k].0).Ok?
    ensures r.Ok? ==> |r.value| == |buildings|
    ensures r.Ok? ==> forall i :: 0 <= i < |buildings| ==>
              r.value[i].0 == buildings[i]
              && ScoreBuilding(categories, weightFactors, c => routesOf(buildings[i], c), decay, weightSum) == Ok(r.value[i].1)
  {
    ScoreBuildingsWith(buildings, categories, weightFactors, routesOf, decay, weightSum, true)
  }
}

=== FILE: cascade.dfy ===
/** Road segments with their optional OSM tags, and the rule cascade that
    scores them. Each scoring statement of the program (`scoring.loc[mask,
    column] = value`) is one rule; the statements run in order and every rule
    whose mask selects a row overwrites the row's score. */
module Cascade {
  import opened Wrappers

  /** The score of a row no rule has matched yet. */
  const Unscored: int := -1

  /** One row of the OSM network table. A missing tag is `None`. */
  datatype Segment = Segment(
    id: int,
    name: Option<string>,
    highway: Option<string>,
    bicycle: Option<string>,
    bicycleRoad: Option<string>,
    cycleway: Option<string>,
    motorVehicle: Option<string>,
    surface: Option<string>,
    smoothness: Option<string>,
    tracktype: Option<string>)

  datatype Tag = Highway | Bicycle | BicycleRoad | Cycleway | MotorVehicle | Surface | Smoothness | Tracktype

  function Get(s: Segment, t: Tag): Option<string> {
    match t
    case Highway => s.highway
    case Bicycle => s.bicycle
    case BicycleRoad => s.bicycleRoad
    case Cycleway => s.cycleway
    case MotorVehicle => s.motorVehicle
    case Surface => s.surface
    case Smoothness => s.smoothness
    case Tracktype => s.tracktype
  }

  /** A row mask: `column.isin(values)` (and `column == value` as the one-value
      list), combined with `|`, `&` and `~`. */
  datatype Cond =
    | In(tag: Tag, values: seq<string>)
    | Or(left: Cond, right: Cond)
    | And(left: Cond, right: Cond)
    | Not(inner: Cond)

  /** Whether the mask selects the row. A missing tag is in no list, so `~`
      of a comparison with a missing tag is true. */
  predicate Matches(c: Cond, s: Segment) {
    match c
    case In(t, vs) => IsIn(Get(s, t), vs)
    case Or(l, r) => Matches(l, s) || Matches(r, s)
    case And(l, r) => Matches(l, s) && Matches(r, s)
    case Not(i) => !Matches(i, s)
  }

  datatype Rule = Rule(when: Cond, score: int)

  /** The score after the first `k` rules have run, left to right: rule `k - 1`
      overwrites the score the earlier rules left when it matches. */
  function ApplyFirst(rules: seq<Rule>, k: nat, s: Segment, acc: int): int
    requires k <= |rules|
  {
    if k == 0 then acc
    else if Matches(rules[k - 1].when, s) then rules[k - 1].score
    else ApplyFirst(rules, k - 1, s, acc)
  }

  /** The score after every rule has run. */
  function Apply(rules: seq<Rule>, s: Segment, acc: int): int {
    ApplyFirst(rules, |rules|, s, acc)
  }

  /** Rule `k` is the last of the first `n` rules that matches the row. */
  predicate LastMatchBelow(rules: seq<Rule>, n: nat, s: Segment, k: int)
    requires n <= |rules|
  {
    && 0 <= k < n
    && Matches(rules[k].when, s)
    && forall j :: k < j < n ==> !Matches(rules[j].when, s)
  }

  /** Rule `k` is the last rule of the list that matches the row. */
  predicate LastMatchAt(rules: seq<Rule>, s: Segment, k: int) {
    LastMatchBelow(rules, |rules|, s, k)
  }

  /** Last match wins: the cascade's result is the score of the last matching
      rule, or the initial value when no rule matches. */
  lemma ApplyIsLastMatch(rules: seq<Rule>, s: Segment, acc: int)
    ensures (forall k :: 0 <= k < |rules| ==> !Matches(rules[k].when, s)) ==> Apply(rules, s, acc) == acc
    ensures forall k :: LastMatchAt(rules, s, k) ==> Apply(rules, s, acc) == rules[k].score
  {
    if forall k :: 0 <= k < |rules| ==> !Matches(rules[k].when, s) {
      NoMatchKeeps(rules, |rules|, s, acc);
    }
    forall k | LastMatchAt(rules, s, k) ensures Apply(rules, s, acc) == rules[k].score {
      LastMatchDecides(rules, |rules|, s, acc, k);
    }
  }

  lemma {:induction false} NoMatchKeeps(rules: seq<Rule>, n: nat, s: Segment, acc: int)
    requires n <= |rules|
    requires forall k :: 0 <= k < n ==> !Matches(rules[k].when, s)
    ensures ApplyFirst(rules, n, s, acc) == acc
  {
    if n > 0 {
      NoMatchKeeps(rules, n - 1, s, acc);
    }
  }

  lemma {:induction false} LastMatchDecides(rules: seq<Rule>, n: nat, s: Segment, acc: int, k: int)
    requires n <= |rules| && LastMatchBelow(rules, n, s, k)
    ensures ApplyFirst(rules, n, s, acc) == rules[k].score
  {
    if k < n - 1 {
      assert !Matches(rules[n - 1].when, s);
      LastMatchDecides(rules, n - 1, s, acc, k);
    }
  }

  /** Running two rule lists one after the other is running their
      concatenation. */
  lemma ApplyAppend(a: seq<Rule>, b: seq<Rule>, s: Segment, acc: int)
    ensures Apply(a + b, s, acc) == Apply(b, s, Apply(a, s, acc))
  {
    ApplyFirstAppend(a, b, |b|, s, acc);
  }

  lemma {:induction false} ApplyFirstAppend(a: seq<Rule>, b: seq<Rule>, k: nat, s: Segment, acc: int)
    requires k <= |b|
    ensures ApplyFirst(a + b, |a| + k, s, acc) == ApplyFirst(b, k, s, Apply(a, s, acc))
  {
    if k == 0 {
      ApplyFirstPrefix(a, b, |a|, s, acc);
    } else {
      assert (a + b)[|a| + k - 1] == b[k - 1];
      ApplyFirstAppend(a, b, k - 1, s, acc);
    }
  }

  lemma {:induction false} ApplyFirstPrefix(a: seq<Rule>, b: seq<Rule>, k: nat, s: Segment, acc: int)
    requires k <= |a|
    ensures ApplyFirst(a + b, k, s, acc) == ApplyFirst(a, k, s, acc)
  {
    if k > 0 {
      assert (a + b)[k - 1] == a[k - 1];
      ApplyFirstPrefix(a, b, k - 1, s, acc);
    }
  }
}

=== FILE: colors.dfy ===
/** The two pieces of the web map that are plain computation: reading a
    plotly colour string "rgb(r, g, b)" as a list of integers
    (`convert_plotly_to_rgb`), and colouring rows by their value clamped to
    the colour scale's range (`add_color_to_data`). Sampling the plotly
    colour scale itself is not part of this model: the generated colour
    dictionary is a parameter. */
module Colors {
  import opened Wrappers
  import opened Text

  /** `int(piece)`, a ValueError when the piece is not a numeral. */
  function ParsePiece(piece: string): (r: Result<int>)
    ensures r.Ok? <==> ParseInt(piece).Some?
    ensures r.Ok? ==> r.value == ParseInt(piece).value
  {
    match ParseInt(piece)
    case Some(n) => Ok(n)
    case None => Err(ValueError("invalid literal for int() with base 10"))
  }

  /** The pieces between ", " once the prefix "rgb(" and the suffix ")" are
      taken off (each only when present). */
  function ColorPieces(s: string): seq<string> {
    Split(RemoveSuffix(RemovePrefix(s, "rgb("), ")"), ", ")
  }

  /** `convert_plotly_to_rgb`: one integer per piece, in order; the first
      piece that is not a numeral raises a ValueError. */
  function ConvertPlotlyToRgb(s: string): (r: Result<seq<int>>)
    ensures r.Ok? <==> forall i :: 0 <= i < |ColorPieces(s)| ==> ParseInt(ColorPieces(s)[i]).Some?
    ensures r.Ok? ==> |r.value| == |ColorPieces(s)|
    ensures r.Ok? ==> forall i :: 0 <= i < |r.value| ==> ParseInt(ColorPieces(s)[i]) == Some(r.value[i])
  {
    MapAll(ColorPieces(s), ParsePiece)
  }

  /** The decimal numerals of a list of numbers joined by ", ". */
  function FormatList(cs: seq<nat>): string {
    Join(seq(|cs|, i requires 0 <= i < |cs| => NatToString(cs[i])), ", ")
  }

  /** The colour string plotly writes for a list of channel values. */
  function FormatRgb(cs: seq<nat>): string {
    "rgb(" + FormatList(cs) + ")"
  }

  /** Reading a written colour gives its channels back. */
  lemma RgbRoundTrip(cs: seq<nat>)
    requires |cs| > 0
    ensures ConvertPlotlyToRgb(FormatRgb(cs)) == Ok(cs)
  {
    var body := FormatList(cs);
    var s := FormatRgb(cs);
    assert "rgb(" <= s;
    assert RemovePrefix(s, "rgb(") == body + ")";
    assert RemoveSuffix(body + ")", ")") == body;
    ListRoundTrip(cs);
  }

  /** Without the wrapper the list reads the same: the prefix and the suffix
      are only taken off when present. */
  lemma BareListRoundTrip(cs: seq<nat>)
    requires |cs| > 0
    ensures ConvertPlotlyToRgb(FormatList(cs)) == Ok(cs)
  {
    var body := FormatList(cs);
    JoinStartsAndEndsWithDigit(cs);
    assert !("rgb(" <= body) by {
      assert IsDigit(body[0]);
    }
    assert RemovePrefix(body, "rgb(") == body;
    assert RemoveSuffix(body, ")") == body by {
      assert body[|body| - 1..] != ")" by {
        assert IsDigit(body[|body| - 1]);
      }
    }
    ListRoundTrip(cs);
  }

  /** The numerals of a joined list split and parse back to the list. */
  lemma ListRoundTrip(cs: seq<nat>)
    requires |cs| > 0
    ensures MapAll(Split(FormatList(cs), ", "), ParsePiece) == Ok(cs)
  {
    var pieces := seq(|cs|, i requires 0 <= i < |cs| => NatToString(cs[i]));
    forall i, k | 0 <= i < |pieces| && 0 <= k < |pieces[i]| ensures pieces[i][k] != ", "[0] {
      assert AllDigits(pieces[i]);
    }
    SplitJoin(pieces, ", ");
    forall i | 0 <= i < |pieces| ensures ParsePiece(pieces[i]) == Ok(cs[i]) {
      ParseNatToString(cs[i]);
    }
    var r := MapAll(pieces, ParsePiece);
    assert r.Ok?;
    assert r.value == cs;
  }

  /** A joined list of numerals starts and ends with a digit. */
  lemma {:induction false} JoinStartsAndEndsWithDigit(cs: seq<nat>)
    requires |cs| > 0
    ensures |FormatList(cs)| > 0
    ensures IsDigit(FormatList(cs)[0]) && IsDigit(FormatList(cs)[|FormatList(cs)| - 1])
    decreases |cs|
  {
    var pieces := seq(|cs|, i requires 0 <= i < |cs| => NatToString(cs[i]));
    if |cs| > 1 {
      JoinStartsAndEndsWithDigit(cs[1..]);
      var rest := seq(|cs| - 1, i requires 0 <= i < |cs| - 1 => NatToString(cs[1..][i]));
      assert pieces[1..] == rest;
      assert FormatList(cs) == pieces[0] + ", " + FormatList(cs[1..]);
    }
  }

  /** A short colour string fails: "rgb(1,2,3)" is a single piece "1,2,3",
      which is not a numeral. */
  lemma CommaWithoutSpaceFails()
    ensures ConvertPlotlyToRgb("rgb(1,2,3)").Err?
  {
    var inner := "1,2,3";
    assert RemovePrefix("rgb(1,2,3)", "rgb(") == inner + ")";
    assert RemoveSuffix(inner + ")", ")") == inner;
    forall i: nat ensures !OccursAt(inner, ", ", i) {
      if i + 2 <= |inner| {
        assert inner[i..i + 2][1] == inner[i + 1] != ' ';
      }
    }
    assert Find(inner, ", ").None?;
    assert ColorPieces("rgb(1,2,3)") == [inner];
    assert StripLeft(inner) == inner;
    assert StripRight(inner) == inner;
    assert !AllDigits(inner) by { assert !IsDigit(inner[1]); }
    assert ParseInt(inner) == None;
  }

  // The clamp of add_color_to_data

  /** Values above the maximum become the maximum; then values below the
      minimum become the minimum. */
  function Clamp(v: real, lo: real, hi: real): (r: real)
    ensures lo <= hi ==> lo <= r <= hi
    ensures lo <= v <= hi ==> r == v
    ensures lo > hi ==> r == lo
  {
    var capped := if v > hi then hi else v;
    if capped < lo then lo else capped
  }

  /** The clamp never moves a value further than needed: it is the nearest
      point of the range. */
  lemma ClampNearest(v: real, lo: real, hi: real, x: real)
    requires lo <= x <= hi
    ensures Abs(Clamp(v, lo, hi) - v) <= Abs(x - v)
  {
  }

  function Abs(x: real): real {
    if x < 0.0 then -x else x
  }

  /** `round(2)`: the nearest multiple of 0.01, a tie going to the even
      hundredth. */
  function Round2(v: real): (r: real)
    ensures -0.005 <= r - v <= 0.005
    ensures (r * 100.0).Floor as real == r * 100.0
    ensures Abs(r * 100.0 - v * 100.0) == 0.5 ==> (r * 100.0).Floor % 2 == 0
  {
    var x := v * 100.0;
    var f := x.Floor;
    var frac := x - (f as real);
    var n := if frac < 0.5 then f else if frac > 0.5 then f + 1 else if f % 2 == 0 then f else f + 1;
    (n as real) / 100.0
  }

  /** Away from a tie, `round(2)` is the one whole number of hundredths
      nearer than half a hundredth. */
  lemma Round2IsNearest(v: real, n: int)
    requires Abs(n as real - v * 100.0) < 0.5
    ensures Round2(v) == n as real / 100.0
  {
    var x := v * 100.0;
    var m := (Round2(v) * 100.0).Floor;
    assert Round2(v) * 100.0 == m as real;
    assert Abs(m as real - x) <= 0.5;
    assert m == n;
  }

  /** Ties go to the even hundredth. */
  lemma Round2Ties()
    ensures Round2(0.125) == 0.12
    ensures Round2(0.135) == 0.14
    ensures Round2(-0.125) == -0.12
  {
  }

  /** A row with its colour: the row's own columns and one more. */
  datatype Colored<R> = Colored(row: R, color: Option<seq<int>>)

  /** `add_color_to_data`: each row keeps its columns and gains the colour
      its clamped, rounded value maps to (NaN when the dictionary has no
      entry). An empty or missing colour dictionary is replaced by the
      generated one. */
  function AddColorToData<R>(
    rows: seq<R>, value: R -> real, lo: real, hi: real,
    colorDict: map<real, seq<int>>, generated: map<real, seq<int>>): (r: seq<Colored<R>>)
    ensures |r| == |rows|
    ensures forall i :: 0 <= i < |rows| ==> r[i].row == rows[i]
    ensures forall i :: 0 <= i < |rows| ==>
              var key := Round2(Clamp(value(rows[i]), lo, hi));
              var dict := if |colorDict| == 0 then generated else colorDict;
              (r[i].color.Some? <==> key in dict) && (key in dict ==> r[i].color == Some(dict[key]))
  {
    var dict := if |colorDict| == 0 then generated else colorDict;
    seq(|rows|, i requires 0 <= i < |rows| =>
      var key := Round2(Clamp(value(rows[i]), lo, hi));
      Colored(rows[i], if key in dict then Some(dict[key]) else None))
  }
}

=== FILE: config.dfy ===
/** The configuration tables of the bikeability model: default scores, factor
    weights, the score-to-penalty translation tables, the ignored road types,
    the POI lists and the persona weight vectors. Python dictionaries keep
    insertion order, so an ordered dictionary is a sequence of pairs. */
module Config {

  datatype ScoreDefaults = ScoreDefaults(separation: int, surface: int, traffic: int)

  datatype FactorWeights = FactorWeights(separation: real, surface: real, traffic: real, accidents: real)

  /** A translation table maps an integer score to a penalty factor. */
  type Table = map<int, real>

  /** An ordered dictionary from names to lists. */
  type OrderedDict<T> = seq<(string, seq<T>)>

  predicate InScoreRange(s: int) {
    0 <= s <= 5
  }

  /** A translation table covers the scores 0..5, gives the worst score the
      full penalty 1, the best score none, and strictly decreases in between. */
  predicate WellFormedTable(t: Table) {
    && t.Keys == {0, 1, 2, 3, 4, 5}
    && t[0] == 1.0
    && t[5] == 0.0
    && forall i, j :: 0 <= i < j <= 5 ==> t[i] > t[j]
  }

  predicate NonNegativeTable(t: Table) {
    forall k :: k in t ==> t[k] >= 0.0
  }

  function DefaultScores(): (d: ScoreDefaults)
    ensures InScoreRange(d.separation) && InScoreRange(d.surface)
    ensures d.separation == d.surface
  {
    ScoreDefaults(separation := 2, surface := 2, traffic := 3)
  }

  function Weights(): (w: FactorWeights)
    ensures w.separation >= 0.0 && w.surface >= 0.0 && w.traffic >= 0.0 && w.accidents >= 0.0
  {
    FactorWeights(separation := 2.0, surface := 1.0, traffic := 1.0, accidents := 0.5)
  }

  /** The four tables `factors_separation`, `factors_surface`,
      `factors_traffic` and `factors_accidents` hold the same values. */
  function PenaltyTable(): (t: Table)
    ensures WellFormedTable(t)
    ensures NonNegativeTable(t)
  {
    map[5 := 0.0, 4 := 0.02, 3 := 0.04, 2 := 0.06, 1 := 0.1, 0 := 1.0]
  }

  datatype Translation = Translation(separation: Table, surface: Table, traffic: Table, accidents: Table)

  function TranslationFactors(): (t: Translation)
    ensures WellFormedTable(t.separation) && WellFormedTable(t.surface)
    ensures WellFormedTable(t.traffic) && WellFormedTable(t.accidents)
  {
    Translation(PenaltyTable(), PenaltyTable(), PenaltyTable(), PenaltyTable())
  }

  /** Road types that are never evaluated. */
  function IgnoredTypes(): (r: seq<string>)
    ensures "motorway" in r && "service" in r
    ensures "motorway_link" !in r
  {
    ["motorway", "service"]
  }

  function Keys<T>(d: OrderedDict<T>): seq<string> {
    seq(|d|, i requires 0 <= i < |d| => d[i].0)
  }

  predicate DistinctKeys<T>(d: OrderedDict<T>) {
    forall i, j :: 0 <= i < j < |d| ==> d[i].0 != d[j].0
  }

  function SumInts(xs: seq<int>): int {
    if |xs| == 0 then 0 else xs[0] + SumInts(xs[1..])
  }

  /** Sum of every entry of every weight vector (`weight_sum`). */
  function TotalWeight(d: OrderedDict<int>): int {
    if |d| == 0 then 0 else SumInts(d[0].1) + TotalWeight(d[1..])
  }

  predicate NonIncreasing(xs: seq<int>) {
    forall i, j :: 0 <= i < j < |xs| ==> xs[i] >= xs[j]
  }

  /** Every weight vector has the shape `[w, 0, 0]` with `w > 0`. */
  predicate FirstRankOnly(d: OrderedDict<int>) {
    forall entry :: entry in d ==> FirstRankShape(entry.1)
  }

  predicate FirstRankShape(w: seq<int>) {
    |w| == 3 && w[0] > 0 && w[1] == 0 && w[2] == 0
  }

  function PoisModel(): (d: OrderedDict<string>)
    ensures Keys(d) == ["amenity", "shop"]
  {
    [("amenity", ["doctors", "cinema", "pharmacy", "bank", "cafe"]),
     ("shop", ["supermarket", "bakery"])]
  }

  function ModelWeightFactors(): (d: OrderedDict<int>)
    ensures DistinctKeys(d)
    ensures forall i :: 0 <= i < |d| ==> |d[i].1| == 3 && NonIncreasing(d[i].1)
  {
    [("doctors", [5, 1, 0]),
     ("cinema", [2, 0, 0]),
     ("pharmacy", [3, 0, 0]),
     ("bank", [3, 0, 0]),
     ("cafe", [4, 2, 0]),
     ("supermarket", [10, 4, 3]),
     ("bakery", [5, 1, 0])]
  }

  function FamilyPois(): (d: OrderedDict<string>)
    ensures Keys(d) == ["amenity", "shop"]
  {
    [("amenity", ["kindergarten", "school", "bus_station", "car_sharing", "pharmacy", "doctors", "cinema"]),
     ("shop", ["bakery", "supermarket", "greengrocer"])]
  }

  function SeniorPois(): (d: OrderedDict<string>)
    ensures Keys(d) == ["amenity", "shop"]
  {
    [("amenity", ["cafe", "bus_station", "bank", "pharmacy", "place_of_worship", "doctors", "theatre"]),
     ("shop", ["bakery", "supermarket", "butcher"])]
  }

  function StudentPois(): (d: OrderedDict<string>)
    ensures Keys(d) == ["amenity", "shop"]
  {
    [("amenity", ["bar", "cafe", "library", "university", "bus_station", "parcel_locker", "pharmacy", "doctors"]),
     ("shop", ["hairdresser", "supermarket"])]
  }

  function FamilyWeightFactors(): (d: OrderedDict<int>)
    ensures FirstRankOnly(d)
  {
    [("kindergarten", [9, 0, 0]),
     ("school", [8, 0, 0]),
     ("bus_station", [4, 0, 0]),
     ("car_sharing", [5, 0, 0]),
     ("pharmacy", [6, 0, 0]),
     ("doctors", [7, 0, 0]),
     ("cinema", [1, 0, 0]),
     ("bakery", [3, 0, 0]),
     ("supermarket", [10, 0, 0]),
     ("greengrocer", [2, 0, 0])]
  }

  function SeniorWeightFactors(): (d: OrderedDict<int>)
    ensures FirstRankOnly(d)
  {
    [("cafe", [5, 0, 0]),
     ("bus_station", [2, 0, 0]),
     ("bank", [3, 0, 0]),
     ("pharmacy", [8, 0, 0]),
     ("place_of_worship", [6, 0, 0]),
     ("doctors", [10, 0, 0]),
     ("theatre", [1, 0, 0]),
     ("bakery", [7, 0, 0]),
     ("supermarket", [9, 0, 0]),
     ("butcher", [4, 0, 0])]
  }

  function StudentWeightFactors(): (d: OrderedDict<int>)
    ensures FirstRankOnly(d)
  {
    [("bar", [4, 0, 0]),
     ("cafe", [3, 0, 0]),
     ("library", [9, 0, 0]),
     ("university", [10, 0, 0]),
     ("bus_station", [4, 0, 0]),
     ("parcel_locker", [1, 0, 0]),
     ("pharmacy", [5, 0, 0]),
     ("doctors", [6, 0, 0]),
     ("hairdresser", [2, 0, 0]),
     ("supermarket", [7, 0, 0])]
  }

  /** The weights of the main model add up to 43. */
  lemma ModelTotal()
    ensures TotalWeight(ModelWeightFactors()) == 43
  {
  }

  /** The persona weights add up to 55, 55 and 51. */
  lemma PersonaTotals()
    ensures TotalWeight(FamilyWeightFactors()) == 55
    ensures TotalWeight(SeniorWeightFactors()) == 55
    ensures TotalWeight(StudentWeightFactors()) == 51
  {
    FamilyTotal();
    SeniorTotal();
    StudentTotal();
  }

  lemma FamilyTotal()
    ensures TotalWeight(FamilyWeightFactors()) == 55
  {
  }

  lemma SeniorTotal()
    ensures TotalWeight(SeniorWeightFactors()) == 55
  {
  }

  lemma StudentTotal()
    ensures TotalWeight(StudentWeightFactors()) == 51
  {
  }

  function PersonaPois(): seq<OrderedDict<string>> {
    [FamilyPois(), SeniorPois(), StudentPois()]
  }

  function PersonaWeights(): seq<OrderedDict<int>> {
    [FamilyWeightFactors(), SeniorWeightFactors(), StudentWeightFactors()]
  }

  function PersonaNames(): seq<string> {
    ["families", "students", "seniors"]
  }

  /** Python `zip(a, b)`: pairs up to the shorter length. */
  function Zip<A, B>(a: seq<A>, b: seq<B>): (r: seq<(A, B)>)
    ensures |r| == if |a| <= |b| then |a| else |b|
    ensures forall i :: 0 <= i < |r| ==> r[i] == (a[i], b[i])
  {
    if |a| == 0 || |b| == 0 then [] else [(a[0], b[0])] + Zip(a[1..], b[1..])
  }

  /** The persona names are listed in a different order from the persona
      weights, so zipping them pairs "students" with the senior weights and
      "seniors" with the student weights. The only loop over the three lists
      (main.py:575) is commented out, so this concerns the configuration as
      published, not a running code path. */
  lemma PersonaNamesMisaligned()
    ensures Zip(PersonaNames(), PersonaWeights())[1] == ("students", SeniorWeightFactors())
    ensures Zip(PersonaNames(), PersonaWeights())[2] == ("seniors", StudentWeightFactors())
    ensures SeniorWeightFactors() != StudentWeightFactors()
  {
    assert SeniorWeightFactors()[0].0 == "cafe" != "bar" == StudentWeightFactors()[0].0;
  }
}

=== FILE: decay.dfy ===
/** Turning route distances into scores: the distance decay of the
    walkability helper, the weighted score matrix (`calc_score`) and the
    column names of the score frame (`format_score`). The logistic decay of
    the bikeability helper uses `exp` and is a parameter wherever it is
    needed. */
module Decay {
  import opened Wrappers
  import opened Text

  /** Metres to miles. */
  const MilesPerMetre: real := 0.000621371

  function Pow(x: real, n: nat): real {
    if n == 0 then 1.0 else x * Pow(x, n - 1)
  }

  /** The fitted quintic in miles. */
  function Quintic(m: real): real {
    -180.644093 * Pow(m, 5) + 591.165958 * Pow(m, 4) - 533.162397 * Pow(m, 3)
      + 3.33386213 * Pow(m, 2) - 0.0941291973 * m + 102.061531
  }

  /** The walkability decay of a distance in metres: the quintic of the
      distance in miles, cut off above at 100 and below at 0. */
  function WalkDecay(x: real): (y: real)
    ensures 0.0 <= y <= 100.0
    ensures 0.0 <= Quintic(MilesPerMetre * x) <= 100.0 ==> y == Quintic(MilesPerMetre * x)
    ensures Quintic(MilesPerMetre * x) > 100.0 ==> y == 100.0
    ensures Quintic(MilesPerMetre * x) < 0.0 ==> y == 0.0
  {
    var raw := Quintic(MilesPerMetre * x);
    if raw > 100.0 then 100.0 else if raw < 0.0 then 0.0 else raw
  }

  /** A destination at the door scores the full 100; one a mile away
      scores nothing. */
  lemma WalkDecayEnds()
    ensures WalkDecay(0.0) == 100.0
    ensures WalkDecay(1.0 / MilesPerMetre) == 0.0
  {
    assert Pow(0.0, 5) == 0.0 && Pow(0.0, 4) == 0.0 && Pow(0.0, 3) == 0.0 && Pow(0.0, 2) == 0.0;
    assert MilesPerMetre * (1.0 / MilesPerMetre) == 1.0;
    assert Pow(1.0, 5) == 1.0 && Pow(1.0, 4) == 1.0 && Pow(1.0, 3) == 1.0 && Pow(1.0, 2) == 1.0;
  }

  /** `np.outer(decay(d), w)`: one row per route, one column per weight,
      entry `(i, j)` the decayed distance of route `i` times weight `j`. */
  function OuterScore(decayed: seq<real>, w: seq<int>): (m: seq<seq<real>>)
    ensures |m| == |decayed|
    ensures forall i :: 0 <= i < |m| ==> |m[i]| == |w|
    ensures forall i, j :: 0 <= i < |m| && 0 <= j < |w| ==> m[i][j] == decayed[i] * (w[j] as real)
  {
    seq(|decayed|, i requires 0 <= i < |decayed| =>
      seq(|w|, j requires 0 <= j < |w| => decayed[i] * (w[j] as real)))
  }

  /** A zero weight gives an all-zero column, and a decay between 0 and 100
      keeps entry `(i, j)` between 0 and `100 * w[j]` for a non-negative
      weight. */
  lemma OuterScoreBounds(decayed: seq<real>, w: seq<int>)
    requires forall i :: 0 <= i < |decayed| ==> 0.0 <= decayed[i] <= 100.0
    ensures forall i, j :: 0 <= i < |decayed| && 0 <= j < |w| && w[j] == 0 ==> OuterScore(decayed, w)[i][j] == 0.0
    ensures forall i, j :: 0 <= i < |decayed| && 0 <= j < |w| && w[j] >= 0 ==>
              0.0 <= OuterScore(decayed, w)[i][j] <= 100.0 * (w[j] as real)
  {
    var m := OuterScore(decayed, w);
    forall i, j | 0 <= i < |decayed| && 0 <= j < |w| && w[j] >= 0
      ensures 0.0 <= m[i][j] <= 100.0 * (w[j] as real)
    {
      var y, c := decayed[i], w[j] as real;
      assert m[i][j] == y * c;
      ScaleBounds(y, c);
    }
  }

  lemma ScaleBounds(y: real, c: real)
    requires 0.0 <= y <= 100.0 && c >= 0.0
    ensures 0.0 <= y * c <= 100.0 * c
  {
  }

  /** The decay of every distance. */
  function Decays(dists: seq<real>): (r: seq<real>)
    ensures |r| == |dists|
    ensures forall i :: 0 <= i < |dists| ==> r[i] == WalkDecay(dists[i]) && 0.0 <= r[i] <= 100.0
  {
    seq(|dists|, i requires 0 <= i < |dists| => WalkDecay(dists[i]))
  }

  /** `calc_score` of the walkability helper. Every entry is the decayed
      distance times its weight, and a zero weight gives a zero column; as
      every decay lies in `[0, 100]`, `OuterScoreBounds` bounds the entries. */
  function CalcScore(dists: seq<real>, w: seq<int>): (m: seq<seq<real>>)
    ensures |m| == |dists| && forall i :: 0 <= i < |m| ==> |m[i]| == |w|
    ensures forall i, j :: 0 <= i < |m| && 0 <= j < |w| ==> m[i][j] == WalkDecay(dists[i]) * (w[j] as real)
    ensures forall i, j :: 0 <= i < |m| && 0 <= j < |w| && w[j] == 0 ==> m[i][j] == 0.0
  {
    OuterScore(Decays(dists), w)
  }

  /** The name of score column `j`, counted from 0. */
  function ColumnName(j: nat): string {
    "score_" + NatToString(j + 1)
  }

  /** `format_score`'s column names: "score_1" to "score_k" in order. The
      number after the prefix reads back as the position. */
  function ColumnNames(k: nat): (r: seq<string>)
    ensures |r| == k
    ensures forall j :: 0 <= j < k ==> |r[j]| > 6 && r[j][..6] == "score_" && ParseInt(r[j][6..]) == Some(j + 1)
  {
    ColumnNamesParse();
    seq(k, j requires 0 <= j < k => ColumnName(j))
  }

  lemma ColumnNamesParse()
    ensures forall j: nat :: |ColumnName(j)| > 6 && ColumnName(j)[..6] == "score_" && ParseInt(ColumnName(j)[6..]) == Some(j + 1)
  {
    forall j: nat
      ensures |ColumnName(j)| > 6 && ColumnName(j)[..6] == "score_" && ParseInt(ColumnName(j)[6..]) == Some(j + 1)
    {
      ColumnNameParses(j);
    }
  }

  lemma ColumnNameParses(j: nat)
    ensures |ColumnName(j)| > 6 && ColumnName(j)[..6] == "score_" && ParseInt(ColumnName(j)[6..]) == Some(j + 1)
  {
    assert ColumnName(j)[6..] == NatToString(j + 1);
    ParseNatToString(j + 1);
  }

  /** No two score columns share a name. */
  lemma ColumnNamesDistinct(k: nat, i: nat, j: nat)
    requires i < j < k
    ensures ColumnNames(k)[i] != ColumnNames(k)[j]
  {
    var names := ColumnNames(k);
    assert ParseInt(names[i][6..]) == Some(i + 1) && ParseInt(names[j][6..]) == Some(j + 1);
  }

  // The bikeability helper's `calc_score` and `format_score`.

  /** `np.multiply` on two vectors: elementwise when the lengths agree,
      broadcast when one of them has length 1, a ValueError otherwise. */
  function ElementwiseProduct(decayed: seq<real>, w: seq<int>): (r: Result<seq<real>>)
    ensures r.Ok? <==> |decayed| == |w| || |w| == 1 || |decayed| == 1
    ensures r.Ok? ==> |r.value| == if |decayed| == |w| || |w| == 1 then |decayed| else |w|
  {
    if |decayed| == |w| then
      Ok(seq(|w|, i requires 0 <= i < |w| => decayed[i] * (w[i] as real)))
    else if |w| == 1 then
      Ok(seq(|decayed|, i requires 0 <= i < |decayed| => decayed[i] * (w[0] as real)))
    else if |decayed| == 1 then
      Ok(seq(|w|, i requires 0 <= i < |w| => decayed[0] * (w[i] as real)))
    else
      Err(ValueError("operands could not be broadcast together"))
  }

  /** `pd.DataFrame(data, index, columns)` for a one-dimensional `data`: it
      is a single column, so the frame needs exactly one column name and one
      index entry per value. */
  function FrameOfVector(data: seq<real>, rows: nat, columns: nat): (r: Result<seq<seq<real>>>)
    ensures r.Ok? <==> columns == 1 && |data| == rows
    ensures r.Ok? ==> |r.value| == rows && forall i :: 0 <= i < rows ==> r.value[i] == [data[i]]
  {
    if columns == 1 && |data| == rows then
      Ok(seq(rows, i requires 0 <= i < rows => [data[i]]))
    else
      Err(ValueError("shape of passed values does not match the indices"))
  }

  /** The bikeability helper's `calc_score` followed by `format_score`, as
      written. */
  function HelperScoreAsWritten(decayed: seq<real>, w: seq<int>): Result<seq<seq<real>>> {
    var p :- ElementwiseProduct(decayed, w);
    FrameOfVector(p, |decayed|, |w|)
  }

  /** Any weight vector with two or more entries fails, whatever the routes:
      every configured weight vector has three. */
  lemma HelperScoreFailsForWideWeights(decayed: seq<real>, w: seq<int>)
    requires |w| >= 2
    ensures HelperScoreAsWritten(decayed, w).Err?
  {
  }

  /** The outer product the walkability helper uses always fits the frame:
      one row per route and one column per weight. */
  function HelperScore(decayed: seq<real>, w: seq<int>): (r: Result<seq<seq<real>>>)
    ensures r.Ok?
    ensures |r.value| == |decayed| && forall i :: 0 <= i < |decayed| ==> |r.value[i]| == |w|
    ensures forall i, j :: 0 <= i < |decayed| && 0 <= j < |w| ==> r.value[i][j] == decayed[i] * (w[j] as real)
  {
    Ok(OuterScore(decayed, w))
  }
}

=== FILE: edge_cost.dfy ===
/** Combining the segment scores into the cost of a routing edge: the
    subtractive, clamped modifier of `Suitability.suitability_to_network` and
    the additive modifier of `main.score_network`. Floating-point rounding is
    not modelled: every quantity is an exact `real`. */
module EdgeCost {
  import opened Wrappers
  import opened Rounding
  import opened Seqs
  import opened Config

  /** A scored segment: its OSM id and its two scores. */
  datatype ScoredSegment = ScoredSegment(id: int, separation: int, surface: int)

  /** A routing edge: the OSM ids it was merged from, its length in metres and
      its accident score, which is absent unless the accidents were matched. */
  datatype Edge = Edge(osmids: seq<int>, length: real, scoreAccident: Option<int>)

  /** The four columns added to an edge. */
  datatype EdgeResult = EdgeResult(modifier: real, lengthModified: real, separation: int, surface: int)

  /** The segments an edge was built from (`scoring.id.isin(edge.osmid)`). */
  function Related(scoring: seq<ScoredSegment>, osmids: seq<int>): (r: seq<ScoredSegment>)
    ensures forall s :: s in r <==> s in scoring && s.id in osmids
  {
    Filter(scoring, (s: ScoredSegment) => s.id in osmids)
  }

  function Separations(rows: seq<ScoredSegment>): (r: seq<int>)
    ensures |r| == |rows| && forall i :: 0 <= i < |rows| ==> r[i] == rows[i].separation
  {
    seq(|rows|, i requires 0 <= i < |rows| => rows[i].separation)
  }

  function Surfaces(rows: seq<ScoredSegment>): (r: seq<int>)
    ensures |r| == |rows| && forall i :: 0 <= i < |rows| ==> r[i] == rows[i].surface
  {
    seq(|rows|, i requires 0 <= i < |rows| => rows[i].surface)
  }

  /** Every segment carries scores on the 0..5 scale. */
  predicate ScoresInRange(scoring: seq<ScoredSegment>) {
    forall i :: 0 <= i < |scoring| ==> InScoreRange(scoring[i].separation) && InScoreRange(scoring[i].surface)
  }

  /** The edge's two scores: the rounded means over its segments. */
  function EdgeScores(related: seq<ScoredSegment>): (r: (int, int))
    requires |related| > 0
    ensures ScoresInRange(related) ==> InScoreRange(r.0) && InScoreRange(r.1)
    ensures (forall i :: 0 <= i < |related| ==> related[i] == related[0]) ==>
              r == (related[0].separation, related[0].surface)
  {
    var seps, surfs := Separations(related), Surfaces(related);
    RoundMeanFacts(seps);
    RoundMeanFacts(surfs);
    (RoundMean(seps), RoundMean(surfs))
  }

  lemma RoundMeanFacts(xs: seq<int>)
    requires |xs| > 0
    ensures (forall i :: 0 <= i < |xs| ==> 0 <= xs[i] <= 5) ==> 0 <= RoundMean(xs) <= 5
    ensures (forall i :: 0 <= i < |xs| ==> xs[i] == xs[0]) ==> RoundMean(xs) == xs[0]
  {
    if forall i :: 0 <= i < |xs| ==> 0 <= xs[i] <= 5 {
      RoundMeanBounds(xs, 0, 5);
    }
    if forall i :: 0 <= i < |xs| ==> xs[i] == xs[0] {
      RoundMeanConstant(xs, xs[0]);
    }
  }

  /** `table[key]`: a key outside the table raises KeyError. */
  function Lookup(t: Table, key: int): (r: Result<real>)
    ensures r.Ok? <==> key in t
    ensures r.Ok? ==> r.value == t[key]
    ensures r.Err? ==> r.error == KeyError(Number(key))
  {
    if key in t then Ok(t[key]) else Err(KeyError(Number(key)))
  }

  /** The accident score of an edge; reading the missing column raises
      AttributeError. */
  function AccidentOf(e: Edge): (r: Result<int>)
    ensures r.Ok? <==> e.scoreAccident.Some?
    ensures r.Ok? ==> r.value == e.scoreAccident.value
  {
    match e.scoreAccident
    case Some(a) => Ok(a)
    case None => Err(AttributeError("score_accident"))
  }

  /** The accident score when the accidents are used; the column is read
      only then. */
  function AccidentTerm(e: Edge, useAccidents: bool): (r: Result<Option<int>>)
    ensures r.Ok? <==> !useAccidents || e.scoreAccident.Some?
    ensures r.Ok? ==> r.value == if useAccidents then e.scoreAccident else None
  {
    if useAccidents then
      var a :- AccidentOf(e);
      Ok(Some(a))
    else Ok(None)
  }

  predicate NonNegativeWeights(w: FactorWeights) {
    w.separation >= 0.0 && w.surface >= 0.0 && w.accidents >= 0.0
  }

  predicate NonNegativeTables(t: Translation) {
    NonNegativeTable(t.separation) && NonNegativeTable(t.surface) && NonNegativeTable(t.accidents)
  }

  /** The scores can all be looked up. */
  predicate Translatable(t: Translation, sep: int, surf: int, acc: Option<int>) {
    sep in t.separation && surf in t.surface && (acc.Some? ==> acc.value in t.accidents)
  }

  // The subtractive modifier (suitability.py).

  /** The weighted penalty of an edge's scores; the accident term is present
      when the accidents are used. */
  function Penalty(t: Translation, w: FactorWeights, sep: int, surf: int, acc: Option<int>): real
    requires Translatable(t, sep, surf, acc)
  {
    t.separation[sep] * w.separation + t.surface[surf] * w.surface
      + (if acc.Some? then t.accidents[acc.value] * w.accidents else 0.0)
  }

  /** One minus the penalty, raised to 0.1 when it falls below. With
      non-negative tables and weights it never exceeds 1, so the modified
      length is never shorter than the edge. */
  function SubtractiveModifier(t: Translation, w: FactorWeights, sep: int, surf: int, acc: Option<int>): (m: real)
    requires Translatable(t, sep, surf, acc)
    ensures m >= 0.1
    ensures m > 0.1 ==> m == 1.0 - Penalty(t, w, sep, surf, acc)
    ensures 1.0 - Penalty(t, w, sep, surf, acc) >= 0.1 ==> m == 1.0 - Penalty(t, w, sep, surf, acc)
    ensures NonNegativeTables(t) && NonNegativeWeights(w) ==> m <= 1.0
  {
    var raw := 1.0 - Penalty(t, w, sep, surf, acc);
    PenaltyNonNegative(t, w, sep, surf, acc);
    if raw < 0.1 then 0.1 else raw
  }

  lemma PenaltyNonNegative(t: Translation, w: FactorWeights, sep: int, surf: int, acc: Option<int>)
    requires Translatable(t, sep, surf, acc)
    ensures NonNegativeTables(t) && NonNegativeWeights(w) ==> Penalty(t, w, sep, surf, acc) >= 0.0
  {
    if NonNegativeTables(t) && NonNegativeWeights(w) {
      MulMonotoneReal(t.separation[sep], 0.0, w.separation);
      MulMonotoneReal(t.surface[surf], 0.0, w.surface);
      if acc.Some? {
        var a := acc.value;
        assert a in t.accidents;
        MulMonotoneReal(t.accidents[a], 0.0, w.accidents);
      }
    }
  }

  /** Better scores never lower the modifier: the tables decrease, so a
      higher score carries a smaller penalty. */
  lemma SubtractiveModifierMonotone(t: Translation, w: FactorWeights, sep1: int, sep2: int, surf1: int, surf2: int, acc: Option<int>)
    requires WellFormedTable(t.separation) && WellFormedTable(t.surface)
    requires acc.Some? ==> acc.value in t.accidents
    requires NonNegativeWeights(w)
    requires 0 <= sep1 <= sep2 <= 5 && 0 <= surf1 <= surf2 <= 5
    ensures SubtractiveModifier(t, w, sep1, surf1, acc) <= SubtractiveModifier(t, w, sep2, surf2, acc)
  {
    assert t.separation[sep1] >= t.separation[sep2];
    assert t.surface[surf1] >= t.surface[surf2];
    PenaltyAntitone(t, w, sep1, sep2, surf1, surf2, acc);
  }

  lemma PenaltyAntitone(t: Translation, w: FactorWeights, sep1: int, sep2: int, surf1: int, surf2: int, acc: Option<int>)
    requires Translatable(t, sep1, surf1, acc) && Translatable(t, sep2, surf2, acc)
    requires NonNegativeWeights(w)
    requires t.separation[sep1] >= t.separation[sep2] && t.surface[surf1] >= t.surface[surf2]
    ensures Penalty(t, w, sep1, surf1, acc) >= Penalty(t, w, sep2, surf2, acc)
  {
    MulMonotoneReal(t.separation[sep1], t.separation[sep2], w.separation);
    MulMonotoneReal(t.surface[surf1], t.surface[surf2], w.surface);
  }

  lemma MulMonotoneReal(a: real, b: real, c: real)
    requires a >= b && c >= 0.0
    ensures a * c >= b * c
  {
  }

  /** With the configured weights, separation 2 and surface 5 without
      accidents give 1 - 0.06 * 2 - 0 * 1. */
  lemma ConfiguredModifierExample()
    ensures SubtractiveModifier(TranslationFactors(), Weights(), 2, 5, None) == 0.88
  {
  }

  /** The cost of one edge in `suitability_to_network`. An edge no segment
      matches gets the modifier 0.01 and the scores 0. */
  function SuitabilityEdge(e: Edge, scoring: seq<ScoredSegment>, w: FactorWeights, t: Translation, useAccidents: bool)
    : (r: Result<EdgeResult>)
    ensures |Related(scoring, e.osmids)| == 0 ==> r == Ok(EdgeResult(0.01, e.length / 0.01, 0, 0))
    ensures r.Ok? ==> r.value.modifier >= 0.01
    ensures r.Ok? && |Related(scoring, e.osmids)| > 0 ==>
              && r.value.modifier >= 0.1
              && r.value.lengthModified == e.length / r.value.modifier
              && (r.value.separation, r.value.surface) == EdgeScores(Related(scoring, e.osmids))
              && (NonNegativeTables(t) && NonNegativeWeights(w) && e.length >= 0.0 ==> r.value.lengthModified >= e.length)
    ensures r.Ok? && |Related(scoring, e.osmids)| > 0 ==>
              var sc := EdgeScores(Related(scoring, e.osmids));
              && Translatable(t, sc.0, sc.1, UsedAccident(e, useAccidents))
              && r.value.modifier == SubtractiveModifier(t, w, sc.0, sc.1, UsedAccident(e, useAccidents))
    ensures |Related(scoring, e.osmids)| > 0 ==>
              (r.Ok? <==> Translatable(t, EdgeScores(Related(scoring, e.osmids)).0, EdgeScores(Related(scoring, e.osmids)).1,
                                       if useAccidents then e.scoreAccident else None)
                          && (useAccidents ==> e.scoreAccident.Some?))
  {
    var related := Related(scoring, e.osmids);
    if |related| > 0 then
      var (sep, surf) := EdgeScores(related);
      var acc :- AccidentTerm(e, useAccidents);
      var _ :- Lookup(t.separation, sep);
      var _ :- Lookup(t.surface, surf);
      var _ :- if acc.Some? then Lookup(t.accidents, acc.value) else Ok(0.0);
      var m := SubtractiveModifier(t, w, sep, surf, acc);
      DivideByFraction(e.length, m);
      Ok(EdgeResult(m, e.length / m, sep, surf))
    else
      Ok(EdgeResult(0.01, e.length / 0.01, 0, 0))
  }

  /** Dividing a non-negative length by a factor in (0, 1] never shortens it. */
  lemma DivideByFraction(length: real, m: real)
    requires 0.0 < m
    ensures length >= 0.0 && m <= 1.0 ==> length / m >= length
  {
    if length >= 0.0 && m <= 1.0 {
      var q := length / m;
      assert q * m == length;
      if q < 0.0 {
        MulMonotoneReal(0.0, q, m);
      }
      MulMonotoneReal(1.0, m, q);
    }
  }

  /** Scores on the 0..5 scale, tables covering them, and an accident score
      the table covers on every edge when the accidents are used. */
  predicate SuitabilityInputsValid(edges: seq<Edge>, scoring: seq<ScoredSegment>, t: Translation, useAccidents: bool) {
    && ScoresInRange(scoring)
    && WellFormedTable(t.separation)
    && WellFormedTable(t.surface)
    && (useAccidents ==> forall i :: 0 <= i < |edges| ==> edges[i].scoreAccident.Some? && edges[i].scoreAccident.value in t.accidents)
  }

  /** `suitability_to_network` over the whole edge list. */
  function SuitabilityToNetwork(edges: seq<Edge>, scoring: seq<ScoredSegment>, w: FactorWeights, t: Translation, useAccidents: bool)
    : (r: Result<seq<EdgeResult>>)
    ensures r.Ok? <==> forall i :: 0 <= i < |edges| ==> SuitabilityEdge(edges[i], scoring, w, t, useAccidents).Ok?
    ensures r.Ok? ==> |r.value| == |edges|
    ensures r.Ok? ==> forall i :: 0 <= i < |edges| ==> SuitabilityEdge(edges[i], scoring, w, t, useAccidents) == Ok(r.value[i])
    ensures r.Ok? ==> forall i :: 0 <= i < |edges| ==> r.value[i].modifier >= 0.01
    ensures SuitabilityInputsValid(edges, scoring, t, useAccidents) ==> r.Ok?
  {
    var cost := (e: Edge) => SuitabilityEdge(e, scoring, w, t, useAccidents);
    var r := MapAll(edges, cost);
    if SuitabilityInputsValid(edges, scoring, t, useAccidents) then
      SuitabilityEdgesSucceed(edges, scoring, w, t, useAccidents);
      r
    else r
  }

  lemma SuitabilityEdgesSucceed(edges: seq<Edge>, scoring: seq<ScoredSegment>, w: FactorWeights, t: Translation, useAccidents: bool)
    requires SuitabilityInputsValid(edges, scoring, t, useAccidents)
    ensures forall i :: 0 <= i < |edges| ==> SuitabilityEdge(edges[i], scoring, w, t, useAccidents).Ok?
  {
    forall i | 0 <= i < |edges| ensures SuitabilityEdge(edges[i], scoring, w, t, useAccidents).Ok? {
      SuitabilityEdgeSucceeds(edges[i], scoring, w, t, useAccidents);
    }
  }

  lemma SuitabilityEdgeSucceeds(e: Edge, scoring: seq<ScoredSegment>, w: FactorWeights, t: Translation, useAccidents: bool)
    requires ScoresInRange(scoring) && WellFormedTable(t.separation) && WellFormedTable(t.surface)
    requires useAccidents ==> e.scoreAccident.Some? && e.scoreAccident.value in t.accidents
    ensures SuitabilityEdge(e, scoring, w, t, useAccidents).Ok?
  {
    var related := Related(scoring, e.osmids);
    if |related| > 0 {
      RelatedInRange(scoring, e.osmids);
      var scores := EdgeScores(related);
      TableCovers(t.separation, scores.0);
      TableCovers(t.surface, scores.1);
      assert Translatable(t, scores.0, scores.1, if useAccidents then e.scoreAccident else None);
    }
  }

  lemma RelatedInRange(scoring: seq<ScoredSegment>, osmids: seq<int>)
    requires ScoresInRange(scoring)
    ensures ScoresInRange(Related(scoring, osmids))
  {
    var related := Related(scoring, osmids);
    forall k | 0 <= k < |related| ensures InScoreRange(related[k].separation) && InScoreRange(related[k].surface) {
      assert related[k] in scoring;
    }
  }

  lemma TableCovers(t: Table, k: int)
    requires WellFormedTable(t) && InScoreRange(k)
    ensures k in t
  {
  }

  // The additive modifier (main.py).

  /** The weights rescaled so that they add up to 50. */
  function Rescale(w: FactorWeights): (r: Result<FactorWeights>)
    ensures r.Ok? <==> w.separation + w.surface + w.accidents != 0.0
    ensures r.Ok? ==> r.value.separation + r.value.surface + r.value.accidents == 50.0
    ensures r.Ok? ==>
              var total := w.separation + w.surface + w.accidents;
              && r.value.separation * total == w.separation * 50.0
              && r.value.surface * total == w.surface * 50.0
              && r.value.accidents * total == w.accidents * 50.0
    ensures r.Ok? ==> r.value.traffic == w.traffic
    ensures r.Ok? && w.separation + w.surface + w.accidents > 0.0 && NonNegativeWeights(w) ==> NonNegativeWeights(r.value)
  {
    var total := w.separation + w.surface + w.accidents;
    if total == 0.0 then Err(ZeroDivisionError)
    else
      var r := w.(separation := w.separation * 50.0 / total,
                  surface := w.surface * 50.0 / total,
                  accidents := w.accidents * 50.0 / total);
      assert r.separation + r.surface + r.accidents == (w.separation + w.surface + w.accidents) * 50.0 / total;
      Ok(r)
  }

  /** The additive modifier as written: with the accidents, the separation
      penalty is multiplied by the separation score itself instead of the
      rescaled separation weight. */
  function AdditiveModifierAsWritten(t: Translation, w: FactorWeights, sep: int, surf: int, acc: Option<int>): (r: Result<real>)
    requires Translatable(t, sep, surf, acc)
    ensures acc.None? ==> r == Ok(1.0 + Penalty(t, w, sep, surf, None))
    ensures acc.Some? ==> (r.Ok? <==> Rescale(w).Ok?)
    ensures acc.Some? && r.Ok? ==>
              r.value == 1.0 + t.separation[sep] * (sep as real) + t.surface[surf] * Rescale(w).value.surface
                         + t.accidents[acc.value] * Rescale(w).value.accidents
  {
    match acc
    case None => Ok(1.0 + Penalty(t, w, sep, surf, None))
    case Some(a) =>
      var f :- Rescale(w);
      Ok(1.0 + t.separation[sep] * (sep as real) + t.surface[surf] * f.surface + t.accidents[a] * f.accidents)
  }

  /** The additive modifier with every penalty weighted by its rescaled
      weight: one plus the penalty of the rescaled weights. */
  function AdditiveModifier(t: Translation, w: FactorWeights, sep: int, surf: int, acc: Option<int>): (r: Result<real>)
    requires Translatable(t, sep, surf, acc)
    ensures r.Err? <==> acc.Some? && w.separation + w.surface + w.accidents == 0.0
    ensures r.Ok? && NonNegativeTables(t) && NonNegativeWeights(w) ==> r.value >= 1.0
  {
    match acc
    case None =>
      PenaltyNonNegative(t, w, sep, surf, acc);
      Ok(1.0 + Penalty(t, w, sep, surf, None))
    case Some(_) =>
      var f :- Rescale(w);
      PenaltyNonNegative(t, f, sep, surf, acc);
      Ok(1.0 + Penalty(t, f, sep, surf, acc))
  }

  /** The written and the corrected modifier fail on the same inputs and
      agree without the accidents; with them, they agree exactly when the
      separation penalty weighs the same under the score and under the
      rescaled separation weight, and they differ by the penalty times the
      gap between the two. */
  lemma AsWrittenVersusCorrected(t: Translation, w: FactorWeights, sep: int, surf: int, acc: Option<int>)
    requires Translatable(t, sep, surf, acc)
    ensures AdditiveModifierAsWritten(t, w, sep, surf, acc).Err? <==> AdditiveModifier(t, w, sep, surf, acc).Err?
    ensures acc.None? ==> AdditiveModifierAsWritten(t, w, sep, surf, acc) == AdditiveModifier(t, w, sep, surf, acc)
    ensures acc.Some? && Rescale(w).Ok? ==>
              AdditiveModifierAsWritten(t, w, sep, surf, acc).value - AdditiveModifier(t, w, sep, surf, acc).value
                == t.separation[sep] * ((sep as real) - Rescale(w).value.separation)
    ensures acc.Some? && Rescale(w).Ok? ==>
              (AdditiveModifierAsWritten(t, w, sep, surf, acc) == AdditiveModifier(t, w, sep, surf, acc) <==>
               t.separation[sep] == 0.0 || sep as real == Rescale(w).value.separation)
  {
    if acc.Some? && Rescale(w).Ok? {
      var p, f := t.separation[sep], Rescale(w).value;
      var written, corrected := AdditiveModifierAsWritten(t, w, sep, surf, acc).value, AdditiveModifier(t, w, sep, surf, acc).value;
      assert corrected == 1.0 + p * f.separation + t.surface[surf] * f.surface + t.accidents[acc.value] * f.accidents;
      assert written - corrected == p * (sep as real) - p * f.separation;
      Distribute(p, sep as real, f.separation);
      ZeroProduct(p, (sep as real) - f.separation);
      assert AdditiveModifierAsWritten(t, w, sep, surf, acc) == Ok(written);
      assert AdditiveModifier(t, w, sep, surf, acc) == Ok(corrected);
      assert written == corrected <==> written - corrected == 0.0;
    }
  }

  lemma Distribute(p: real, a: real, b: real)
    ensures p * a - p * b == p * (a - b)
  {
  }

  lemma ZeroProduct(p: real, d: real)
    ensures p * d == 0.0 <==> p == 0.0 || d == 0.0
  {
  }

  /** Worse scores never make the corrected additive modifier smaller. */
  lemma AdditiveModifierMonotone(t: Translation, w: FactorWeights, sep1: int, sep2: int, surf1: int, surf2: int, acc: Option<int>)
    requires WellFormedTable(t.separation) && WellFormedTable(t.surface)
    requires acc.Some? ==> acc.value in t.accidents
    requires NonNegativeWeights(w)
    requires 0 <= sep1 <= sep2 <= 5 && 0 <= surf1 <= surf2 <= 5
    requires AdditiveModifier(t, w, sep1, surf1, acc).Ok?
    ensures AdditiveModifier(t, w, sep2, surf2, acc).Ok?
    ensures AdditiveModifier(t, w, sep1, surf1, acc).value >= AdditiveModifier(t, w, sep2, surf2, acc).value
  {
    assert t.separation[sep1] >= t.separation[sep2];
    assert t.surface[surf1] >= t.surface[surf2];
    if acc.Some? {
      PenaltyAntitone(t, Rescale(w).value, sep1, sep2, surf1, surf2, acc);
    } else {
      PenaltyAntitone(t, w, sep1, sep2, surf1, surf2, acc);
    }
  }

  /** With the configured tables and weights and the best surface and
      accident scores, the code as written gives a road with separation 0
      (no protection at all) a smaller modifier than one with separation 1,
      and so a shorter modified length; the corrected modifier orders them
      the other way. */
  lemma SeparationTermInverted()
    ensures AdditiveModifierAsWritten(TranslationFactors(), Weights(), 0, 5, Some(5)) == Ok(1.0)
    ensures AdditiveModifierAsWritten(TranslationFactors(), Weights(), 1, 5, Some(5)) == Ok(1.1)
    ensures AdditiveModifier(TranslationFactors(), Weights(), 0, 5, Some(5)).value
              > AdditiveModifier(TranslationFactors(), Weights(), 1, 5, Some(5)).value
  {
    AdditiveModifierMonotone(TranslationFactors(), Weights(), 0, 1, 5, 5, Some(5));
    assert Rescale(Weights()).value.separation > 0.0;
  }

  /** The accident score the modifier uses: read only with the accidents. */
  function UsedAccident(e: Edge, useAccidents: bool): Option<int> {
    if useAccidents then e.scoreAccident else None
  }

  /** The lookups `main.score_network` makes for one edge before it computes
      the modifier: `None` when no segment matches the edge, otherwise the
      edge's two scores and the accident score the modifier uses. The
      accident score is read for every matched edge, even when the accidents
      are not used, and the weights are rescaled before the tables are read. */
  function EdgeInputs(e: Edge, scoring: seq<ScoredSegment>, w: FactorWeights, t: Translation, useAccidents: bool)
    : (r: Result<Option<(int, int, Option<int>)>>)
    ensures r.Ok? && r.value.None? <==> |Related(scoring, e.osmids)| == 0
    ensures |Related(scoring, e.osmids)| > 0 && e.scoreAccident.None? ==> r == Err(AttributeError("score_accident"))
    ensures |Related(scoring, e.osmids)| > 0 && e.scoreAccident.Some? ==>
              var sc := EdgeScores(Related(scoring, e.osmids));
              (r.Ok? <==> (useAccidents ==> Rescale(w).Ok?) && Translatable(t, sc.0, sc.1, UsedAccident(e, useAccidents)))
    ensures r.Ok? && r.value.Some? ==>
              var sc := EdgeScores(Related(scoring, e.osmids));
              && |Related(scoring, e.osmids)| > 0
              && r.value.value == (sc.0, sc.1, UsedAccident(e, useAccidents))
              && Translatable(t, sc.0, sc.1, UsedAccident(e, useAccidents))
              && (useAccidents ==> Rescale(w).Ok?)
    ensures r.Ok? && r.value.Some? ==>
              Translatable(t, r.value.value.0, r.value.value.1, r.value.value.2) && (r.value.value.2.Some? ==> Rescale(w).Ok?)
  {
    var related := Related(scoring, e.osmids);
    if |related| > 0 then
      var (sep, surf) := EdgeScores(related);
      var a :- AccidentOf(e);
      var acc := if useAccidents then Some(a) else None;
      var _ :- if useAccidents then Rescale(w) else Ok(w);
      var _ :- Lookup(t.separation, sep);
      var _ :- Lookup(t.surface, surf);
      var _ :- if acc.Some? then Lookup(t.accidents, acc.value) else Ok(0.0);
      Ok(Some((sep, surf, acc)))
    else
      Ok(None)
  }

  /** An edge's result for the modifier `m`. */
  function Priced(e: Edge, sep: int, surf: int, m: real): (r: EdgeResult)
    ensures r.modifier == m && r.lengthModified == e.length * m && r.separation == sep && r.surface == surf
  {
    EdgeResult(m, e.length * m, sep, surf)
  }

  /** The cost of one edge in `main.score_network` as written: the error of
      the lookups, 9999999 for the modifier and the modified length of an
      edge no segment matches, and otherwise `AdditiveModifierAsWritten` of
      the looked-up scores, times the length. */
  function MainEdge(e: Edge, scoring: seq<ScoredSegment>, w: FactorWeights, t: Translation, useAccidents: bool)
    : (r: Result<EdgeResult>)
    ensures EdgeInputs(e, scoring, w, t, useAccidents).Err? ==> r == Err(EdgeInputs(e, scoring, w, t, useAccidents).error)
    ensures EdgeInputs(e, scoring, w, t, useAccidents) == Ok(None) ==> r == Ok(EdgeResult(9999999.0, 9999999.0, 0, 0))
    ensures EdgeInputs(e, scoring, w, t, useAccidents).Ok? && EdgeInputs(e, scoring, w, t, useAccidents).value.Some? ==>
              var x := EdgeInputs(e, scoring, w, t, useAccidents).value.value;
              && Translatable(t, x.0, x.1, x.2)
              && r.Ok?
              && AdditiveModifierAsWritten(t, w, x.0, x.1, x.2) == Ok(r.value.modifier)
              && r.value.lengthModified == e.length * r.value.modifier
              && r.value.separation == x.0 && r.value.surface == x.1
  {
    var inputs :- EdgeInputs(e, scoring, w, t, useAccidents);
    if inputs.None? then Ok(EdgeResult(9999999.0, 9999999.0, 0, 0))
    else
      Ok(Priced(e, inputs.value.0, inputs.value.1, AdditiveModifierAsWritten(t, w, inputs.value.0, inputs.value.1, inputs.value.2).value))
  }

  /** On scores in range with non-negative tables and weights the written
      modifier of an edge is at least 1. */
  lemma MainEdgeAtLeastOne(e: Edge, scoring: seq<ScoredSegment>, w: FactorWeights, t: Translation, useAccidents: bool)
    requires ScoresInRange(scoring) && NonNegativeTables(t) && NonNegativeWeights(w)
    ensures MainEdge(e, scoring, w, t, useAccidents).Ok? ==> MainEdge(e, scoring, w, t, useAccidents).value.modifier >= 1.0
  {
    var inputs := EdgeInputs(e, scoring, w, t, useAccidents);
    if inputs.Ok? && inputs.value.Some? {
      RelatedInRange(scoring, e.osmids);
      var (sep, surf, acc) := inputs.value.value;
      AsWrittenAtLeastOne(t, w, sep, surf, acc);
    }
  }

  /** With scores in range and non-negative tables and weights, the written
      modifier is at least 1: the score stands in for a non-negative weight. */
  lemma AsWrittenAtLeastOne(t: Translation, w: FactorWeights, sep: int, surf: int, acc: Option<int>)
    requires Translatable(t, sep, surf, acc) && InScoreRange(sep)
    ensures AdditiveModifierAsWritten(t, w, sep, surf, acc).Ok? && NonNegativeTables(t) && NonNegativeWeights(w) ==>
              AdditiveModifierAsWritten(t, w, sep, surf, acc).value >= 1.0
  {
    if AdditiveModifierAsWritten(t, w, sep, surf, acc).Ok? && NonNegativeTables(t) && NonNegativeWeights(w) {
      if acc.Some? {
        var f := Rescale(w).value;
        assert NonNegativeWeights(f);
        var a, b, c := t.separation[sep], t.surface[surf], t.accidents[acc.value];
        assert a >= 0.0 && b >= 0.0 && c >= 0.0;
        ProductNonNegative(a, sep as real);
        ProductNonNegative(b, f.surface);
        ProductNonNegative(c, f.accidents);
        assert AdditiveModifierAsWritten(t, w, sep, surf, acc).value == 1.0 + a * (sep as real) + b * f.surface + c * f.accidents;
      } else {
        PenaltyNonNegative(t, w, sep, surf, acc);
      }
    }
  }

  lemma ProductNonNegative(a: real, b: real)
    requires a >= 0.0 && b >= 0.0
    ensures a * b >= 0.0
  {
  }

  /** The cost of one edge with the corrected modifier. */
  function MainEdgeCorrected(e: Edge, scoring: seq<ScoredSegment>, w: FactorWeights, t: Translation, useAccidents: bool)
    : (r: Result<EdgeResult>)
    ensures EdgeInputs(e, scoring, w, t, useAccidents).Err? ==> r == Err(EdgeInputs(e, scoring, w, t, useAccidents).error)
    ensures EdgeInputs(e, scoring, w, t, useAccidents) == Ok(None) ==> r == Ok(EdgeResult(9999999.0, 9999999.0, 0, 0))
    ensures EdgeInputs(e, scoring, w, t, useAccidents).Ok? && EdgeInputs(e, scoring, w, t, useAccidents).value.Some? ==>
              var x := EdgeInputs(e, scoring, w, t, useAccidents).value.value;
              && Translatable(t, x.0, x.1, x.2)
              && r.Ok?
              && AdditiveModifier(t, w, x.0, x.1, x.2) == Ok(r.value.modifier)
              && r.value.lengthModified == e.length * r.value.modifier
              && r.value.separation == x.0 && r.value.surface == x.1
  {
    var inputs :- EdgeInputs(e, scoring, w, t, useAccidents);
    if inputs.None? then Ok(EdgeResult(9999999.0, 9999999.0, 0, 0))
    else
      Ok(Priced(e, inputs.value.0, inputs.value.1, AdditiveModifier(t, w, inputs.value.0, inputs.value.1, inputs.value.2).value))
  }

  /** With non-negative tables and weights the corrected modifier of an edge
      is at least 1, whatever its scores. */
  lemma MainEdgeCorrectedAtLeastOne(e: Edge, scoring: seq<ScoredSegment>, w: FactorWeights, t: Translation, useAccidents: bool)
    requires NonNegativeTables(t) && NonNegativeWeights(w)
    ensures MainEdgeCorrected(e, scoring, w, t, useAccidents).Ok? ==> MainEdgeCorrected(e, scoring, w, t, useAccidents).value.modifier >= 1.0
  {
  }

  /** Without the accidents the written and the corrected edge costs are the
      same. */
  lemma MainEdgesAgreeWithoutAccidents(e: Edge, scoring: seq<ScoredSegment>, w: FactorWeights, t: Translation)
    ensures MainEdge(e, scoring, w, t, false) == MainEdgeCorrected(e, scoring, w, t, false)
  {
    var inputs := EdgeInputs(e, scoring, w, t, false);
    if inputs.Ok? && inputs.value.Some? {
      var (sep, surf, acc) := inputs.value.value;
      assert acc.None?;
      assert AdditiveModifierAsWritten(t, w, sep, surf, acc) == AdditiveModifier(t, w, sep, surf, acc);
    }
  }

  /** `main.score_network` over the whole edge list, as written: edge `i`
      gets `MainEdge` of edge `i`, and the first failing edge aborts. */
  function MainScoreNetwork(edges: seq<Edge>, scoring: seq<ScoredSegment>, w: FactorWeights, t: Translation, useAccidents: bool)
    : (r: Result<seq<EdgeResult>>)
    ensures r.Ok? <==> forall i :: 0 <= i < |edges| ==> MainEdge(edges[i], scoring, w, t, useAccidents).Ok?
    ensures r.Ok? ==> |r.value| == |edges| && forall i :: 0 <= i < |edges| ==> MainEdge(edges[i], scoring, w, t, useAccidents) == Ok(r.value[i])
    ensures r.Ok? && ScoresInRange(scoring) && NonNegativeTables(t) && NonNegativeWeights(w) ==>
              forall i :: 0 <= i < |edges| ==> r.value[i].modifier >= 1.0
    ensures (exists i :: 0 <= i < |edges| && |Related(scoring, edges[i].osmids)| > 0 && edges[i].scoreAccident.None?) ==> r.Err?
  {
    var r := MapAll(edges, (e: Edge) => MainEdge(e, scoring, w, t, useAccidents));
    if r.Ok? && ScoresInRange(scoring) && NonNegativeTables(t) && NonNegativeWeights(w) then
      MainEdgesAtLeastOne(edges, scoring, w, t, useAccidents);
      r
    else
      r
  }

  lemma MainEdgesAtLeastOne(edges: seq<Edge>, scoring: seq<ScoredSegment>, w: FactorWeights, t: Translation, useAccidents: bool)
    requires ScoresInRange(scoring) && NonNegativeTables(t) && NonNegativeWeights(w)
    ensures forall i :: 0 <= i < |edges| && MainEdge(edges[i], scoring, w, t, useAccidents).Ok? ==>
              MainEdge(edges[i], scoring, w, t, useAccidents).value.modifier >= 1.0
  {
    forall i | 0 <= i < |edges| && MainEdge(edges[i], scoring, w, t, useAccidents).Ok?
      ensures MainEdge(edges[i], scoring, w, t, useAccidents).value.modifier >= 1.0
    {
      MainEdgeAtLeastOne(edges[i], scoring, w, t, useAccidents);
    }
  }

  /** `main.score_network` with the corrected modifier. */
  function MainScoreNetworkCorrected(edges: seq<Edge>, scoring: seq<ScoredSegment>, w: FactorWeights, t: Translation, useAccidents: bool)
    : (r: Result<seq<EdgeResult>>)
    ensures r.Ok? <==> forall i :: 0 <= i < |edges| ==> MainEdgeCorrected(edges[i], scoring, w, t, useAccidents).Ok?
    ensures r.Ok? ==> |r.value| == |edges| && forall i :: 0 <= i < |edges| ==> MainEdgeCorrected(edges[i], scoring, w, t, useAccidents) == Ok(r.value[i])
    ensures r.Ok? && NonNegativeTables(t) && NonNegativeWeights(w) ==>
              forall i :: 0 <= i < |edges| ==> r.value[i].modifier >= 1.0
  {
    var r := MapAll(edges, (e: Edge) => MainEdgeCorrected(e, scoring, w, t, useAccidents));
    if r.Ok? && NonNegativeTables(t) && NonNegativeWeights(w) then
      CorrectedEdgesAtLeastOne(edges, scoring, w, t, useAccidents);
      r
    else
      r
  }

  lemma CorrectedEdgesAtLeastOne(edges: seq<Edge>, scoring: seq<ScoredSegment>, w: FactorWeights, t: Translation, useAccidents: bool)
    requires NonNegativeTables(t) && NonNegativeWeights(w)
    ensures forall i :: 0 <= i < |edges| && MainEdgeCorrected(edges[i], scoring, w, t, useAccidents).Ok? ==>
              MainEdgeCorrected(edges[i], scoring, w, t, useAccidents).value.modifier >= 1.0
  {
    forall i | 0 <= i < |edges| && MainEdgeCorrected(edges[i], scoring, w, t, useAccidents).Ok?
      ensures MainEdgeCorrected(edges[i], scoring, w, t, useAccidents).value.modifier >= 1.0
    {
      MainEdgeCorrectedAtLeastOne(edges[i], scoring, w, t, useAccidents);
    }
  }
}

=== FILE: import_osm.dfy ===
/** The older scoring script (import_osm.py): the same row filters, a
    separation cascade that puts the cycleway rule first, surface buckets that
    differ in three places, and no inference: every unscored row takes the
    configured surface default. */
module ImportOsm {
  import opened Wrappers
  import opened Text
  import opened Seqs
  import opened Cascade
  import opened Config
  import opened SuitabilityRules
  import opened NetworkFilter

  /** The cycleway rule runs first, before the class rules can overwrite it. */
  function OldSeparationRules(): seq<Rule> {
    [Rule(CyclewayCond(), 5)] + ClassRules()
  }

  function OldSeparation(s: Segment): int {
    Apply(OldSeparationRules(), s, Unscored)
  }

  /** Read from the most specific evidence down, the cycleway rule comes
      last: it only decides when no class rule matches. */
  lemma OldSeparationIsPriority(s: Segment)
    ensures OldSeparation(s) == ClassScore(s, if IsCycleway(s) then 5 else Unscored)
  {
    var first := [Rule(CyclewayCond(), 5)];
    ApplyAppend(first, ClassRules(), s, Unscored);
    assert Matches(CyclewayCond(), s) <==> IsCycleway(s);
    assert Apply(first, s, Unscored) == ApplyFirst(first, 1, s, Unscored);
    ClassRulesGiveClassScore(s, Apply(first, s, Unscored));
  }

  /** The older surface buckets: "chipseal" scores 5 and "cobblestone" 3,
      and "mud" is again listed at 2 and at 1. */
  function OldMaterialRules(): seq<Rule> {
    [ Rule(In(Surface, ["asphalt", "chipseal", "concrete", "compacted", "tar", "1"]), 5),
      Rule(In(Surface, ["paved", "paving_stones", "bricks"]), 4),
      Rule(In(Surface, ["sett", "cobblestone", "metal", "wood", "fine_gravel", "steel", "grass_paver"]), 3),
      Rule(In(Surface, ["rock", "dirt", "ground", "grit", "earth", "clay", "unpaved", "mud"]), 2),
      Rule(In(Surface, ["gravel", "grass", "metal_grid", "mud", "sand", "woodchips", "pebblestone"]), 1),
      Rule(In(Surface, ["stepping_stones"]), 0) ]
  }

  function OldSurfaceRules(): seq<Rule> {
    GradeRules() + OldMaterialRules() + FinishingRules()
  }

  function OldSurfaceScore(s: Segment): int {
    Apply(OldSurfaceRules(), WithNormalisedSurface(s), Unscored)
  }

  /** The older surface bucket as a score, else `fallback`. */
  function OldMaterialScore(s: Segment, fallback: int): (r: int)
    ensures r == fallback || 0 <= r <= 5
  {
    if IsIn(s.surface, ["stepping_stones"]) then 0
    else if IsIn(s.surface, ["gravel", "grass", "metal_grid", "mud", "sand", "woodchips", "pebblestone"]) then 1
    else if IsIn(s.surface, ["rock", "dirt", "ground", "grit", "earth", "clay", "unpaved", "mud"]) then 2
    else if IsIn(s.surface, ["sett", "cobblestone", "metal", "wood", "fine_gravel", "steel", "grass_paver"]) then 3
    else if IsIn(s.surface, ["paved", "paving_stones", "bricks"]) then 4
    else if IsIn(s.surface, ["asphalt", "chipseal", "concrete", "compacted", "tar", "1"]) then 5
    else fallback
  }

  lemma OldMaterialRulesGiveOldMaterialScore(s: Segment, acc: int)
    ensures Apply(OldMaterialRules(), s, acc) == OldMaterialScore(s, acc)
  {
    var r := OldMaterialRules();
    assert ApplyFirst(r, 6, s, acc) == if Matches(r[5].when, s) then r[5].score else ApplyFirst(r, 5, s, acc);
    assert ApplyFirst(r, 5, s, acc) == if Matches(r[4].when, s) then r[4].score else ApplyFirst(r, 4, s, acc);
    assert ApplyFirst(r, 4, s, acc) == if Matches(r[3].when, s) then r[3].score else ApplyFirst(r, 3, s, acc);
    assert ApplyFirst(r, 3, s, acc) == if Matches(r[2].when, s) then r[2].score else ApplyFirst(r, 2, s, acc);
    assert ApplyFirst(r, 2, s, acc) == if Matches(r[1].when, s) then r[1].score else ApplyFirst(r, 1, s, acc);
    assert ApplyFirst(r, 1, s, acc) == if Matches(r[0].when, s) then r[0].score else ApplyFirst(r, 0, s, acc);
  }

  lemma OldSurfaceIsPriority(s: Segment)
    ensures Apply(OldSurfaceRules(), s, Unscored) == FinishingScore(s, OldMaterialScore(s, GradeScore(s)))
  {
    var g := Apply(GradeRules(), s, Unscored);
    var m := Apply(OldMaterialRules(), s, g);
    ApplyAppend(GradeRules(), OldMaterialRules(), s, Unscored);
    ApplyAppend(GradeRules() + OldMaterialRules(), FinishingRules(), s, Unscored);
    GradeRulesGiveGradeScore(s);
    OldMaterialRulesGiveOldMaterialScore(s, g);
    FinishingRulesGiveFinishingScore(s, m);
  }

  /** A row's separation score, or the configured surface default when no
      rule scored it; that default equals the separation default. */
  function SeparationOrDefault(s: Segment): (v: int)
    ensures OldSeparation(s) != Unscored ==> v == OldSeparation(s)
    ensures OldSeparation(s) == Unscored ==> v == DefaultScores().separation
    ensures InScoreRange(v)
  {
    OldSeparationIsPriority(s);
    var v := OldSeparation(s);
    if v == Unscored then DefaultScores().surface else v
  }

  /** A row's surface score, or the configured surface default. */
  function SurfaceOrDefault(s: Segment): (v: int)
    ensures OldSurfaceScore(s) != Unscored ==> v == OldSurfaceScore(s)
    ensures OldSurfaceScore(s) == Unscored ==> v == DefaultScores().surface
    ensures InScoreRange(v)
  {
    OldSurfaceIsPriority(WithNormalisedSurface(s));
    var v := OldSurfaceScore(s);
    if v == Unscored then DefaultScores().surface else v
  }

  /** The surface column together with the two lists of unscored rows: those
      without any surface tag, and those whose tags are not recognised. */
  datatype SurfaceResult = SurfaceResult(scores: seq<int>, missing: seq<Segment>, unknown: seq<Segment>)

  function SurfaceColumn(segs: seq<Segment>): (r: SurfaceResult)
    ensures |r.scores| == |segs|
    ensures forall i :: 0 <= i < |segs| ==> r.scores[i] == SurfaceOrDefault(segs[i])
    ensures forall s :: s in r.missing <==> s in segs && OldSurfaceScore(s) == Unscored && MissingSurfaceData(s)
    ensures forall s :: s in r.unknown <==> s in segs && OldSurfaceScore(s) == Unscored && !MissingSurfaceData(s)
  {
    SurfaceResult(
      seq(|segs|, i requires 0 <= i < |segs| => SurfaceOrDefault(segs[i])),
      Filter(segs, s => OldSurfaceScore(s) == Unscored && MissingSurfaceData(s)),
      Filter(segs, s => OldSurfaceScore(s) == Unscored && !MissingSurfaceData(s)))
  }

  /** Every unscored row is in exactly one of the two lists. */
  lemma MissingAndUnknownPartition(segs: seq<Segment>, s: Segment)
    requires s in segs && OldSurfaceScore(s) == Unscored
    ensures (s in SurfaceColumn(segs).missing) != (s in SurfaceColumn(segs).unknown)
  {
  }

  /** `score_osm`: filter the network, then score both columns. */
  datatype OsmScores = OsmScores(rows: seq<OsmRow>, separation: seq<int>, surface: seq<int>, missing: seq<Segment>)

  function ScoreOsm(raw: seq<Segment>): (r: OsmScores)
    ensures r.rows == FilterNetwork(raw, IgnoredTypes())
    ensures |r.separation| == |r.rows| && |r.surface| == |r.rows|
    ensures forall i :: 0 <= i < |r.rows| ==> InScoreRange(r.separation[i]) && InScoreRange(r.surface[i])
    ensures forall i :: 0 <= i < |r.rows| ==>
              r.separation[i] == SeparationOrDefault(r.rows[i].seg) && r.surface[i] == SurfaceOrDefault(r.rows[i].seg)
    ensures forall s :: s in r.missing <==>
              (exists i :: 0 <= i < |r.rows| && r.rows[i].seg == s) && OldSurfaceScore(s) == Unscored && MissingSurfaceData(s)
  {
    var rows := FilterNetwork(raw, IgnoredTypes());
    var segs := seq(|rows|, i requires 0 <= i < |rows| => rows[i].seg);
    var surface := SurfaceColumn(segs);
    OsmScores(rows, seq(|segs|, i requires 0 <= i < |segs| => SeparationOrDefault(segs[i])), surface.scores, surface.missing)
  }

  // Worked cases of the older rules.

  lemma BicycleRoadOnResidential(id: int)
    ensures OldSeparation(Untagged(id).(highway := Some("residential"), bicycleRoad := Some("yes"))) == 2
  {
    OldSeparationIsPriority(Untagged(id).(highway := Some("residential"), bicycleRoad := Some("yes")));
  }

  lemma CyclewayWithLane(id: int)
    ensures OldSeparation(Untagged(id).(highway := Some("cycleway"), cycleway := Some("lane"))) == 3
  {
    OldSeparationIsPriority(Untagged(id).(highway := Some("cycleway"), cycleway := Some("lane")));
  }

  lemma PlainCycleway(id: int)
    ensures OldSeparation(Untagged(id).(highway := Some("cycleway"))) == 5
  {
    OldSeparationIsPriority(Untagged(id).(highway := Some("cycleway")));
  }

  /** Neither a smoothness value the finishing rules read nor a sidepath
      flag: the finishing rules leave the bucket score alone. */
  predicate NoFinishingTag(s: Segment) {
    && !IsIn(s.smoothness, ["excellent", "good", "intermediate", "bad", "very_bad", "horrible", "very_horrible", "impassable"])
    && !IsIn(s.bicycle, Sidepaths)
  }

  /** A surface naming cobblestone, whatever its suffix and whatever the
      tracktype, scores 3 here where the newer rules give 2, unless a
      finishing tag overrides the bucket. */
  lemma CobblestoneScores(s: Segment)
    requires s.surface.Some? && Contains(s.surface.value, "cobblestone")
    requires NoFinishingTag(s)
    ensures OldSurfaceScore(s) == 3
    ensures SurfaceScore(s) == 2
  {
    NormaliseSurfaceCases(s.surface);
    var n := WithNormalisedSurface(s);
    assert n.surface == Some("cobblestone");
    assert NoFinishingTag(n);
    OldSurfaceIsPriority(n);
    SurfaceIsPriority(n);
    CobblestoneBuckets(n, GradeScore(n));
    FinishingKeeps(n, OldMaterialScore(n, GradeScore(n)));
    FinishingKeeps(n, MaterialScore(n, GradeScore(n)));
  }

  lemma FinishingKeeps(s: Segment, fallback: int)
    requires NoFinishingTag(s)
    ensures FinishingScore(s, fallback) == fallback
  {
  }

  lemma CobblestoneBuckets(s: Segment, fallback: int)
    requires s.surface == Some("cobblestone")
    ensures OldMaterialScore(s, fallback) == 3
    ensures MaterialScore(s, fallback) == 2
  {
    assert "cobblestone" != "pebblestone" by { assert "cobblestone"[0] != "pebblestone"[0]; }
  }

  lemma ChipsealScoresFive(id: int)
    ensures OldSurfaceScore(Untagged(id).(surface := Some("chipseal"))) == 5
  {
    var c := Untagged(id).(surface := Some("chipseal"));
    ChipsealIsNormal();
    assert WithNormalisedSurface(c) == c;
    OldSurfaceIsPriority(c);
    ChipsealBucket(c, GradeScore(c));
    assert FinishingScore(c, 5) == 5;
  }

  lemma ChipsealBucket(c: Segment, fallback: int)
    requires c.surface == Some("chipseal")
    ensures OldMaterialScore(c, fallback) == 5
  {
    assert "chipseal" in ["asphalt", "chipseal", "concrete", "compacted", "tar", "1"];
  }

  /** "chipseal" is its own normal form. */
  lemma ChipsealIsNormal()
    ensures NormaliseSurface(Some("chipseal")) == Some("chipseal")
  {
    ChipsealNamesNoWord();
    ChipsealUncut();
    NormaliseSurfaceCases(Some("chipseal"));
  }

  lemma ChipsealNamesNoWord()
    ensures !Contains("chipseal", "cobblestone") && !Contains("chipseal", "asphalt") && !Contains("chipseal", "concrete")
  {
    MissingCharNotContained("chipseal", "cobblestone", 1);
    MissingCharNotContained("chipseal", "asphalt", 6);
    MissingCharNotContained("chipseal", "concrete", 2);
  }

  lemma ChipsealUncut()
    ensures Before(Before("chipseal", ";"), ":") == "chipseal"
  {
    FindAbsent("chipseal", ";");
    FindAbsent("chipseal", ":");
  }

  lemma MudScoresOne(id: int)
    ensures OldSurfaceScore(Untagged(id).(surface := Some("mud"))) == 1
  {
    var m := Untagged(id).(surface := Some("mud"));
    NormaliseSurfaceCases(m.surface);
    FindAbsent("mud", ";");
    FindAbsent("mud", ":");
    assert WithNormalisedSurface(m) == m;
    OldSurfaceIsPriority(m);
  }
}

=== FILE: inference.dfy ===
/** Filling in the scores no rule could assign (`Suitability.fill_in_scores`
    and `Suitability.complete_road_related`), and the two scoring passes of
    `Suitability` that call it. */
module Inference {
  import opened Wrappers
  import opened Rounding
  import opened Seqs
  import opened Cascade
  import opened SuitabilityRules

  /** One row of the scoring table: the columns the inference reads. */
  datatype ScoreRow = ScoreRow(name: Option<string>, highway: Option<string>, score: int)

  /** Every score is either unset or on the 0..5 scale. */
  predicate ValidScores(rows: seq<ScoreRow>) {
    forall i :: 0 <= i < |rows| ==> rows[i].score == Unscored || 0 <= rows[i].score <= 5
  }

  predicate AllScored(rows: seq<ScoreRow>) {
    forall i :: 0 <= i < |rows| ==> 0 <= rows[i].score <= 5
  }

  /** The set scores (not `-1`) of the rows `related` selects, in row order. */
  function SetScores(rows: seq<ScoreRow>, related: ScoreRow -> bool): (r: seq<int>)
    ensures forall x :: x in r ==> exists j :: 0 <= j < |rows| && related(rows[j]) && rows[j].score == x && x != Unscored
    ensures forall j :: 0 <= j < |rows| && related(rows[j]) && rows[j].score != Unscored ==> rows[j].score in r
  {
    if |rows| == 0 then []
    else
      var rest := SetScores(rows[1..], related);
      assert forall j :: 1 <= j < |rows| ==> rows[j] == rows[1..][j - 1];
      if related(rows[0]) && rows[0].score != Unscored then [rows[0].score] + rest else rest
  }

  /** Set scores of valid rows lie on the 0..5 scale. */
  lemma SetScoresInRange(rows: seq<ScoreRow>, related: ScoreRow -> bool)
    requires ValidScores(rows)
    ensures forall k :: 0 <= k < |SetScores(rows, related)| ==> 0 <= SetScores(rows, related)[k] <= 5
  {
    var r := SetScores(rows, related);
    forall k | 0 <= k < |r| ensures 0 <= r[k] <= 5 {
      assert r[k] in r;
    }
  }

  /** The default of a highway type: the rounded mean of the set scores of
      that type, or the configured default when there are none. */
  function TypeDefault(rows: seq<ScoreRow>, highway: Option<string>, default: int): int {
    var scores := SetScores(rows, (r: ScoreRow) => r.highway == highway);
    if |scores| > 0 then RoundMean(scores) else default
  }

  lemma TypeDefaultInRange(rows: seq<ScoreRow>, highway: Option<string>, default: int)
    requires ValidScores(rows) && 0 <= default <= 5
    ensures 0 <= TypeDefault(rows, highway, default) <= 5
  {
    var scores := SetScores(rows, (r: ScoreRow) => r.highway == highway);
    if |scores| > 0 {
      SetScoresInRange(rows, (r: ScoreRow) => r.highway == highway);
      RoundMeanBounds(scores, 0, 5);
    }
  }

  /** The value row `i` receives when it is reached: the rounded mean of the
      set scores of the rows with the same name, as the table stands, or else
      the default of its highway type, taken from the table as it was before
      any row was filled. A missing name matches the other missing names. */
  function Fill(state: seq<ScoreRow>, i: nat, initial: seq<ScoreRow>, default: int): int
    requires i < |state|
  {
    var peers := SetScores(state, (r: ScoreRow) => r.name == state[i].name);
    if |peers| > 0 then RoundMean(peers) else TypeDefault(initial, state[i].highway, default)
  }

  lemma FillInRange(state: seq<ScoreRow>, i: nat, initial: seq<ScoreRow>, default: int)
    requires i < |state| && ValidScores(state) && ValidScores(initial) && 0 <= default <= 5
    ensures 0 <= Fill(state, i, initial, default) <= 5
  {
    var peers := SetScores(state, (r: ScoreRow) => r.name == state[i].name);
    if |peers| > 0 {
      SetScoresInRange(state, (r: ScoreRow) => r.name == state[i].name);
      RoundMeanBounds(peers, 0, 5);
    } else {
      TypeDefaultInRange(initial, state[i].highway, default);
    }
  }

  /** Visits the rows in order and fills every unset score. Rows filled
      earlier count as peers of later rows, because the loop writes into the
      table it reads. */
  method FillInScores(rows: seq<ScoreRow>, default: int) returns (r: seq<ScoreRow>)
    ensures |r| == |rows|
    ensures forall i :: 0 <= i < |rows| ==> r[i].name == rows[i].name && r[i].highway == rows[i].highway
    ensures forall i :: 0 <= i < |rows| && rows[i].score != Unscored ==> r[i] == rows[i]
    ensures forall i :: 0 <= i < |rows| && rows[i].score == Unscored ==>
              r[i].score == Fill(r[..i] + rows[i..], i, rows, default)
    ensures ValidScores(rows) && 0 <= default <= 5 ==> AllScored(r)
  {
    r := rows;
    var i := 0;
    while i < |rows|
      invariant 0 <= i <= |rows| && |r| == |rows|
      invariant r[i..] == rows[i..]
      invariant forall j :: 0 <= j < |rows| ==> r[j].name == rows[j].name && r[j].highway == rows[j].highway
      invariant forall j :: 0 <= j < i && rows[j].score != Unscored ==> r[j] == rows[j]
      invariant forall j :: 0 <= j < i && rows[j].score == Unscored ==>
                  r[j].score == Fill(r[..j] + rows[j..], j, rows, default)
      invariant ValidScores(rows) && 0 <= default <= 5 ==> ValidScores(r) && forall j :: 0 <= j < i ==> 0 <= r[j].score <= 5
    {
      assert r == r[..i] + rows[i..] by {
        assert r == r[..i] + r[i..];
      }
      if r[i].score == Unscored {
        var v := Fill(r, i, rows, default);
        if ValidScores(rows) && 0 <= default <= 5 {
          FillInRange(r, i, rows, default);
        }
        var r' := r[i := r[i].(score := v)];
        assert forall j :: 0 <= j <= i ==> r'[..j] == r[..j];
        assert r'[i + 1..] == rows[i + 1..] by {
          assert r[i + 1..] == rows[i + 1..];
        }
        r := r';
      } else {
        assert r[i] == rows[i];
      }
      i := i + 1;
    }
  }

  /** The scoring table built from the segments and one score column. */
  function Table(segs: seq<Segment>, scores: seq<int>): (rows: seq<ScoreRow>)
    requires |scores| == |segs|
    ensures |rows| == |segs|
    ensures forall i :: 0 <= i < |segs| ==> rows[i] == ScoreRow(segs[i].name, segs[i].highway, scores[i])
  {
    seq(|segs|, i requires 0 <= i < |segs| => ScoreRow(segs[i].name, segs[i].highway, scores[i]))
  }

  /** The table `score_route_separation` starts from: every segment with its
      cascade score. */
  function SeparationTable(segs: seq<Segment>): (rows: seq<ScoreRow>)
    ensures |rows| == |segs|
    ensures forall i :: 0 <= i < |segs| ==> rows[i] == ScoreRow(segs[i].name, segs[i].highway, Separation(segs[i]))
  {
    Table(segs, seq(|segs|, i requires 0 <= i < |segs| => Separation(segs[i])))
  }

  /** The table `score_route_surfaces` starts from: every segment with its
      surface cascade score. */
  function SurfaceTable(segs: seq<Segment>): (rows: seq<ScoreRow>)
    ensures |rows| == |segs|
    ensures forall i :: 0 <= i < |segs| ==> rows[i] == ScoreRow(segs[i].name, segs[i].highway, SurfaceScore(segs[i]))
  {
    Table(segs, seq(|segs|, i requires 0 <= i < |segs| => SurfaceScore(segs[i])))
  }

  /** `score_route_separation`: the rule cascade on every row, then the
      inference when at least one row is unscored. The second result lists
      the segments the rules left unscored. */
  method ScoreSeparation(segs: seq<Segment>, default: int) returns (rows: seq<ScoreRow>, missing: seq<Segment>)
    ensures |rows| == |segs|
    ensures forall i :: 0 <= i < |segs| ==> rows[i].name == segs[i].name && rows[i].highway == segs[i].highway
    ensures forall s :: s in missing <==> s in segs && Separation(s) == Unscored
    ensures forall i :: 0 <= i < |segs| && Separation(segs[i]) != Unscored ==> rows[i].score == Separation(segs[i])
    ensures forall i :: 0 <= i < |segs| && Separation(segs[i]) == Unscored ==>
              rows[i].score == Fill(rows[..i] + SeparationTable(segs)[i..], i, SeparationTable(segs), default)
    ensures 0 <= default <= 5 ==> AllScored(rows)
  {
    var table := SeparationTable(segs);
    missing := Filter(segs, s => Separation(s) == Unscored);
    forall i | 0 <= i < |segs| ensures table[i].score == Unscored || 0 <= table[i].score <= 5 {
      SeparationRange(segs[i]);
    }
    if |missing| > 0 {
      rows := FillInScores(table, default);
    } else {
      rows := table;
      forall i | 0 <= i < |segs| ensures 0 <= rows[i].score <= 5 {
        assert segs[i] !in missing;
      }
    }
  }

  /** `score_route_surfaces`: the surface cascade on the normalised rows.
      The inference runs only when some unscored row carries no surface tag
      at all; it then fills every unscored row. The second result lists the
      unscored rows without surface tags. */
  method ScoreSurfaces(segs: seq<Segment>, default: int) returns (rows: seq<ScoreRow>, missing: seq<Segment>)
    ensures |rows| == |segs|
    ensures forall i :: 0 <= i < |segs| ==> rows[i].name == segs[i].name && rows[i].highway == segs[i].highway
    ensures forall s :: s in missing <==> s in segs && SurfaceScore(s) == Unscored && MissingSurfaceData(s)
    ensures forall i :: 0 <= i < |segs| && SurfaceScore(segs[i]) != Unscored ==> rows[i].score == SurfaceScore(segs[i])
    ensures |missing| == 0 ==> forall i :: 0 <= i < |segs| ==> rows[i].score == SurfaceScore(segs[i])
    ensures |missing| > 0 ==> forall i :: 0 <= i < |segs| && SurfaceScore(segs[i]) == Unscored ==>
              rows[i].score == Fill(rows[..i] + SurfaceTable(segs)[i..], i, SurfaceTable(segs), default)
    ensures |missing| > 0 && 0 <= default <= 5 ==> AllScored(rows)
  {
    var table := SurfaceTable(segs);
    missing := Filter(segs, s => SurfaceScore(s) == Unscored && MissingSurfaceData(s));
    forall i | 0 <= i < |segs| ensures table[i].score == Unscored || 0 <= table[i].score <= 5 {
      SurfaceRange(segs[i]);
    }
    if |missing| > 0 {
      rows := FillInScores(table, default);
    } else {
      rows := table;
    }
  }
}

=== FILE: network_filter.dfy ===
/** The row filters applied to the OSM network before scoring
    (`Suitability.import_network` and `import_osm.score_osm`), and
    `Suitability.remove_ignored_types` on the routing graph. */
module NetworkFilter {
  import opened Wrappers
  import opened Text
  import opened Seqs
  import opened Cascade

  const BicycleForbidden: seq<string> := ["no", "separate", "private"]
  const BicycleRestricted: seq<string> := ["limited", "permit", "dismount"]
  const BusWays: seq<string> := ["bus", "busway"]

  /** A network row with its `rightofway` flag ("Yes" is `true`). */
  datatype OsmRow = OsmRow(seg: Segment, rightOfWay: bool)

  /** Rows of an ignored highway type and rows closed to bicycles are dropped;
      a missing tag drops nothing. */
  predicate Kept(s: Segment, ignored: seq<string>) {
    !IsIn(s.highway, ignored) && !IsIn(s.bicycle, BicycleForbidden)
  }

  /** The right of way as the code decides it: restricted bicycle access, or
      a bus way whose `bicycle` tag is not the capitalised "Yes". OSM writes
      the value in lower case, so a bus way tagged `bicycle=yes` loses it. */
  predicate RightOfWayAsWritten(s: Segment) {
    !(IsIn(s.bicycle, BicycleRestricted) || (IsIn(s.highway, BusWays) && !IsIn(s.bicycle, ["Yes"])))
  }

  /** The right of way with the OSM spelling of the explicit permission. */
  predicate RightOfWay(s: Segment) {
    !(IsIn(s.bicycle, BicycleRestricted) || (IsIn(s.highway, BusWays) && !IsIn(s.bicycle, ["yes"])))
  }

  /** A bus way explicitly open to bicycles is denied the right of way by the
      code as written and granted it by the corrected rule. */
  lemma BusWayOpenToBicycles(id: int)
    ensures !RightOfWayAsWritten(Segment(id, None, Some("busway"), Some("yes"), None, None, None, None, None, None))
    ensures RightOfWay(Segment(id, None, Some("busway"), Some("yes"), None, None, None, None, None, None))
  {
  }

  /** The two rules differ only on bus ways tagged `bicycle=yes` or "Yes". */
  lemma RightOfWayDiffersOnlyOnBusWays(s: Segment)
    ensures RightOfWay(s) != RightOfWayAsWritten(s) <==>
              IsIn(s.highway, BusWays) && (s.bicycle == Some("yes") || s.bicycle == Some("Yes"))
  {
  }

  /** Link roads are scored as their parent type: the highway is cut at the
      first "_". The right-of-way flag is the one the code sets, which
      differs from the OSM spelling only on bus ways tagged `bicycle=yes`
      (or "Yes"). */
  function Prepare(s: Segment): (r: OsmRow)
    ensures r.seg == s.(highway := Cut(s.highway, "_"))
    ensures r.rightOfWay == RightOfWayAsWritten(s)
    ensures r.rightOfWay != RightOfWay(s) <==>
              IsIn(s.highway, BusWays) && (s.bicycle == Some("yes") || s.bicycle == Some("Yes"))
  {
    RightOfWayDiffersOnlyOnBusWays(s);
    OsmRow(s.(highway := Cut(s.highway, "_")), RightOfWayAsWritten(s))
  }

  /** The row mask of the two filters. */
  function KeptBy(ignored: seq<string>): Segment -> bool {
    s => Kept(s, ignored)
  }

  /** The filtered network: the rows the mask keeps, in their order, each
      flagged and with its link stripped. */
  function FilterNetwork(rows: seq<Segment>, ignored: seq<string>): (r: seq<OsmRow>)
    ensures |r| == |Filter(rows, KeptBy(ignored))|
    ensures forall i :: 0 <= i < |r| ==> r[i] == Prepare(Filter(rows, KeptBy(ignored))[i])
    ensures forall i :: 0 <= i < |rows| && Kept(rows[i], ignored) ==> Prepare(rows[i]) in r
  {
    if |rows| == 0 then []
    else
      var rest := FilterNetwork(rows[1..], ignored);
      assert forall i :: 1 <= i < |rows| ==> rows[i] == rows[1..][i - 1];
      if Kept(rows[0], ignored) then [Prepare(rows[0])] + rest else rest
  }

  /** The highway type before the first "_" of `parent + "_" + suffix`. */
  lemma StripsSuffix(parent: string, suffix: string)
    requires '_' !in parent
    ensures Cut(Some(parent + "_" + suffix), "_") == Some(parent)
  {
    FindAfter(parent, "_", suffix);
    var s := parent + "_" + suffix;
    assert s[..|parent|] == parent;
  }

  /** Filtering happens before link stripping: a `motorway_link` survives
      the ignored type "motorway" and is then scored as a motorway. */
  lemma MotorwayLinkBecomesMotorway(id: int, ignored: seq<string>)
    requires "motorway_link" !in ignored
    ensures var s := Segment(id, None, Some("motorway_link"), None, None, None, None, None, None, None);
      Kept(s, ignored) && Prepare(s).seg.highway == Some("motorway")
  {
    StripsSuffix("motorway", "link");
    assert "motorway" + "_" + "link" == "motorway_link";
  }

  /** A `living_street` is scored as "living". */
  lemma LivingStreetBecomesLiving(id: int)
    ensures Prepare(Segment(id, None, Some("living_street"), None, None, None, None, None, None, None)).seg.highway
      == Some("living")
  {
    StripsSuffix("living", "street");
    assert "living" + "_" + "street" == "living_street";
  }

  /** One edge of the routing graph, keyed by its two end nodes. */
  datatype Edge = Edge(from: int, to: int, key: int, highway: Option<string>)

  predicate EdgeKept(e: Edge, ignored: seq<string>) {
    !IsIn(e.highway, ignored)
  }

  predicate IsEndpoint(n: int, edges: seq<Edge>) {
    exists e :: e in edges && (e.from == n || e.to == n)
  }

  /** Drops the edges of ignored types, then every node that no remaining
      edge touches. Both lists keep their order. */
  function RemoveIgnoredTypes(nodes: seq<int>, edges: seq<Edge>, ignored: seq<string>): (r: (seq<int>, seq<Edge>))
    ensures forall e :: e in r.1 <==> e in edges && EdgeKept(e, ignored)
    ensures forall n :: n in r.0 <==> n in nodes && IsEndpoint(n, r.1)
  {
    var kept := Filter(edges, e => EdgeKept(e, ignored));
    (Filter(nodes, n => IsEndpoint(n, kept)), kept)
  }
}

=== FILE: rounding.dfy ===
/** Python's `round` on a NumPy float and NumPy's `.round()` both round half
    to even. Every rounded quantity in the model is the mean of integer
    scores, so it is computed exactly as `sum / count` rounded half to even. */
module Rounding {

  function Sum(xs: seq<int>): int
  {
    if |xs| == 0 then 0 else Sum(xs[..|xs| - 1]) + xs[|xs| - 1]
  }

  /** The integer nearest to `num / den`; a tie goes to the even neighbour. */
  function RoundHalfEven(num: int, den: int): (r: int)
    requires den > 0
    ensures -den <= 2 * (r * den - num) <= den
    ensures 2 * (r * den - num) == den || 2 * (r * den - num) == -den ==> r % 2 == 0
  {
    var q, rem := num / den, num % den;
    assert num == q * den + rem;
    if 2 * rem < den then q
    else if 2 * rem > den then q + 1
    else if q % 2 == 0 then q
    else q + 1
  }

  /** `round(xs.mean())` for a non-empty list of integers. */
  function RoundMean(xs: seq<int>): int
    requires |xs| > 0
  {
    RoundHalfEven(Sum(xs), |xs|)
  }

  lemma {:induction false} SumBounds(xs: seq<int>, lo: int, hi: int)
    requires forall i :: 0 <= i < |xs| ==> lo <= xs[i] <= hi
    ensures lo * |xs| <= Sum(xs) <= hi * |xs|
  {
    if |xs| > 0 {
      var init := xs[..|xs| - 1];
      SumBounds(init, lo, hi);
      assert Sum(xs) == Sum(init) + xs[|xs| - 1];
      assert lo * |xs| == lo * |init| + lo;
      assert hi * |xs| == hi * |init| + hi;
    }
  }

  /** Rounding half to even never leaves the interval spanned by the values:
      the mean of values in `[lo, hi]` rounds into `[lo, hi]`. */
  lemma RoundMeanBounds(xs: seq<int>, lo: int, hi: int)
    requires |xs| > 0
    requires forall i :: 0 <= i < |xs| ==> lo <= xs[i] <= hi
    ensures lo <= RoundMean(xs) <= hi
  {
    SumBounds(xs, lo, hi);
    RoundBetween(Sum(xs), |xs|, lo, hi);
  }

  /** The rounded quotient of a numerator between `lo * den` and `hi * den`
      lies between `lo` and `hi`. */
  lemma RoundBetween(num: int, den: int, lo: int, hi: int)
    requires den > 0
    requires lo * den <= num <= hi * den
    ensures lo <= RoundHalfEven(num, den) <= hi
  {
    var r := RoundHalfEven(num, den);
    assert (hi + 1) * den == hi * den + den;
    assert (lo - 1) * den == lo * den - den;
    if r > hi {
      MulMonotone(r, hi + 1, den);
    }
    if r < lo {
      MulMonotone(lo - 1, r, den);
    }
  }

  lemma MulMonotone(a: int, b: int, n: nat)
    requires a >= b
    ensures a * n >= b * n
  {
  }

  /** The mean of equal values rounds to that value. */
  lemma RoundMeanConstant(xs: seq<int>, v: int)
    requires |xs| > 0
    requires forall i :: 0 <= i < |xs| ==> xs[i] == v
    ensures RoundMean(xs) == v
  {
    RoundMeanBounds(xs, v, v);
  }
}

=== FILE: route_scores.dfy ===
/** Scoring the routes of each building and aggregating them into one score
    per building (`score_routes` and `calc_building_scores`). Each route's
    scores are its decay times each weight, the outer product the
    walkability helper computes with `np.outer`; the bikeability helper's
    `np.multiply` fails on every weight vector of two or more entries
    (`Decay.HelperScoreFailsForWideWeights`), so this is the scoring it
    evidently intends. The distance decay is a parameter: the walkability
    script passes `Decay.WalkDecay`, the bikeability script its logistic
    curve. */
module RouteScores {
  import opened Wrappers
  import opened Seqs
  import opened Config
  import opened Accidents
  import opened Decay

  /** One route from a building to a POI: the columns of the route frame. */
  datatype Route = Route(
    buildingOsmid: int,
    node1: int,
    node2: int,
    poiOsmid: int,
    poiType: string,
    dist: real,
    accidentCount: int)

  /** A numeric cell; `NaN` is pandas' missing value. */
  datatype Cell = Num(v: real) | NaN

  datatype Column = Column(name: string, cells: seq<Cell>)

  /** A building's scored route frame: the routes, how many of the seven
      route columns survive the removal of all-zero columns, and the score
      columns that survive it. */
  datatype Scored = Scored(routes: seq<Route>, keptBase: nat, scores: seq<Column>)

  function Flag(b: bool): nat {
    if b then 1 else 0
  }

  /** The route columns with a non-zero value. The POI type is text, which is
      never equal to 0, so it survives as soon as there is a route. */
  function BaseKept(routes: seq<Route>): (n: nat)
    ensures n <= 7
    ensures |routes| > 0 <==> n >= 1
  {
    Flag(exists r :: r in routes && r.buildingOsmid != 0)
      + Flag(exists r :: r in routes && r.node1 != 0)
      + Flag(exists r :: r in routes && r.node2 != 0)
      + Flag(exists r :: r in routes && r.poiOsmid != 0)
      + Flag(|routes| > 0)
      + Flag(exists r :: r in routes && r.dist != 0.0)
      + Flag(exists r :: r in routes && r.accidentCount != 0)
  }

  /** The weight vector of a POI type: the first entry with that key. */
  function WeightOf(d: OrderedDict<int>, t: string): (r: Option<seq<int>>)
    ensures r.Some? <==> exists i :: 0 <= i < |d| && d[i].0 == t
    ensures DistinctKeys(d) ==> forall i :: 0 <= i < |d| && d[i].0 == t ==> r == Some(d[i].1)
  {
    if |d| == 0 then None
    else if d[0].0 == t then Some(d[0].1)
    else
      assert forall i :: 1 <= i < |d| ==> d[i] == d[1..][i - 1];
      WeightOf(d[1..], t)
  }

  /** The widest weight vector: the number of score columns. */
  function MaxWidth(d: OrderedDict<int>): (k: nat)
    ensures forall i :: 0 <= i < |d| ==> |d[i].1| <= k
    ensures |d| > 0 ==> exists i :: 0 <= i < |d| && |d[i].1| == k
    ensures |d| == 0 ==> k == 0
  {
    if |d| == 0 then 0
    else
      var rest := MaxWidth(d[1..]);
      assert forall i :: 1 <= i < |d| ==> d[i] == d[1..][i - 1];
      if |d[0].1| >= rest then |d[0].1| else rest
  }

  /** A route's weighted score for weight `j`, scaled by its accident factor. */
  function RouteValue(route: Route, w: seq<int>, j: nat, decay: real -> real): real
    requires j < |w|
  {
    decay(route.dist) * (w[j] as real) * AccidentFactor(route.accidentCount)
  }

  /** The cell of score column `j` on a route: its type's weighted score, or
      NaN when the type has no weight `j` or no weight vector at all. */
  function ScoreCell(route: Route, d: OrderedDict<int>, j: nat, decay: real -> real): Cell {
    match WeightOf(d, route.poiType)
    case Some(w) => if j < |w| then Num(RouteValue(route, w, j, decay)) else NaN
    case None => NaN
  }

  /** The score columns before any is removed: "score_1" up to the widest
      weight vector, one cell per route. */
  function RawScoreColumns(routes: seq<Route>, d: OrderedDict<int>, decay: real -> real): (cs: seq<Column>)
    ensures |cs| == MaxWidth(d)
    ensures forall j :: 0 <= j < |cs| ==> cs[j].name == ColumnName(j) && |cs[j].cells| == |routes|
    ensures forall j, r :: 0 <= j < |cs| && 0 <= r < |routes| ==> cs[j].cells[r] == ScoreCell(routes[r], d, j, decay)
  {
    seq(MaxWidth(d), j requires 0 <= j < MaxWidth(d) =>
      Column(ColumnName(j), seq(|routes|, r requires 0 <= r < |routes| => ScoreCell(routes[r], d, j, decay))))
  }

  /** A column some cell of which differs from 0 (NaN differs from 0). */
  predicate NonZero(c: Column) {
    exists r :: 0 <= r < |c.cells| && c.cells[r] != Num(0.0)
  }

  /** `score_routes` for one building: score every route by its type's
      weights and its accident factor, then drop the all-zero columns. The
      surviving columns keep their order: raw column `j` lands after the
      surviving columns before it, and keeps its index when none before it
      was dropped (`calc_building_scores` reads them by position). */
  function ScoreRoutes(routes: seq<Route>, d: OrderedDict<int>, decay: real -> real): (s: Scored)
    ensures s.routes == routes
    ensures s.keptBase == BaseKept(routes)
    ensures forall c :: c in s.scores <==> c in RawScoreColumns(routes, d, decay) && NonZero(c)
    ensures forall c :: c in s.scores ==> |c.cells| == |routes|
    ensures |s.scores| == Count(RawScoreColumns(routes, d, decay), NonZero)
    ensures forall j :: 0 <= j < MaxWidth(d) && NonZero(RawScoreColumns(routes, d, decay)[j]) ==>
              Count(RawScoreColumns(routes, d, decay)[..j], NonZero) < |s.scores|
              && s.scores[Count(RawScoreColumns(routes, d, decay)[..j], NonZero)] == RawScoreColumns(routes, d, decay)[j]
    ensures forall j :: 0 <= j < MaxWidth(d) && KeptThrough(RawScoreColumns(routes, d, decay), NonZero, j) ==>
              j < |s.scores| && s.scores[j] == RawScoreColumns(routes, d, decay)[j]
    ensures (forall c :: c in RawScoreColumns(routes, d, decay) ==> NonZero(c)) ==>
              s.scores == RawScoreColumns(routes, d, decay)
  {
    var raw := RawScoreColumns(routes, d, decay);
    FilterPositions(raw, NonZero);
    FilterKeepsPositions(raw, NonZero);
    if forall c :: c in raw ==> NonZero(c) then
      FilterAll(raw, NonZero);
      Scored(routes, BaseKept(routes), Filter(raw, NonZero))
    else
      Scored(routes, BaseKept(routes), Filter(raw, NonZero))
  }

  /** A zero weight on every route's type leaves its column all zero, so the
      column is dropped. */
  lemma ZeroWeightColumnDropped(routes: seq<Route>, d: OrderedDict<int>, decay: real -> real, j: nat)
    requires j < MaxWidth(d)
    requires forall r :: 0 <= r < |routes| ==>
               WeightOf(d, routes[r].poiType).Some? && j < |WeightOf(d, routes[r].poiType).value|
               && WeightOf(d, routes[r].poiType).value[j] == 0
    ensures RawScoreColumns(routes, d, decay)[j] !in ScoreRoutes(routes, d, decay).scores
  {
    var c := RawScoreColumns(routes, d, decay)[j];
    forall r | 0 <= r < |c.cells| ensures c.cells[r] == Num(0.0) {
      var w := WeightOf(d, routes[r].poiType).value;
      assert c.cells[r] == Num(RouteValue(routes[r], w, j, decay));
    }
  }

  /** `score_routes` for every building, in order. */
  function ScoreAllRoutes(buildings: seq<seq<Route>>, d: OrderedDict<int>, decay: real -> real): (r: seq<Scored>)
    ensures |r| == |buildings|
    ensures forall i :: 0 <= i < |buildings| ==> r[i] == ScoreRoutes(buildings[i], d, decay)
  {
    seq(|buildings|, i requires 0 <= i < |buildings| => ScoreRoutes(buildings[i], d, decay))
  }

  // calc_building_scores

  /** The number of cells of the frame. */
  function Size(s: Scored): nat {
    |s.routes| * (s.keptBase + |s.scores|)
  }

  /** A cell of a column, NaN past its end. */
  function CellAt(c: Column, r: int): Cell {
    if 0 <= r < |c.cells| then c.cells[r] else NaN
  }

  /** The positions of the routes of one POI type, in order. */
  function TypeRows(routes: seq<Route>, t: string): (rows: seq<int>)
    ensures forall k :: 0 <= k < |rows| ==> 0 <= rows[k] < |routes| && routes[rows[k]].poiType == t
    ensures forall r :: 0 <= r < |routes| && routes[r].poiType == t ==> r in rows
    ensures |rows| == 0 <==> forall r :: 0 <= r < |routes| ==> routes[r].poiType != t
  {
    var rows := TypeRowsFrom(routes, t, 0);
    assert |rows| > 0 ==> routes[rows[0]].poiType == t;
    rows
  }

  /** The positions from `i` on of the routes of type `t`. */
  function TypeRowsFrom(routes: seq<Route>, t: string, i: nat): (rows: seq<int>)
    ensures forall k :: 0 <= k < |rows| ==> i <= rows[k] < |routes| && routes[rows[k]].poiType == t
    ensures forall r :: i <= r < |routes| && routes[r].poiType == t ==> r in rows
    decreases |routes| - i
  {
    if i >= |routes| then []
    else (if routes[i].poiType == t then [i] else []) + TypeRowsFrom(routes, t, i + 1)
  }

  /** Python's `>` on cells: any comparison with NaN is false. */
  predicate Greater(a: Cell, b: Cell) {
    a.Num? && b.Num? && a.v > b.v
  }

  /** Python's built-in `max`: keeps the first value and replaces it by each
      later value that is greater. */
  function PyMax(cells: seq<Cell>): Cell
    requires |cells| > 0
  {
    if |cells| == 1 then cells[0]
    else
      var m := PyMax(cells[..|cells| - 1]);
      if Greater(cells[|cells| - 1], m) then cells[|cells| - 1] else m
  }

  /** A leading NaN is never replaced: no value compares greater than it. */
  lemma {:induction false} PyMaxKeepsLeadingNaN(cells: seq<Cell>)
    requires |cells| > 0 && cells[0] == NaN
    ensures PyMax(cells) == NaN
  {
    if |cells| > 1 {
      PyMaxKeepsLeadingNaN(cells[..|cells| - 1]);
    }
  }

  function Nums(xs: seq<real>): (cs: seq<Cell>)
    ensures |cs| == |xs| && forall i :: 0 <= i < |xs| ==> cs[i] == Num(xs[i])
  {
    seq(|xs|, i requires 0 <= i < |xs| => Num(xs[i]))
  }

  /** The largest of a non-empty list of reals. */
  function RealMax(xs: seq<real>): (m: real)
    requires |xs| > 0
    ensures forall i :: 0 <= i < |xs| ==> xs[i] <= m
    ensures exists i :: 0 <= i < |xs| && xs[i] == m
  {
    if |xs| == 1 then xs[0]
    else
      var m := RealMax(xs[..|xs| - 1]);
      assert forall i :: 0 <= i < |xs| - 1 ==> xs[..|xs| - 1][i] == xs[i];
      if xs[|xs| - 1] > m then xs[|xs| - 1] else m
  }

  /** On numbers Python's `max` is the maximum. */
  lemma {:induction false} PyMaxOfNumbers(xs: seq<real>)
    requires |xs| > 0
    ensures PyMax(Nums(xs)) == Num(RealMax(xs))
  {
    if |xs| > 1 {
      assert Nums(xs)[..|xs| - 1] == Nums(xs[..|xs| - 1]);
      PyMaxOfNumbers(xs[..|xs| - 1]);
    }
  }

  /** The entry for score column `i` of one POI type: the best cell of the
      type's routes in the `i`-th surviving score column, 0 when the type
      has no routes (or no score column survived), and IndexError when
      fewer than `i + 1` score columns survived. */
  function Contribution(s: Scored, t: string, i: nat): Result<Cell> {
    var rows := TypeRows(s.routes, t);
    if |rows| > 0 && |s.scores| > 0 then
      if i < |s.scores| then
        Ok(PyMax(seq(|rows|, k requires 0 <= k < |rows| => CellAt(s.scores[i], rows[k]))))
      else
        Err(IndexError("single positional indexer is out-of-bounds"))
    else
      Ok(Num(0.0))
  }

  /** The entries of one POI type, for the non-zero weights from `i` on. */
  function TypeScores(s: Scored, t: string, w: seq<int>, i: nat): Result<seq<Cell>>
    decreases |w| - i
  {
    if i >= |w| then Ok([])
    else
      var first :- if w[i] != 0 then (var c :- Contribution(s, t, i); Ok([c])) else Ok([]);
      var rest :- TypeScores(s, t, w, i + 1);
      Ok(first + rest)
  }

  /** The entries of every POI type, in the order of the weight dictionary. */
  function ScoreList(s: Scored, d: OrderedDict<int>): Result<seq<Cell>> {
    if |d| == 0 then Ok([])
    else
      var first :- TypeScores(s, d[0].0, d[0].1, 0);
      var rest :- ScoreList(s, d[1..]);
      Ok(first + rest)
  }

  /** Python's `sum`: NaN absorbs every number. */
  function CellSum(cells: seq<Cell>): Cell {
    if |cells| == 0 then Num(0.0)
    else
      var a := CellSum(cells[..|cells| - 1]);
      var b := cells[|cells| - 1];
      if a.Num? && b.Num? then Num(a.v + b.v) else NaN
  }

  function RealSum(xs: seq<real>): real {
    if |xs| == 0 then 0.0 else RealSum(xs[..|xs| - 1]) + xs[|xs| - 1]
  }

  lemma {:induction false} CellSumOfNumbers(xs: seq<real>)
    ensures CellSum(Nums(xs)) == Num(RealSum(xs))
  {
    if |xs| > 0 {
      assert Nums(xs)[..|xs| - 1] == Nums(xs[..|xs| - 1]);
      CellSumOfNumbers(xs[..|xs| - 1]);
    }
  }

  /** The building score: the sum of the entries divided by the sum of all
      weights; 0 for a frame of at most one cell. */
  function CalcBuildingScore(s: Scored, d: OrderedDict<int>): (r: Result<Cell>)
    ensures Size(s) <= 1 ==> r == Ok(Num(0.0))
    ensures Size(s) > 1 && ScoreList(s, d).Ok? && TotalWeight(d) == 0 ==> r == Err(ZeroDivisionError)
    ensures Size(s) > 1 && ScoreList(s, d).Err? ==> r.Err?
  {
    if Size(s) <= 1 then Ok(Num(0.0))
    else
      var entries :- ScoreList(s, d);
      var total := TotalWeight(d);
      if total == 0 then Err(ZeroDivisionError)
      else
        var sum := CellSum(entries);
        Ok(if sum.Num? then Num(sum.v / (total as real)) else NaN)
  }

  /** `calc_building_scores`: one score per building, in order. */
  function CalcBuildingScores(frames: seq<Scored>, d: OrderedDict<int>): (r: Result<seq<Cell>>)
    ensures r.Ok? ==> |r.value| == |frames|
    ensures r.Ok? ==> forall i :: 0 <= i < |frames| ==> CalcBuildingScore(frames[i], d) == Ok(r.value[i])
    ensures r.Ok? ==> forall i :: 0 <= i < |frames| && Size(frames[i]) <= 1 ==> r.value[i] == Num(0.0)
  {
    MapAll(frames, (f: Scored) => CalcBuildingScore(f, d))
  }

  // The building score read directly from the routes.

  /** The best weighted score among a type's routes for weight `i`, 0 when
      the type has no route. */
  function BestRoute(routes: seq<Route>, t: string, w: seq<int>, i: nat, decay: real -> real): real
    requires i < |w|
  {
    var rows := TypeRows(routes, t);
    if |rows| == 0 then 0.0
    else RealMax(seq(|rows|, k requires 0 <= k < |rows| => RouteValue(routes[rows[k]], w, i, decay)))
  }

  /** The best route of each type for each non-zero weight from `i` on. */
  function BestRoutes(routes: seq<Route>, t: string, w: seq<int>, i: nat, decay: real -> real): seq<real>
    decreases |w| - i
  {
    if i >= |w| then []
    else (if w[i] != 0 then [BestRoute(routes, t, w, i, decay)] else []) + BestRoutes(routes, t, w, i + 1, decay)
  }

  function AllBestRoutes(routes: seq<Route>, d: OrderedDict<int>, decay: real -> real): seq<real> {
    if |d| == 0 then [] else BestRoutes(routes, d[0].0, d[0].1, 0, decay) + AllBestRoutes(routes, d[1..], decay)
  }

  /** Every score column a non-zero weight reads has a non-zero cell, and so
      has every column before it: none of them is dropped, so each keeps
      its position. */
  predicate ReadColumnsKept(routes: seq<Route>, d: OrderedDict<int>, decay: real -> real) {
    forall n, j :: 0 <= n < |d| && 0 <= j < |d[n].1| && d[n].1[j] != 0 ==>
      KeptThrough(RawScoreColumns(routes, d, decay), NonZero, j)
  }

  /** When the score columns the non-zero weights read survive, a building
      of more than one cell scores the sum, over the POI types and their
      non-zero weights, of the best weighted, accident-scaled route of the
      type (0 without one), divided by the sum of all weights. */
  lemma BuildingScoreIsBestRoutes(routes: seq<Route>, d: OrderedDict<int>, decay: real -> real)
    requires DistinctKeys(d)
    requires ReadColumnsKept(routes, d, decay)
    requires Size(ScoreRoutes(routes, d, decay)) > 1 && TotalWeight(d) != 0
    ensures CalcBuildingScore(ScoreRoutes(routes, d, decay), d)
              == Ok(Num(RealSum(AllBestRoutes(routes, d, decay)) / (TotalWeight(d) as real)))
  {
    var s := ScoreRoutes(routes, d, decay);
    var raw := RawScoreColumns(routes, d, decay);
    forall n, j | 0 <= n < |d| && 0 <= j < |d[n].1| && d[n].1[j] != 0
      ensures Contribution(s, d[n].0, j) == Ok(Num(BestRoute(routes, d[n].0, d[n].1, j, decay)))
    {
      assert KeptThrough(raw, NonZero, j);
      assert j < |s.scores| && s.scores[j] == raw[j];
      ContributionIsBestRoute(s, routes, d, decay, n, j);
    }
    ScoreListMatches(s, routes, d, decay);
    CellSumOfNumbers(AllBestRoutes(routes, d, decay));
  }

  /** With weights of the shape `[w, 0, 0]`, as every persona has, only the
      first score column is read: once it has a non-zero cell, a building of
      more than one cell scores the sum of each type's best route, divided
      by the sum of the weights. */
  lemma FirstRankBuildingScore(routes: seq<Route>, d: OrderedDict<int>, decay: real -> real)
    requires DistinctKeys(d) && FirstRankOnly(d) && |d| > 0
    requires NonZero(RawScoreColumns(routes, d, decay)[0])
    requires Size(ScoreRoutes(routes, d, decay)) > 1
    ensures TotalWeight(d) > 0
    ensures CalcBuildingScore(ScoreRoutes(routes, d, decay), d)
              == Ok(Num(RealSum(AllBestRoutes(routes, d, decay)) / (TotalWeight(d) as real)))
  {
    FirstRankWeightPositive(d);
    FirstRankReadsFirstColumn(routes, d, decay);
    BuildingScoreIsBestRoutes(routes, d, decay);
  }

  lemma FirstRankReadsFirstColumn(routes: seq<Route>, d: OrderedDict<int>, decay: real -> real)
    requires FirstRankOnly(d) && |d| > 0
    requires NonZero(RawScoreColumns(routes, d, decay)[0])
    ensures ReadColumnsKept(routes, d, decay)
  {
    var raw := RawScoreColumns(routes, d, decay);
    assert KeptThrough(raw, NonZero, 0);
    forall n, j | 0 <= n < |d| && 0 <= j < |d[n].1| && d[n].1[j] != 0
      ensures KeptThrough(raw, NonZero, j)
    {
      assert d[n] in d;
      assert FirstRankShape(d[n].1);
    }
  }

  lemma {:induction false} FirstRankWeightPositive(d: OrderedDict<int>)
    requires FirstRankOnly(d) && |d| > 0
    ensures TotalWeight(d) > 0
    decreases |d|
  {
    assert d[0] in d;
    var w := d[0].1;
    assert SumInts(w) == w[0] + SumInts(w[1..]);
    assert SumInts(w[1..]) == w[1] + SumInts(w[2..]);
    assert SumInts(w[2..]) == w[2] + SumInts(w[3..]);
    assert SumInts(w) == w[0];
    if |d| > 1 {
      assert forall e :: e in d[1..] ==> e in d;
      FirstRankWeightPositive(d[1..]);
    }
  }

  /** The entries of all types are the best routes when each entry is. */
  lemma {:induction false} ScoreListMatches(s: Scored, routes: seq<Route>, d: OrderedDict<int>, decay: real -> real)
    requires forall n, j :: 0 <= n < |d| && 0 <= j < |d[n].1| && d[n].1[j] != 0 ==>
               Contribution(s, d[n].0, j) == Ok(Num(BestRoute(routes, d[n].0, d[n].1, j, decay)))
    ensures ScoreList(s, d) == Ok(Nums(AllBestRoutes(routes, d, decay)))
  {
    if |d| > 0 {
      var a := BestRoutes(routes, d[0].0, d[0].1, 0, decay);
      var b := AllBestRoutes(routes, d[1..], decay);
      ContributionsOfTail(s, routes, d, decay);
      ScoreListMatches(s, routes, d[1..], decay);
      TypeScoresMatch(s, routes, d[0].0, d[0].1, decay, 0);
      ScoreListCons(s, d, a, b);
    }
  }

  lemma ScoreListCons(s: Scored, d: OrderedDict<int>, a: seq<real>, b: seq<real>)
    requires |d| > 0
    requires TypeScores(s, d[0].0, d[0].1, 0) == Ok(Nums(a))
    requires ScoreList(s, d[1..]) == Ok(Nums(b))
    ensures ScoreList(s, d) == Ok(Nums(a + b))
  {
    assert ScoreList(s, d) == Ok(Nums(a) + Nums(b));
    NumsAppend(a, b);
  }

  lemma NumsAppend(a: seq<real>, b: seq<real>)
    ensures Nums(a + b) == Nums(a) + Nums(b)
  {
    assert forall i :: 0 <= i < |a + b| ==> Nums(a + b)[i] == (Nums(a) + Nums(b))[i];
  }

  lemma ContributionsOfTail(s: Scored, routes: seq<Route>, d: OrderedDict<int>, decay: real -> real)
    requires |d| > 0
    requires forall n, j :: 0 <= n < |d| && 0 <= j < |d[n].1| && d[n].1[j] != 0 ==>
               Contribution(s, d[n].0, j) == Ok(Num(BestRoute(routes, d[n].0, d[n].1, j, decay)))
    ensures forall n, j :: 0 <= n < |d[1..]| && 0 <= j < |d[1..][n].1| && d[1..][n].1[j] != 0 ==>
               Contribution(s, d[1..][n].0, j) == Ok(Num(BestRoute(routes, d[1..][n].0, d[1..][n].1, j, decay)))
  {
    forall n, j | 0 <= n < |d| - 1 && 0 <= j < |d[1..][n].1| && d[1..][n].1[j] != 0
      ensures Contribution(s, d[1..][n].0, j) == Ok(Num(BestRoute(routes, d[1..][n].0, d[1..][n].1, j, decay)))
    {
      assert d[1..][n] == d[n + 1];
    }
  }

  /** The entries of one type are its best routes when each entry is. */
  lemma {:induction false} TypeScoresMatch(s: Scored, routes: seq<Route>, t: string, w: seq<int>, decay: real -> real, i: nat)
    requires forall j :: i <= j < |w| && w[j] != 0 ==> Contribution(s, t, j) == Ok(Num(BestRoute(routes, t, w, j, decay)))
    ensures TypeScores(s, t, w, i) == Ok(Nums(BestRoutes(routes, t, w, i, decay)))
    decreases |w| - i
  {
    if i < |w| {
      TypeScoresMatch(s, routes, t, w, decay, i + 1);
      var rest := BestRoutes(routes, t, w, i + 1, decay);
      if w[i] != 0 {
        var b := BestRoute(routes, t, w, i, decay);
        assert TypeScores(s, t, w, i) == Ok([Num(b)] + Nums(rest));
        assert Nums([b]) == [Num(b)];
        NumsAppend([b], rest);
      } else {
        assert TypeScores(s, t, w, i) == Ok([] + Nums(rest));
        assert BestRoutes(routes, t, w, i, decay) == [] + rest == rest;
        assert [] + Nums(rest) == Nums(rest);
      }
    }
  }

  lemma ContributionIsBestRoute(s: Scored, routes: seq<Route>, d: OrderedDict<int>, decay: real -> real, n: nat, i: nat)
    requires n < |d| && DistinctKeys(d) && i < |d[n].1| && s.routes == routes
    requires i < |s.scores| && i < MaxWidth(d) && s.scores[i] == RawScoreColumns(routes, d, decay)[i]
    ensures Contribution(s, d[n].0, i) == Ok(Num(BestRoute(routes, d[n].0, d[n].1, i, decay)))
  {
    var t, w := d[n].0, d[n].1;
    var rows := TypeRows(routes, t);
    if |rows| > 0 {
      assert |w| <= MaxWidth(d);
      var values := seq(|rows|, k requires 0 <= k < |rows| => RouteValue(routes[rows[k]], w, i, decay));
      var cells := seq(|rows|, k requires 0 <= k < |rows| => CellAt(s.scores[i], rows[k]));
      forall k | 0 <= k < |rows| ensures cells[k] == Nums(values)[k] {
        assert WeightOf(d, routes[rows[k]].poiType) == Some(w);
      }
      assert cells == Nums(values);
      PyMaxOfNumbers(values);
    }
  }
}

=== FILE: seqs.dfy ===
/** Row filters on sequences: a boolean mask applied to a frame keeps the
    selected rows in their original order. */
module Seqs {

  function Filter<T(!new)>(xs: seq<T>, keep: T -> bool): (r: seq<T>)
    ensures |r| <= |xs|
    ensures forall x :: x in r <==> x in xs && keep(x)
  {
    if |xs| == 0 then []
    else if keep(xs[0]) then [xs[0]] + Filter(xs[1..], keep)
    else Filter(xs[1..], keep)
  }

  /** Filtering a concatenation filters each part. */
  lemma {:induction false} FilterAppend<T(!new)>(xs: seq<T>, ys: seq<T>, keep: T -> bool)
    ensures Filter(xs + ys, keep) == Filter(xs, keep) + Filter(ys, keep)
    decreases |xs|
  {
    if |xs| > 0 {
      assert (xs + ys)[0] == xs[0];
      assert (xs + ys)[1..] == xs[1..] + ys;
      FilterAppend(xs[1..], ys, keep);
    } else {
      assert xs + ys == ys;
    }
  }

  function Count<T>(xs: seq<T>, p: T -> bool): (n: nat)
    ensures n <= |xs|
  {
    if |xs| == 0 then 0 else (if p(xs[0]) then 1 else 0) + Count(xs[1..], p)
  }

  /** A filter keeps exactly the rows its mask counts. */
  lemma {:induction false} FilterLength<T(!new)>(xs: seq<T>, keep: T -> bool)
    ensures |Filter(xs, keep)| == Count(xs, keep)
    decreases |xs|
  {
    if |xs| > 0 {
      FilterLength(xs[1..], keep);
    }
  }

  /** A mask that selects every row keeps the frame as it is. */
  lemma {:induction false} FilterAll<T(!new)>(xs: seq<T>, keep: T -> bool)
    requires forall x :: x in xs ==> keep(x)
    ensures Filter(xs, keep) == xs
    decreases |xs|
  {
    if |xs| > 0 {
      assert xs[0] in xs;
      assert forall x :: x in xs[1..] ==> x in xs;
      FilterAll(xs[1..], keep);
      assert xs == [xs[0]] + xs[1..];
    }
  }

  /** A kept row lands after the kept rows before it: row `j` is at position
      `Count(xs[..j], keep)` of the filtered frame. */
  lemma FilterPosition<T(!new)>(xs: seq<T>, keep: T -> bool, j: nat)
    requires j < |xs| && keep(xs[j])
    ensures Count(xs[..j], keep) < |Filter(xs, keep)|
    ensures Filter(xs, keep)[Count(xs[..j], keep)] == xs[j]
  {
    assert xs == xs[..j] + xs[j..];
    FilterAppend(xs[..j], xs[j..], keep);
    FilterLength(xs[..j], keep);
    assert xs[j..][0] == xs[j];
    assert Filter(xs[j..], keep) == [xs[j]] + Filter(xs[j..][1..], keep);
  }

  /** A mask that selects every row counts them all. */
  lemma {:induction false} CountAll<T>(xs: seq<T>, keep: T -> bool)
    requires forall k :: 0 <= k < |xs| ==> keep(xs[k])
    ensures Count(xs, keep) == |xs|
    decreases |xs|
  {
    if |xs| > 0 {
      assert forall k :: 0 <= k < |xs| - 1 ==> xs[1..][k] == xs[k + 1];
      CountAll(xs[1..], keep);
    }
  }

  /** Where every kept row lands: the filtered frame has as many rows as the
      mask counts, and row `j` sits after the kept rows before it. */
  lemma FilterPositions<T(!new)>(xs: seq<T>, keep: T -> bool)
    ensures |Filter(xs, keep)| == Count(xs, keep)
    ensures forall j :: 0 <= j < |xs| && keep(xs[j]) ==>
              Count(xs[..j], keep) < |Filter(xs, keep)| && Filter(xs, keep)[Count(xs[..j], keep)] == xs[j]
  {
    FilterLength(xs, keep);
    forall j | 0 <= j < |xs| && keep(xs[j])
      ensures Count(xs[..j], keep) < |Filter(xs, keep)| && Filter(xs, keep)[Count(xs[..j], keep)] == xs[j]
    {
      FilterPosition(xs, keep, j);
    }
  }

  /** The mask selects rows `0` to `j`. */
  predicate KeptThrough<T>(xs: seq<T>, keep: T -> bool, j: int) {
    forall k :: 0 <= k <= j && k < |xs| ==> keep(xs[k])
  }

  /** A kept row whose predecessors are all kept keeps its position. */
  lemma FilterKeepsPositions<T(!new)>(xs: seq<T>, keep: T -> bool)
    ensures forall j :: 0 <= j < |xs| && KeptThrough(xs, keep, j) ==>
              j < |Filter(xs, keep)| && Filter(xs, keep)[j] == xs[j]
  {
    forall j | 0 <= j < |xs| && KeptThrough(xs, keep, j)
      ensures j < |Filter(xs, keep)| && Filter(xs, keep)[j] == xs[j]
    {
      FilterKeepsPosition(xs, keep, j);
    }
  }

  lemma FilterKeepsPosition<T(!new)>(xs: seq<T>, keep: T -> bool, j: nat)
    requires j < |xs| && KeptThrough(xs, keep, j)
    ensures j < |Filter(xs, keep)| && Filter(xs, keep)[j] == xs[j]
  {
    var prefix := xs[..j];
    assert forall k :: 0 <= k < |prefix| ==> keep(prefix[k]) by {
      forall k | 0 <= k < |prefix| ensures keep(prefix[k]) {
        assert prefix[k] == xs[k];
      }
    }
    CountAll(prefix, keep);
    FilterPosition(xs, keep, j);
  }

  /** The positions `0 .. n - 1`. */
  function Range(n: nat): (r: seq<int>)
    ensures |r| == n && forall i :: 0 <= i < n ==> r[i] == i
  {
    seq(n, i => i)
  }
}

=== FILE: shortest_path.dfy ===
/** `calc_shortest_path_length(end_node, start_node, network)`: the length
    of the shortest route from the start node to the end node, summing the
    raw `length` of the arcs, or the sentinel 99999999 when the end cannot
    be reached. The network is a finite directed multigraph; its shortest
    path search is replaced by a Bellman-Ford relaxation whose result is
    proved to be the minimum over all paths. */
module ShortestPath {
  import opened Wrappers

  /** One directed arc with its raw length in metres. */
  datatype Arc = Arc(from: int, to: int, length: real)

  datatype Graph = Graph(nodes: set<int>, arcs: seq<Arc>)

  /** The sentinel for an unreachable end node. */
  const NoPath: real := 99999999.0

  /** Every arc joins two nodes of the graph and has a non-negative length. */
  predicate Valid(g: Graph) {
    forall i :: 0 <= i < |g.arcs| ==>
      g.arcs[i].from in g.nodes && g.arcs[i].to in g.nodes && g.arcs[i].length >= 0.0
  }

  // Paths

  predicate ArcIndices(g: Graph, p: seq<int>) {
    forall i :: 0 <= i < |p| ==> 0 <= p[i] < |g.arcs|
  }

  /** The node reached from `s` after the first `i` arcs of `p`. */
  function At(g: Graph, s: int, p: seq<int>, i: nat): int
    requires ArcIndices(g, p) && i <= |p|
  {
    if i == 0 then s else g.arcs[p[i - 1]].to
  }

  /** `p` lists arcs that lead one after the other from `s` to `t`. */
  predicate IsPath(g: Graph, s: int, t: int, p: seq<int>) {
    ArcIndices(g, p)
    && (forall i :: 0 <= i < |p| ==> g.arcs[p[i]].from == At(g, s, p, i))
    && At(g, s, p, |p|) == t
  }

  /** The summed raw length of a path's arcs. */
  function Length(g: Graph, p: seq<int>): real
    requires ArcIndices(g, p)
  {
    if |p| == 0 then 0.0 else Length(g, p[..|p| - 1]) + g.arcs[p[|p| - 1]].length
  }

  lemma {:induction false} LengthAppend(g: Graph, a: seq<int>, b: seq<int>)
    requires ArcIndices(g, a) && ArcIndices(g, b)
    ensures ArcIndices(g, a + b)
    ensures Length(g, a + b) == Length(g, a) + Length(g, b)
    decreases |b|
  {
    if |b| == 0 {
      assert a + b == a;
    } else {
      var b' := b[..|b| - 1];
      assert (a + b)[..|a + b| - 1] == a + b';
      LengthAppend(g, a, b');
    }
  }

  lemma {:induction false} LengthNonNegative(g: Graph, p: seq<int>)
    requires Valid(g) && ArcIndices(g, p)
    ensures Length(g, p) >= 0.0
    decreases |p|
  {
    if |p| > 0 {
      LengthNonNegative(g, p[..|p| - 1]);
    }
  }

  /** The first `i` arcs of a path lead to its `i`-th node. */
  lemma PathPrefix(g: Graph, s: int, t: int, p: seq<int>, i: nat)
    requires IsPath(g, s, t, p) && i <= |p|
    ensures IsPath(g, s, At(g, s, p, i), p[..i])
  {
    var q := p[..i];
    assert forall k :: 0 <= k < i ==> q[k] == p[k];
    forall k | 0 <= k <= i ensures At(g, s, q, k) == At(g, s, p, k) {
      if k > 0 {
        assert q[k - 1] == p[k - 1];
      }
    }
  }

  /** The arcs after the `i`-th node lead from it to the end. */
  lemma PathSuffix(g: Graph, s: int, t: int, p: seq<int>, i: nat)
    requires IsPath(g, s, t, p) && i <= |p|
    ensures IsPath(g, At(g, s, p, i), t, p[i..])
  {
    var q, m := p[i..], At(g, s, p, i);
    SuffixIndices(g, p, i);
    forall k | 0 <= k < |q| ensures g.arcs[q[k]].from == At(g, m, q, k) {
      AtSuffix(g, s, p, i, k);
      assert q[k] == p[i + k];
    }
    AtSuffix(g, s, p, i, |q|);
  }

  lemma SuffixIndices(g: Graph, p: seq<int>, i: nat)
    requires ArcIndices(g, p) && i <= |p|
    ensures ArcIndices(g, p[i..])
  {
    assert forall k :: 0 <= k < |p| - i ==> p[i..][k] == p[i + k];
  }

  /** The `k`-th node after cutting off `i` arcs is the `(i + k)`-th node. */
  lemma AtSuffix(g: Graph, s: int, p: seq<int>, i: nat, k: nat)
    requires ArcIndices(g, p) && i + k <= |p|
    ensures ArcIndices(g, p[i..])
    ensures At(g, At(g, s, p, i), p[i..], k) == At(g, s, p, i + k)
  {
    SuffixIndices(g, p, i);
    if k > 0 {
      assert p[i..][k - 1] == p[i + k - 1];
    }
  }

  /** Two paths that meet join into one. */
  lemma PathJoin(g: Graph, s: int, m: int, t: int, a: seq<int>, b: seq<int>)
    requires IsPath(g, s, m, a) && IsPath(g, m, t, b)
    ensures IsPath(g, s, t, a + b)
  {
    var p := a + b;
    forall k | 0 <= k <= |a| ensures At(g, s, p, k) == At(g, s, a, k) {
    }
    forall k | |a| <= k <= |p| ensures At(g, s, p, k) == At(g, m, b, k - |a|) {
    }
    forall k | 0 <= k < |p| ensures g.arcs[p[k]].from == At(g, s, p, k) {
      if k < |a| {
        assert p[k] == a[k];
      } else {
        assert p[k] == b[k - |a|];
      }
    }
  }

  /** Every node on a path from a node of the graph is a node of the graph. */
  lemma NodesOnPath(g: Graph, s: int, t: int, p: seq<int>)
    requires Valid(g) && s in g.nodes && IsPath(g, s, t, p)
    ensures forall i :: 0 <= i <= |p| ==> At(g, s, p, i) in g.nodes
  {
  }

  /** More positions than values forces a repeat. */
  lemma {:induction false} Pigeonhole(xs: seq<int>, values: set<int>)
    requires forall i :: 0 <= i < |xs| ==> xs[i] in values
    requires |xs| > |values|
    ensures exists i, j :: 0 <= i < j < |xs| && xs[i] == xs[j]
    decreases |xs|
  {
    var n := |xs| - 1;
    var last := xs[n];
    if exists i :: 0 <= i < n && xs[i] == last {
      var i :| 0 <= i < n && xs[i] == last;
      assert xs[i] == xs[n];
    } else {
      var rest := xs[..n];
      assert forall i :: 0 <= i < |rest| ==> rest[i] in values - {last};
      Pigeonhole(rest, values - {last});
      var i, j :| 0 <= i < j < |rest| && rest[i] == rest[j];
      assert xs[i] == xs[j];
    }
  }

  /** A path that repeats a node loses its cycle without getting longer. */
  lemma CutCycle(g: Graph, s: int, t: int, p: seq<int>, i: nat, j: nat)
    requires Valid(g) && IsPath(g, s, t, p) && i < j <= |p| && At(g, s, p, i) == At(g, s, p, j)
    ensures IsPath(g, s, t, p[..i] + p[j..])
    ensures Length(g, p[..i] + p[j..]) <= Length(g, p)
  {
    var m := At(g, s, p, i);
    PathPrefix(g, s, t, p, i);
    PathSuffix(g, s, t, p, j);
    PathJoin(g, s, m, t, p[..i], p[j..]);
    CutLength(g, p, i, j);
  }

  /** Leaving out a stretch of non-negative arcs does not lengthen a path. */
  lemma CutLength(g: Graph, p: seq<int>, i: nat, j: nat)
    requires Valid(g) && ArcIndices(g, p) && i <= j <= |p|
    ensures ArcIndices(g, p[..i] + p[j..])
    ensures Length(g, p[..i] + p[j..]) <= Length(g, p)
  {
    var a, b, c := p[..i], p[i..j], p[j..];
    assert p == a + b + c;
    LengthAppend(g, a, b);
    LengthAppend(g, a + b, c);
    LengthAppend(g, a, c);
    LengthNonNegative(g, b);
  }

  /** Some path with fewer arcs than the graph has nodes is no longer than
      any given path. */
  lemma {:induction false} ShortPath(g: Graph, s: int, t: int, p: seq<int>)
    requires Valid(g) && s in g.nodes && IsPath(g, s, t, p)
    ensures exists q :: IsPath(g, s, t, q) && |q| < |g.nodes| && Length(g, q) <= Length(g, p)
    decreases |p|
  {
    if |p| >= |g.nodes| {
      var visited := seq(|p| + 1, k requires 0 <= k <= |p| => At(g, s, p, k));
      NodesOnPath(g, s, t, p);
      Pigeonhole(visited, g.nodes);
      var i, j :| 0 <= i < j < |visited| && visited[i] == visited[j];
      CutCycle(g, s, t, p, i, j);
      ShortPath(g, s, t, p[..i] + p[j..]);
      var q :| IsPath(g, s, t, q) && |q| < |g.nodes| && Length(g, q) <= Length(g, p[..i] + p[j..]);
    }
  }

  // Bellman-Ford relaxation

  /** The smaller of two optional lengths; a missing one does not count. */
  function MinOpt(a: Option<real>, b: Option<real>): (r: Option<real>)
    ensures r.Some? <==> a.Some? || b.Some?
    ensures r == a || r == b
    ensures r.Some? && a.Some? ==> r.value <= a.value
    ensures r.Some? && b.Some? ==> r.value <= b.value
  {
    if a.None? then b
    else if b.None? then a
    else if b.value < a.value then b else a
  }

  /** The shortest length from `s` to `v` over paths of at most `k` arcs. */
  function Dist(g: Graph, s: int, k: nat, v: int): Option<real>
    decreases k, 0, 0
  {
    if k == 0 then (if v == s then Some(0.0) else None)
    else MinOpt(Dist(g, s, k - 1, v), Via(g, s, k - 1, v, |g.arcs|))
  }

  /** The best of the first `n` arcs into `v` after at most `k` arcs. */
  function Via(g: Graph, s: int, k: nat, v: int, n: nat): Option<real>
    requires n <= |g.arcs|
    decreases k, 1, n
  {
    if n == 0 then None
    else
      var a := g.arcs[n - 1];
      var here := if a.to == v && Dist(g, s, k, a.from).Some? then Some(Dist(g, s, k, a.from).value + a.length) else None;
      MinOpt(Via(g, s, k, v, n - 1), here)
  }

  /** A relaxed length is the length of some path with that many arcs. */
  lemma {:induction false} DistSound(g: Graph, s: int, k: nat, v: int)
    requires Dist(g, s, k, v).Some?
    ensures exists p :: IsPath(g, s, v, p) && |p| <= k && Length(g, p) == Dist(g, s, k, v).value
    decreases k, 0, 0
  {
    if k == 0 {
      assert IsPath(g, s, v, []);
    } else if Dist(g, s, k, v) == Dist(g, s, k - 1, v) {
      DistSound(g, s, k - 1, v);
    } else {
      ViaSound(g, s, k - 1, v, |g.arcs|);
    }
  }

  lemma {:induction false} ViaSound(g: Graph, s: int, k: nat, v: int, n: nat)
    requires n <= |g.arcs| && Via(g, s, k, v, n).Some?
    ensures exists p :: IsPath(g, s, v, p) && |p| <= k + 1 && Length(g, p) == Via(g, s, k, v, n).value
    decreases k, 1, n
  {
    var a := g.arcs[n - 1];
    if Via(g, s, k, v, n) == Via(g, s, k, v, n - 1) {
      ViaSound(g, s, k, v, n - 1);
    } else {
      assert a.to == v && Dist(g, s, k, a.from).Some?;
      assert Via(g, s, k, v, n).value == Dist(g, s, k, a.from).value + a.length;
      DistSound(g, s, k, a.from);
      var p :| IsPath(g, s, a.from, p) && |p| <= k && Length(g, p) == Dist(g, s, k, a.from).value;
      ExtendPath(g, s, a.from, p, n - 1);
    }
  }

  /** A path followed by an arc out of its end is a path one arc longer. */
  lemma ExtendPath(g: Graph, s: int, u: int, p: seq<int>, e: nat)
    requires IsPath(g, s, u, p) && e < |g.arcs| && g.arcs[e].from == u
    ensures IsPath(g, s, g.arcs[e].to, p + [e])
    ensures Length(g, p + [e]) == Length(g, p) + g.arcs[e].length
  {
    var step := [e];
    assert IsPath(g, u, g.arcs[e].to, step) by {
      assert At(g, u, step, 1) == g.arcs[e].to;
    }
    PathJoin(g, s, u, g.arcs[e].to, p, step);
    assert (p + step)[..|p + step| - 1] == p;
  }

  /** An arc into `v` from a reached node bounds the relaxation through it. */
  lemma {:induction false} ViaBound(g: Graph, s: int, k: nat, v: int, n: nat, e: nat)
    requires n <= |g.arcs| && e < n && g.arcs[e].to == v && Dist(g, s, k, g.arcs[e].from).Some?
    ensures Via(g, s, k, v, n).Some?
    ensures Via(g, s, k, v, n).value <= Dist(g, s, k, g.arcs[e].from).value + g.arcs[e].length
    decreases n
  {
    if e < n - 1 {
      ViaBound(g, s, k, v, n - 1, e);
    }
  }

  /** Every path of at most `k` arcs is at least the relaxed length. */
  lemma {:induction false} DistOptimal(g: Graph, s: int, k: nat, v: int, p: seq<int>)
    requires IsPath(g, s, v, p) && |p| <= k
    ensures Dist(g, s, k, v).Some? && Dist(g, s, k, v).value <= Length(g, p)
    decreases k, 1
  {
    if k == 0 {
      assert p == [] && v == s;
      assert Dist(g, s, 0, v) == Some(0.0);
    } else if |p| < k {
      DistOptimal(g, s, k - 1, v, p);
      var d := Dist(g, s, k - 1, v);
      assert Dist(g, s, k, v) == MinOpt(d, Via(g, s, k - 1, v, |g.arcs|));
    } else {
      DistOptimalLastArc(g, s, k, v, p);
    }
  }

  /** A path of exactly `k` arcs is bounded through its last arc. */
  lemma {:induction false} DistOptimalLastArc(g: Graph, s: int, k: nat, v: int, p: seq<int>)
    requires IsPath(g, s, v, p) && |p| == k && k > 0
    ensures Dist(g, s, k, v).Some? && Dist(g, s, k, v).value <= Length(g, p)
    decreases k, 0
  {
    var last := p[k - 1];
    var u := g.arcs[last].from;
    assert u == At(g, s, p, k - 1);
    assert g.arcs[last].to == v;
    PathPrefix(g, s, v, p, k - 1);
    var front := p[..k - 1];
    DistOptimal(g, s, k - 1, u, front);
    ViaBound(g, s, k - 1, v, |g.arcs|, last);
    assert Length(g, p) == Length(g, front) + g.arcs[last].length;
    var via := Via(g, s, k - 1, v, |g.arcs|);
    assert Dist(g, s, k, v) == MinOpt(Dist(g, s, k - 1, v), via);
    assert via.value <= Length(g, front) + g.arcs[last].length;
  }

  /** After one round fewer than the graph has nodes the relaxation is the
      shortest length over all paths, and it is defined exactly when a path
      exists. */
  lemma Shortest(g: Graph, s: int, t: int)
    requires Valid(g) && s in g.nodes
    ensures Dist(g, s, |g.nodes| - 1, t).Some? <==> exists p :: IsPath(g, s, t, p)
    ensures Dist(g, s, |g.nodes| - 1, t).Some? ==>
              (exists p :: IsPath(g, s, t, p) && Length(g, p) == Dist(g, s, |g.nodes| - 1, t).value)
              && forall p :: IsPath(g, s, t, p) ==> Dist(g, s, |g.nodes| - 1, t).value <= Length(g, p)
  {
    var k := |g.nodes| - 1;
    if Dist(g, s, k, t).Some? {
      DistSound(g, s, k, t);
    }
    forall p | IsPath(g, s, t, p) ensures Dist(g, s, k, t).Some? && Dist(g, s, k, t).value <= Length(g, p) {
      ShortPath(g, s, t, p);
      var q :| IsPath(g, s, t, q) && |q| < |g.nodes| && Length(g, q) <= Length(g, p);
      DistOptimal(g, s, k, t, q);
    }
  }

  /** `calc_shortest_path_length(end_node, start_node, network)`: a node
      missing from the network raises NodeNotFound; an unreachable end node
      gives the sentinel; otherwise the result is the length of a path from
      the start to the end that no other path undercuts. */
  function ShortestPathLength(g: Graph, end: int, start: int): (r: Result<real>)
    requires Valid(g)
    ensures r.Err? <==> start !in g.nodes || end !in g.nodes
    ensures r.Err? ==> r.error == NodeNotFound(if start !in g.nodes then start else end)
    ensures r.Ok? && !(exists p :: IsPath(g, start, end, p)) ==> r.value == NoPath
    ensures r.Ok? && (exists p :: IsPath(g, start, end, p)) ==>
              (exists p :: IsPath(g, start, end, p) && Length(g, p) == r.value)
              && forall p :: IsPath(g, start, end, p) ==> r.value <= Length(g, p)
  {
    if start !in g.nodes then Err(NodeNotFound(start))
    else if end !in g.nodes then Err(NodeNotFound(end))
    else
      Shortest(g, start, end);
      var d := Dist(g, start, |g.nodes| - 1, end);
      if d.Some? then Ok(d.value) else Ok(NoPath)
  }

  /** A start node that is its own end is at distance 0. */
  lemma SameNodeIsZero(g: Graph, n: int)
    requires Valid(g) && n in g.nodes
    ensures ShortestPathLength(g, n, n) == Ok(0.0)
  {
    assert IsPath(g, n, n, []);
    var r := ShortestPathLength(g, n, n);
    var p :| IsPath(g, n, n, p) && Length(g, p) == r.value;
    LengthNonNegative(g, p);
  }

  /** The end node comes first: on a one-way arc from 1 to 2 of length 5,
      the call with end 2 and start 1 finds the arc, and the call with the
      arguments the other way round finds no path. */
  lemma EndNodeFirst()
    ensures ShortestPathLength(Graph({1, 2}, [Arc(1, 2, 5.0)]), 2, 1) == Ok(5.0)
    ensures ShortestPathLength(Graph({1, 2}, [Arc(1, 2, 5.0)]), 1, 2) == Ok(NoPath)
  {
    var g := Graph({1, 2}, [Arc(1, 2, 5.0)]);
    assert |g.nodes| == 2 by { assert g.nodes == {1} + {2}; }
    assert IsPath(g, 1, 2, [0]) by { assert At(g, 1, [0], 1) == 2; }
    var r := ShortestPathLength(g, 2, 1);
    var p :| IsPath(g, 1, 2, p) && Length(g, p) == r.value;
    OneArcPaths(g, 1, 2, p);
    assert !exists p :: IsPath(g, 2, 1, p) by {
      forall p | IsPath(g, 2, 1, p) ensures false {
        OneArcPaths(g, 2, 1, p);
      }
    }
  }

  /** In the graph with the single arc 1 -> 2, a path between different
      nodes is that arc. */
  lemma OneArcPaths(g: Graph, s: int, t: int, p: seq<int>)
    requires g == Graph({1, 2}, [Arc(1, 2, 5.0)]) && IsPath(g, s, t, p) && s != t
    ensures s == 1 && t == 2 && p == [0] && Length(g, p) == 5.0
  {
    assert |p| == 1;
    assert p[..0] == [];
  }
}

=== FILE: suitability_rules.dfy ===
/** The separation and surface rule lists of `Suitability.score_route_separation`
    and `Suitability.score_route_surfaces` (suitability.py), and the
    normalisation of the `surface` tag that precedes surface scoring. */
module SuitabilityRules {
  import opened Wrappers
  import opened Text
  import opened Cascade

  const Sidepaths: seq<string> := ["use_sidepath", "optional_sidepath"]

  /** `highway == "cycleway" | bicycle_road == "yes"`. */
  function CyclewayCond(): Cond {
    Or(In(Highway, ["cycleway"]), In(BicycleRoad, ["yes"]))
  }

  function MotorTrafficCond(): Cond {
    In(MotorVehicle, ["yes"])
  }

  /** The eleven separation rules by highway class, sidepath flag and
      `cycleway` subtype, in the order they run. Both versions of the
      separation scoring share them. */
  function ClassRules(): seq<Rule> {
    HighwayClassRules() + CyclewayTypeRules()
  }

  /** The first seven: highway class and sidepath flag. */
  function HighwayClassRules(): seq<Rule> {
    [ Rule(In(Highway, ["motorway"]), 0),
      Rule(In(Highway, ["unclassified"]), 2),
      Rule(In(Bicycle, Sidepaths), 3),
      Rule(In(Highway, ["primary", "secondary", "rest"]), 1),
      Rule(In(Highway, ["tertiary", "trunk", "residential", "road", "bus", "busway", "construction"]), 2),
      Rule(In(Highway, ["living_street", "services", "service", "pedestrian", "living", "steps"]), 3),
      Rule(In(Highway, ["track", "bridleway", "footway", "path"]), 4) ]
  }

  /** The last four: the `cycleway` subtype. */
  function CyclewayTypeRules(): seq<Rule> {
    [ Rule(In(Cycleway, ["no", "shared_lane"]), 1),
      Rule(In(Cycleway, ["opposite_lane"]), 2),
      Rule(In(Cycleway, ["lane", "buffer", "opposite", "opposite_share_busway"]), 3),
      Rule(In(Cycleway, ["share_busway", "track", "opposite_track"]), 4) ]
  }

  /** The score the class rules leave, read from the most specific evidence
      down: the `cycleway` subtype, then the highway class, then the sidepath
      flag, then the two defaults, then `fallback`. */
  function ClassScore(s: Segment, fallback: int): (r: int)
    ensures r == fallback || 0 <= r <= 5
  {
    CyclewayTypeScore(s, HighwayClassScore(s, fallback))
  }

  function CyclewayTypeScore(s: Segment, fallback: int): int {
    if IsIn(s.cycleway, ["share_busway", "track", "opposite_track"]) then 4
    else if IsIn(s.cycleway, ["lane", "buffer", "opposite", "opposite_share_busway"]) then 3
    else if IsIn(s.cycleway, ["opposite_lane"]) then 2
    else if IsIn(s.cycleway, ["no", "shared_lane"]) then 1
    else fallback
  }

  function HighwayClassScore(s: Segment, fallback: int): int {
    if IsIn(s.highway, ["track", "bridleway", "footway", "path"]) then 4
    else if IsIn(s.highway, ["living_street", "services", "service", "pedestrian", "living", "steps"]) then 3
    else if IsIn(s.highway, ["tertiary", "trunk", "residential", "road", "bus", "busway", "construction"]) then 2
    else if IsIn(s.highway, ["primary", "secondary", "rest"]) then 1
    else if IsIn(s.bicycle, Sidepaths) then 3
    else if IsIn(s.highway, ["unclassified"]) then 2
    else if IsIn(s.highway, ["motorway"]) then 0
    else fallback
  }

  lemma ClassRulesGiveClassScore(s: Segment, acc: int)
    ensures Apply(ClassRules(), s, acc) == ClassScore(s, acc)
  {
    ApplyAppend(HighwayClassRules(), CyclewayTypeRules(), s, acc);
    HighwayClassRulesGiveScore(s, acc);
    CyclewayTypeRulesGiveScore(s, Apply(HighwayClassRules(), s, acc));
  }

  lemma HighwayClassRulesGiveScore(s: Segment, acc: int)
    ensures Apply(HighwayClassRules(), s, acc) == HighwayClassScore(s, acc)
  {
    var r := HighwayClassRules();
    assert ApplyFirst(r, 7, s, acc) == if Matches(r[6].when, s) then r[6].score else ApplyFirst(r, 6, s, acc);
    assert ApplyFirst(r, 6, s, acc) == if Matches(r[5].when, s) then r[5].score else ApplyFirst(r, 5, s, acc);
    assert ApplyFirst(r, 5, s, acc) == if Matches(r[4].when, s) then r[4].score else ApplyFirst(r, 4, s, acc);
    assert ApplyFirst(r, 4, s, acc) == if Matches(r[3].when, s) then r[3].score else ApplyFirst(r, 3, s, acc);
    assert ApplyFirst(r, 3, s, acc) == if Matches(r[2].when, s) then r[2].score else ApplyFirst(r, 2, s, acc);
    assert ApplyFirst(r, 2, s, acc) == if Matches(r[1].when, s) then r[1].score else ApplyFirst(r, 1, s, acc);
    assert ApplyFirst(r, 1, s, acc) == if Matches(r[0].when, s) then r[0].score else ApplyFirst(r, 0, s, acc);
  }

  lemma CyclewayTypeRulesGiveScore(s: Segment, acc: int)
    ensures Apply(CyclewayTypeRules(), s, acc) == CyclewayTypeScore(s, acc)
  {
    var r := CyclewayTypeRules();
    assert ApplyFirst(r, 4, s, acc) == if Matches(r[3].when, s) then r[3].score else ApplyFirst(r, 3, s, acc);
    assert ApplyFirst(r, 3, s, acc) == if Matches(r[2].when, s) then r[2].score else ApplyFirst(r, 2, s, acc);
    assert ApplyFirst(r, 2, s, acc) == if Matches(r[1].when, s) then r[1].score else ApplyFirst(r, 1, s, acc);
    assert ApplyFirst(r, 1, s, acc) == if Matches(r[0].when, s) then r[0].score else ApplyFirst(r, 0, s, acc);
  }

  /** The thirteen separation rules: the class rules, then the cycleway
      verdict split by motor traffic. */
  function SeparationRules(): seq<Rule> {
    ClassRules() + [Rule(And(CyclewayCond(), MotorTrafficCond()), 4), Rule(And(CyclewayCond(), Not(MotorTrafficCond())), 5)]
  }

  function Separation(s: Segment): int {
    Apply(SeparationRules(), s, Unscored)
  }

  predicate IsCycleway(s: Segment) {
    IsIn(s.highway, ["cycleway"]) || IsIn(s.bicycleRoad, ["yes"])
  }

  /** The separation score read from the most specific evidence down: the
      cycleway verdict first, then the class rules. */
  function SeparationByPriority(s: Segment): int {
    if IsCycleway(s) then (if IsIn(s.motorVehicle, ["yes"]) then 4 else 5)
    else ClassScore(s, Unscored)
  }

  lemma SeparationIsPriority(s: Segment)
    ensures Separation(s) == SeparationByPriority(s)
  {
    var verdict := [Rule(And(CyclewayCond(), MotorTrafficCond()), 4), Rule(And(CyclewayCond(), Not(MotorTrafficCond())), 5)];
    ApplyAppend(ClassRules(), verdict, s, Unscored);
    ClassRulesGiveClassScore(s, Unscored);
    assert Matches(CyclewayCond(), s) <==> IsCycleway(s);
    assert Matches(verdict[0].when, s) <==> IsCycleway(s) && IsIn(s.motorVehicle, ["yes"]);
    assert Matches(verdict[1].when, s) <==> IsCycleway(s) && !IsIn(s.motorVehicle, ["yes"]);
    var r := verdict;
    var acc := Apply(ClassRules(), s, Unscored);
    assert ApplyFirst(r, 2, s, acc) == if Matches(r[1].when, s) then r[1].score else ApplyFirst(r, 1, s, acc);
    assert ApplyFirst(r, 1, s, acc) == if Matches(r[0].when, s) then r[0].score else ApplyFirst(r, 0, s, acc);
  }

  /** Consequences of the priority reading: the cycleway verdict is final, a
      `cycleway` subtype beats the highway class, and a highway class beats
      the sidepath flag. */
  lemma CyclewayVerdictIsFinal(s: Segment)
    requires IsCycleway(s)
    ensures Separation(s) == if IsIn(s.motorVehicle, ["yes"]) then 4 else 5
  {
    SeparationIsPriority(s);
  }

  lemma SeparationRange(s: Segment)
    ensures Separation(s) == Unscored || 0 <= Separation(s) <= 5
  {
    SeparationIsPriority(s);
  }

  /** A segment with no tag set. */
  function Untagged(id: int): (s: Segment)
    ensures s.id == id
    ensures forall t :: Get(s, t) == None
  {
    Segment(id, None, None, None, None, None, None, None, None, None)
  }

  /** Example: a `cycleway` subtype beats the highway class. */
  lemma SeparationPrimaryWithTrack(id: int)
    ensures Separation(Untagged(id).(highway := Some("primary"), cycleway := Some("track"))) == 4
  {
    SeparationIsPriority(Untagged(id).(highway := Some("primary"), cycleway := Some("track")));
  }

  /** Example: the highway class beats the sidepath flag. */
  lemma SeparationPrimaryWithSidepath(id: int)
    ensures Separation(Untagged(id).(highway := Some("primary"), bicycle := Some("use_sidepath"))) == 1
  {
    SeparationIsPriority(Untagged(id).(highway := Some("primary"), bicycle := Some("use_sidepath")));
  }

  /** Example: the sidepath flag beats the unclassified default. */
  lemma SeparationUnclassifiedWithSidepath(id: int)
    ensures Separation(Untagged(id).(highway := Some("unclassified"), bicycle := Some("use_sidepath"))) == 3
  {
    SeparationIsPriority(Untagged(id).(highway := Some("unclassified"), bicycle := Some("use_sidepath")));
  }

  /** Example: the cycleway verdict beats a `cycleway` subtype. */
  lemma SeparationCyclewayWithLane(id: int)
    ensures Separation(Untagged(id).(highway := Some("cycleway"), cycleway := Some("lane"))) == 5
  {
    SeparationIsPriority(Untagged(id).(highway := Some("cycleway"), cycleway := Some("lane")));
  }

  /** Example: a bicycle road open to motor traffic. */
  lemma SeparationBicycleRoadWithTraffic(id: int)
    ensures Separation(Untagged(id).(bicycleRoad := Some("yes"), motorVehicle := Some("yes"))) == 4
  {
    SeparationIsPriority(Untagged(id).(bicycleRoad := Some("yes"), motorVehicle := Some("yes")));
  }

  /** Example: a motorway. */
  lemma SeparationMotorway(id: int)
    ensures Separation(Untagged(id).(highway := Some("motorway"))) == 0
  {
    SeparationIsPriority(Untagged(id).(highway := Some("motorway")));
  }

  /** Example: an unknown highway class stays unscored. */
  lemma SeparationUnknownHighway(id: int)
    ensures Separation(Untagged(id).(highway := Some("elevator"))) == Unscored
  {
    SeparationIsPriority(Untagged(id).(highway := Some("elevator")));
  }

  // ---------------------------------------------------------------------
  // Surface

  /** Replaces a value containing `word` by `word` itself (`str.contains`
      with `na=False`: a missing value is left alone). */
  function Generalise(v: Option<string>, word: string): (r: Option<string>)
    ensures r.None? <==> v.None?
    ensures v.Some? && Contains(v.value, word) ==> r == Some(word)
    ensures v.Some? && !Contains(v.value, word) ==> r == v
  {
    match v
    case Some(x) => if Contains(x, word) then Some(word) else v
    case None => None
  }

  /** The surface value the surface rules see: the three generalisations in
      order, then the cuts at ";" and at ":". */
  function NormaliseSurface(v: Option<string>): Option<string> {
    Cut(Cut(Generalise(Generalise(Generalise(v, "cobblestone"), "asphalt"), "concrete"), ";"), ":")
  }

  /** Every character of a substring occurs in the string. */
  lemma {:induction false} ContainsChars(s: string, p: string)
    requires Contains(s, p)
    ensures forall i :: 0 <= i < |p| ==> p[i] in s
    decreases |s|
  {
    if s[..|p|] != p {
      ContainsChars(s[1..], p);
      assert forall c :: c in s[1..] ==> c in s;
    } else {
      assert forall i :: 0 <= i < |p| ==> p[i] == s[i];
    }
  }

  lemma {:induction false} ContainsItself(s: string)
    ensures Contains(s, s)
  {
    assert s[..|s|] == s;
  }

  /** The normalisation, read as a decision: the first of "cobblestone",
      "asphalt", "concrete" that occurs wins; any other value is cut at the
      first ";" and then at the first ":"; a missing value stays missing. */
  lemma NormaliseSurfaceCases(v: Option<string>)
    ensures v.None? ==> NormaliseSurface(v).None?
    ensures v.Some? ==> NormaliseSurface(v) == Some(
      if Contains(v.value, "cobblestone") then "cobblestone"
      else if Contains(v.value, "asphalt") then "asphalt"
      else if Contains(v.value, "concrete") then "concrete"
      else Before(Before(v.value, ";"), ":"))
  {
    if v.Some? {
      SurfaceWordsDisjoint();
      SurfaceWordsUncut("cobblestone");
      SurfaceWordsUncut("asphalt");
      SurfaceWordsUncut("concrete");
    }
  }

  /** None of the three generalised words contains another. */
  lemma SurfaceWordsDisjoint()
    ensures Contains("cobblestone", "cobblestone") && Contains("asphalt", "asphalt") && Contains("concrete", "concrete")
    ensures !Contains("cobblestone", "asphalt") && !Contains("cobblestone", "concrete") && !Contains("asphalt", "concrete")
  {
    ContainsItself("concrete");
    ContainsItself("asphalt");
    ContainsItself("cobblestone");
    SurfaceWordsNotNested();
  }

  lemma SurfaceWordsNotNested()
    ensures !Contains("cobblestone", "asphalt") && !Contains("cobblestone", "concrete") && !Contains("asphalt", "concrete")
  {
    CobblestoneLacksAsphalt();
    CobblestoneLacksConcrete();
    AsphaltLacksConcrete();
  }

  lemma CobblestoneLacksAsphalt()
    ensures !Contains("cobblestone", "asphalt")
  {
    assert "asphalt"[0] == 'a';
    assert 'a' !in "cobblestone";
    MissingCharNotContained("cobblestone", "asphalt", 0);
  }

  lemma CobblestoneLacksConcrete()
    ensures !Contains("cobblestone", "concrete")
  {
    assert "concrete"[4] == 'r';
    assert 'r' !in "cobblestone";
    MissingCharNotContained("cobblestone", "concrete", 4);
  }

  lemma AsphaltLacksConcrete()
    ensures !Contains("asphalt", "concrete")
  {
    assert "concrete"[0] == 'c';
    assert 'c' !in "asphalt";
    MissingCharNotContained("asphalt", "concrete", 0);
  }

  lemma MissingCharNotContained(s: string, p: string, i: nat)
    requires i < |p| && p[i] !in s
    ensures !Contains(s, p)
  {
    if Contains(s, p) {
      ContainsChars(s, p);
    }
  }

  lemma SurfaceWordsUncut(w: string)
    requires w == "cobblestone" || w == "asphalt" || w == "concrete"
    ensures Before(Before(w, ";"), ":") == w
  {
    FindAbsent(w, ";");
    FindAbsent(w, ":");
  }

  /** The tracktype rules: grade g, written "g" or "gradeg", scores 6 - g. */
  function GradeRules(): seq<Rule> {
    [ Rule(In(Tracktype, ["1", "grade1"]), 5),
      Rule(In(Tracktype, ["2", "grade2"]), 4),
      Rule(In(Tracktype, ["3", "grade3"]), 3),
      Rule(In(Tracktype, ["4", "grade4"]), 2),
      Rule(In(Tracktype, ["5", "grade5"]), 1) ]
  }

  /** The six surface buckets of this version. "mud" is listed at 2 and at 1. */
  function MaterialRules(): seq<Rule> {
    [ Rule(In(Surface, ["asphalt", "concrete", "compacted", "tar", "1"]), 5),
      Rule(In(Surface, ["paved", "paving_stones", "bricks"]), 4),
      Rule(In(Surface, ["sett", "metal", "wood", "chipseal", "fine_gravel", "steel", "grass_paver"]), 3),
      Rule(In(Surface, ["rock", "dirt", "ground", "grit", "earth", "clay", "unpaved", "mud", "cobblestone"]), 2),
      Rule(In(Surface, ["gravel", "grass", "metal_grid", "mud", "sand", "woodchips", "pebblestone"]), 1),
      Rule(In(Surface, ["stepping_stones"]), 0) ]
  }

  /** The smoothness rules, the sidepath flag and impassable last. Both
      versions of the surface scoring end with them. */
  function FinishingRules(): seq<Rule> {
    [ Rule(In(Smoothness, ["excellent"]), 5),
      Rule(In(Smoothness, ["good"]), 4),
      Rule(In(Smoothness, ["intermediate"]), 3),
      Rule(In(Smoothness, ["bad", "very_bad"]), 2),
      Rule(In(Smoothness, ["horrible", "very_horrible"]), 1),
      Rule(In(Bicycle, Sidepaths), 3),
      Rule(In(Smoothness, ["impassable"]), 0) ]
  }

  /** The eighteen surface rules in the order they run. */
  function SurfaceRules(): seq<Rule> {
    GradeRules() + MaterialRules() + FinishingRules()
  }

  /** The segment as the surface rules see it. The tracktype rules run before
      the cuts at ";" and ":", but they do not read `surface`, so cutting first
      changes nothing. */
  function WithNormalisedSurface(s: Segment): Segment {
    s.(surface := NormaliseSurface(s.surface))
  }

  function SurfaceScore(s: Segment): int {
    Apply(SurfaceRules(), WithNormalisedSurface(s), Unscored)
  }

  /** No surface tag at all: smoothness, surface and tracktype are missing. */
  predicate MissingSurfaceData(s: Segment) {
    s.smoothness.None? && s.surface.None? && s.tracktype.None?
  }

  /** The tracktype grade as a score. */
  function GradeScore(s: Segment): (r: int)
    ensures r == Unscored || 1 <= r <= 5
  {
    if IsIn(s.tracktype, ["5", "grade5"]) then 1
    else if IsIn(s.tracktype, ["4", "grade4"]) then 2
    else if IsIn(s.tracktype, ["3", "grade3"]) then 3
    else if IsIn(s.tracktype, ["2", "grade2"]) then 4
    else if IsIn(s.tracktype, ["1", "grade1"]) then 5
    else Unscored
  }

  /** The surface bucket as a score, else `fallback`. */
  function MaterialScore(s: Segment, fallback: int): (r: int)
    ensures r == fallback || 0 <= r <= 5
  {
    if IsIn(s.surface, ["stepping_stones"]) then 0
    else if IsIn(s.surface, ["gravel", "grass", "metal_grid", "mud", "sand", "woodchips", "pebblestone"]) then 1
    else if IsIn(s.surface, ["rock", "dirt", "ground", "grit", "earth", "clay", "unpaved", "mud", "cobblestone"]) then 2
    else if IsIn(s.surface, ["sett", "metal", "wood", "chipseal", "fine_gravel", "steel", "grass_paver"]) then 3
    else if IsIn(s.surface, ["paved", "paving_stones", "bricks"]) then 4
    else if IsIn(s.surface, ["asphalt", "concrete", "compacted", "tar", "1"]) then 5
    else fallback
  }

  /** The finishing rules read from the most decisive down: impassable, the
      sidepath flag, smoothness, else `fallback`. */
  function FinishingScore(s: Segment, fallback: int): (r: int)
    ensures r == fallback || 0 <= r <= 5
  {
    if IsIn(s.smoothness, ["impassable"]) then 0
    else if IsIn(s.bicycle, Sidepaths) then 3
    else if IsIn(s.smoothness, ["horrible", "very_horrible"]) then 1
    else if IsIn(s.smoothness, ["bad", "very_bad"]) then 2
    else if IsIn(s.smoothness, ["intermediate"]) then 3
    else if IsIn(s.smoothness, ["good"]) then 4
    else if IsIn(s.smoothness, ["excellent"]) then 5
    else fallback
  }

  /** The surface score read from the most decisive evidence down. */
  function SurfaceByPriority(s: Segment): int {
    FinishingScore(s, MaterialScore(s, GradeScore(s)))
  }

  lemma GradeRulesGiveGradeScore(s: Segment)
    ensures Apply(GradeRules(), s, Unscored) == GradeScore(s)
  {
    var r := GradeRules();
    assert ApplyFirst(r, 5, s, Unscored) == if Matches(r[4].when, s) then r[4].score else ApplyFirst(r, 4, s, Unscored);
    assert ApplyFirst(r, 4, s, Unscored) == if Matches(r[3].when, s) then r[3].score else ApplyFirst(r, 3, s, Unscored);
    assert ApplyFirst(r, 3, s, Unscored) == if Matches(r[2].when, s) then r[2].score else ApplyFirst(r, 2, s, Unscored);
    assert ApplyFirst(r, 2, s, Unscored) == if Matches(r[1].when, s) then r[1].score else ApplyFirst(r, 1, s, Unscored);
    assert ApplyFirst(r, 1, s, Unscored) == if Matches(r[0].when, s) then r[0].score else ApplyFirst(r, 0, s, Unscored);
  }

  lemma MaterialRulesGiveMaterialScore(s: Segment, acc: int)
    ensures Apply(MaterialRules(), s, acc) == MaterialScore(s, acc)
  {
    var r := MaterialRules();
    assert ApplyFirst(r, 6, s, acc) == if Matches(r[5].when, s) then r[5].score else ApplyFirst(r, 5, s, acc);
    assert ApplyFirst(r, 5, s, acc) == if Matches(r[4].when, s) then r[4].score else ApplyFirst(r, 4, s, acc);
    assert ApplyFirst(r, 4, s, acc) == if Matches(r[3].when, s) then r[3].score else ApplyFirst(r, 3, s, acc);
    assert ApplyFirst(r, 3, s, acc) == if Matches(r[2].when, s) then r[2].score else ApplyFirst(r, 2, s, acc);
    assert ApplyFirst(r, 2, s, acc) == if Matches(r[1].when, s) then r[1].score else ApplyFirst(r, 1, s, acc);
    assert ApplyFirst(r, 1, s, acc) == if Matches(r[0].when, s) then r[0].score else ApplyFirst(r, 0, s, acc);
  }

  lemma FinishingRulesGiveFinishingScore(s: Segment, acc: int)
    ensures Apply(FinishingRules(), s, acc) == FinishingScore(s, acc)
  {
    var r := FinishingRules();
    assert ApplyFirst(r, 7, s, acc) == if Matches(r[6].when, s) then r[6].score else ApplyFirst(r, 6, s, acc);
    assert ApplyFirst(r, 6, s, acc) == if Matches(r[5].when, s) then r[5].score else ApplyFirst(r, 5, s, acc);
    assert ApplyFirst(r, 5, s, acc) == if Matches(r[4].when, s) then r[4].score else ApplyFirst(r, 4, s, acc);
    assert ApplyFirst(r, 4, s, acc) == if Matches(r[3].when, s) then r[3].score else ApplyFirst(r, 3, s, acc);
    assert ApplyFirst(r, 3, s, acc) == if Matches(r[2].when, s) then r[2].score else ApplyFirst(r, 2, s, acc);
    assert ApplyFirst(r, 2, s, acc) == if Matches(r[1].when, s) then r[1].score else ApplyFirst(r, 1, s, acc);
    assert ApplyFirst(r, 1, s, acc) == if Matches(r[0].when, s) then r[0].score else ApplyFirst(r, 0, s, acc);
  }

  lemma SurfaceIsPriority(s: Segment)
    ensures Apply(SurfaceRules(), s, Unscored) == SurfaceByPriority(s)
  {
    var g := Apply(GradeRules(), s, Unscored);
    var m := Apply(MaterialRules(), s, g);
    ApplyAppend(GradeRules(), MaterialRules(), s, Unscored);
    ApplyAppend(GradeRules() + MaterialRules(), FinishingRules(), s, Unscored);
    GradeRulesGiveGradeScore(s);
    MaterialRulesGiveMaterialScore(s, g);
    FinishingRulesGiveFinishingScore(s, m);
  }

  lemma SurfaceRange(s: Segment)
    ensures SurfaceScore(s) == Unscored || 0 <= SurfaceScore(s) <= 5
  {
    SurfaceIsPriority(WithNormalisedSurface(s));
  }

  /** Tracktype grade `g`, written "g" or "gradeg", scores `6 - g` when no
      surface, smoothness or sidepath rule applies. */
  lemma GradeScoreIsSixMinusGrade(s: Segment, g: nat)
    requires 1 <= g <= 5
    requires s.tracktype == Some(NatToString(g)) || s.tracktype == Some("grade" + NatToString(g))
    ensures GradeScore(s) == 6 - g
  {
    var d := NatToString(g);
    assert d == [(('0' as int) + g) as char];
    if g == 1 {
      assert d == "1" && "grade" + d == "grade1";
    } else if g == 2 {
      assert d == "2" && "grade" + d == "grade2";
    } else if g == 3 {
      assert d == "3" && "grade" + d == "grade3";
    } else if g == 4 {
      assert d == "4" && "grade" + d == "grade4";
    } else {
      assert d == "5" && "grade" + d == "grade5";
    }
  }

  /** Smoothness "impassable" is final; otherwise the sidepath flag is. */
  lemma ImpassableAndSidepathAreFinal(s: Segment)
    ensures IsIn(s.smoothness, ["impassable"]) ==> SurfaceScore(s) == 0
    ensures !IsIn(s.smoothness, ["impassable"]) && IsIn(s.bicycle, Sidepaths) ==> SurfaceScore(s) == 3
  {
    SurfaceIsPriority(WithNormalisedSurface(s));
  }

  /** "mud" is listed in two buckets; the later one, score 1, wins. */
  lemma MudScoresOne(id: int)
    ensures SurfaceScore(Untagged(id).(surface := Some("mud"))) == 1
  {
    var s := Untagged(id).(surface := Some("mud"));
    NormaliseSurfaceCases(s.surface);
    FindAbsent("mud", ";");
    FindAbsent("mud", ":");
    SurfaceIsPriority(WithNormalisedSurface(s));
  }
}

=== FILE: text.dfy ===
/** The handful of Python string operations the modelled code relies on:
    `in` on strings, `str.split`, `str.removeprefix`/`removesuffix`, `str(n)`
    for a natural number and `int(s)` for a decimal numeral. */
module Text {
  import opened Wrappers

  /** Python `p in s` for strings. */
  predicate Contains(s: string, p: string)
    decreases |s|
  {
    |p| <= |s| && (s[..|p|] == p || (|s| > 0 && Contains(s[1..], p)))
  }

  /** `sep` occurs in `s` starting at index `i`. */
  predicate OccursAt(s: string, sep: string, i: nat) {
    i + |sep| <= |s| && s[i..i + |sep|] == sep
  }

  /** Index of the first occurrence of `sep` in `s`, if any (`str.find`). */
  function Find(s: string, sep: string): (r: Option<nat>)
    requires |sep| > 0
    ensures r.Some? ==> OccursAt(s, sep, r.value)
    ensures r.Some? ==> forall i: nat :: i < r.value ==> !OccursAt(s, sep, i)
    ensures r.None? ==> forall i: nat :: !OccursAt(s, sep, i)
    decreases |s|
  {
    if |s| < |sep| then None
    else if s[..|sep|] == sep then Some(0)
    else
      assert forall i: nat | i >= 1 :: OccursAt(s, sep, i) <==> OccursAt(s[1..], sep, i - 1) by {
        forall i: nat | i >= 1 ensures OccursAt(s, sep, i) <==> OccursAt(s[1..], sep, i - 1) {
          if i + |sep| <= |s| {
            var t := s[1..];
            var a, b := t[i - 1..i - 1 + |sep|], s[i..i + |sep|];
            assert forall j | 0 <= j < |sep| :: a[j] == b[j];
            assert a == b;
          }
        }
      }
      assert !OccursAt(s, sep, 0);
      match Find(s[1..], sep)
      case None => None
      case Some(i) => Some(i + 1)
  }

  /** `s.split(sep, 1)[0]`: the part of `s` before the first `sep`. */
  function Before(s: string, sep: string): (r: string)
    requires |sep| > 0
    ensures |r| <= |s| && r == s[..|r|]
    ensures Find(s, sep).None? <==> r == s
  {
    match Find(s, sep)
    case None => s
    case Some(i) => s[..i]
  }

  /** `column.str.split(sep, n=1, expand=True)[0]` on one cell: the part
      before the first `sep`; a missing cell stays missing. */
  function Cut(v: Option<string>, sep: string): (r: Option<string>)
    requires |sep| > 0
    ensures r.None? <==> v.None?
    ensures r.Some? ==> r.value <= v.value
    ensures r.Some? && Find(v.value, sep).None? ==> r == v
  {
    match v
    case Some(x) => Some(Before(x, sep))
    case None => None
  }

  /** `s.split(sep)` (Python semantics: `"".split(sep) == [""]`). */
  function Split(s: string, sep: string): (r: seq<string>)
    requires |sep| > 0
    ensures |r| > 0
    decreases |s|
  {
    match Find(s, sep)
    case None => [s]
    case Some(i) => [s[..i]] + Split(s[i + |sep|..], sep)
  }

  /** `sep.join(pieces)`. */
  function Join(pieces: seq<string>, sep: string): string
  {
    if |pieces| == 0 then ""
    else if |pieces| == 1 then pieces[0]
    else pieces[0] + sep + Join(pieces[1..], sep)
  }

  /** `s.removeprefix(p)`. */
  function RemovePrefix(s: string, p: string): (r: string)
    ensures p <= s ==> p + r == s
    ensures !(p <= s) ==> r == s
  {
    if p <= s then s[|p|..] else s
  }

  /** `s.removesuffix(p)`. */
  function RemoveSuffix(s: string, p: string): (r: string)
    ensures |p| <= |s| && s[|s| - |p|..] == p ==> r + p == s
    ensures !(|p| <= |s| && s[|s| - |p|..] == p) ==> r == s
  {
    if |p| <= |s| && s[|s| - |p|..] == p then s[..|s| - |p|] else s
  }

  predicate IsDigit(c: char) {
    '0' <= c <= '9'
  }

  predicate AllDigits(s: string) {
    forall i :: 0 <= i < |s| ==> IsDigit(s[i])
  }

  /** The whitespace Python's `str.strip()` removes, restricted to ASCII. */
  predicate IsSpace(c: char) {
    c == ' ' || c == '\t' || c == '\n' || c == '\r' || c == '\U{000B}' || c == '\U{000C}'
  }

  function StripLeft(s: string): (r: string)
    ensures |r| <= |s|
    ensures |r| > 0 ==> !IsSpace(r[0])
    decreases |s|
  {
    if |s| > 0 && IsSpace(s[0]) then StripLeft(s[1..]) else s
  }

  function StripRight(s: string): (r: string)
    ensures |r| <= |s|
    ensures |r| > 0 ==> !IsSpace(r[|r| - 1])
    decreases |s|
  {
    if |s| > 0 && IsSpace(s[|s| - 1]) then StripRight(s[..|s| - 1]) else s
  }

  /** Value of a string of decimal digits. */
  function DigitsValue(s: string): nat
    requires AllDigits(s)
  {
    if |s| == 0 then 0
    else DigitsValue(s[..|s| - 1]) * 10 + (s[|s| - 1] as int - '0' as int)
  }

  /** Python `str(n)` for a natural number: decimal, no leading zeros. */
  function NatToString(n: nat): (r: string)
    ensures |r| > 0 && AllDigits(r)
  {
    var d := [(('0' as int) + n % 10) as char];
    if n < 10 then d else NatToString(n / 10) + d
  }

  /** Python `int(s)` on a base-10 numeral: surrounding whitespace, an optional
      sign, then one or more digits; anything else is a ValueError (None). */
  function ParseInt(s: string): (r: Option<int>)
  {
    var t := StripRight(StripLeft(s));
    if |t| > 0 && (t[0] == '+' || t[0] == '-') then
      var body := t[1..];
      if |body| > 0 && AllDigits(body) then
        Some(if t[0] == '-' then -(DigitsValue(body) as int) else DigitsValue(body))
      else None
    else if |t| > 0 && AllDigits(t) then Some(DigitsValue(t))
    else None
  }

  lemma {:induction false} DigitsOfNatToString(n: nat)
    ensures DigitsValue(NatToString(n)) == n
    decreases n
  {
    var d := [(('0' as int) + n % 10) as char];
    if n >= 10 {
      DigitsOfNatToString(n / 10);
      var s := NatToString(n / 10) + d;
      assert s[..|s| - 1] == NatToString(n / 10);
    }
  }

  /** `int(str(n)) == n`. */
  lemma ParseNatToString(n: nat)
    ensures ParseInt(NatToString(n)) == Some(n)
  {
    var s := NatToString(n);
    DigitsOfNatToString(n);
    assert StripLeft(s) == s;
    assert StripRight(s) == s;
  }

  /** Distinct numbers print differently. */
  lemma NatToStringInjective(m: nat, n: nat)
    requires NatToString(m) == NatToString(n)
    ensures m == n
  {
    DigitsOfNatToString(m);
    DigitsOfNatToString(n);
  }

  lemma {:induction false} FindAbsent(s: string, sep: string)
    requires |sep| > 0
    requires forall k :: 0 <= k < |s| ==> s[k] != sep[0]
    ensures Find(s, sep).None?
    decreases |s|
  {
    if |s| >= |sep| {
      assert s[..|sep|][0] == s[0];
      FindAbsent(s[1..], sep);
    }
  }

  lemma {:induction false} FindAfter(p: string, sep: string, rest: string)
    requires |sep| > 0
    requires forall k :: 0 <= k < |p| ==> p[k] != sep[0]
    ensures Find(p + sep + rest, sep) == Some(|p|)
    decreases |p|
  {
    var s := p + sep + rest;
    if |p| == 0 {
      assert s[..|sep|] == sep;
    } else {
      assert s[..|sep|][0] == p[0];
      assert s[1..] == p[1..] + sep + rest;
      FindAfter(p[1..], sep, rest);
    }
  }

  /** Splitting a joined list gives the list back when no piece contains the
      separator's first character. */
  lemma {:induction false} SplitJoin(pieces: seq<string>, sep: string)
    requires |sep| > 0 && |pieces| > 0
    requires forall i, k :: 0 <= i < |pieces| && 0 <= k < |pieces[i]| ==> pieces[i][k] != sep[0]
    ensures Split(Join(pieces, sep), sep) == pieces
    decreases |pieces|
  {
    if |pieces| == 1 {
      FindAbsent(pieces[0], sep);
    } else {
      var rest := Join(pieces[1..], sep);
      FindAfter(pieces[0], sep, rest);
      var s := pieces[0] + sep + rest;
      assert s[..|pieces[0]|] == pieces[0];
      assert s[|pieces[0]| + |sep|..] == rest;
      SplitJoin(pieces[1..], sep);
    }
  }
}

=== FILE: wrappers.dfy ===
/** Optional values and fallible results shared by every module of the model.
    A missing pandas cell (NaN or None) is `None`; an exception raised by the
    program (KeyError, ValueError, ZeroDivisionError, ...) is `Err`. */
module Wrappers {

  datatype Option<+T> = None | Some(value: T) {

    /** The value, or `default` when missing (pandas `fillna`). */
    function GetOr(default: T): T {
      match this
      case Some(v) => v
      case None => default
    }
  }

  /** A dictionary key: a name or a number. */
  datatype Key = Name(name: string) | Number(number: int)

  /** The kinds of exception the modelled code can raise. */
  datatype Error =
    | KeyError(key: Key)
    | ValueError(reason: string)
    | IndexError(reason: string)
    | ZeroDivisionError
    | AttributeError(name: string)
    | NodeNotFound(node: int)

  datatype Result<+T> = Ok(value: T) | Err(error: Error) {

    predicate IsFailure() {
      Err?
    }

    function PropagateFailure<U>(): Result<U>
      requires Err?
    {
      Err(error)
    }

    function Extract(): T
      requires Ok?
    {
      value
    }
  }

  /** A loop that applies `f` to every element in order and stops at the
      first exception. */
  function MapAll<A, B>(xs: seq<A>, f: A -> Result<B>): (r: Result<seq<B>>)
    ensures r.Ok? <==> forall i :: 0 <= i < |xs| ==> f(xs[i]).Ok?
    ensures r.Ok? ==> |r.value| == |xs| && forall i :: 0 <= i < |xs| ==> f(xs[i]) == Ok(r.value[i])
    ensures r.Err? ==> exists i :: 0 <= i < |xs| && f(xs[i]) == Err(r.error)
  {
    if |xs| == 0 then Ok([])
    else
      var first :- f(xs[0]);
      var rest := MapAll(xs[1..], f);
      assert forall i :: 1 <= i < |xs| ==> xs[i] == xs[1..][i - 1];
      if rest.Err? then
        Err(rest.error)
      else
        Ok([first] + rest.value)
  }

  /** `x in xs` on an optional cell: a missing value is in no list. */
  predicate IsIn(x: Option<string>, xs: seq<string>) {
    x.Some? && x.value in xs
  }
}
